=== FILE: README.md ===
# FlowersShop: a verified model of the shop's pricing and order pipeline

FlowersShop is a flower shop. It has an Express/MySQL backend and a Next.js frontend.
This project models the parts of both that compute something, and proves what they do.

**Shopping cart** (`Cart`). This covers:
- the pricing fold `calculateTotals`;
- the five-action `cartReducer`, over cart lines keyed by bouquet id;
- `getItemCount`.

Money is an exact `real`.

**MySQL store** (`Db`). The `bouquets`, `categories`, `orders` and `order_items` tables are sequences of rows in table order. The store also holds the AUTO_INCREMENT counters.

**Generic helpers.**
- `Tables`: filter by key, replace by key, `WHERE`.
- `Sorting`: `ORDER BY` as a stable insertion sort with MySQL's NULL placement, `LIMIT/OFFSET`, and `Math.ceil(total / limit)`.
- `Text`: decimal digits.
- `Values`: JSON body fields that may be `undefined`, `null` or a value, and JavaScript truthiness.

**Controllers.**
- `Orders`: order creation is one transaction. It either commits a header row and one line per requested item, or rolls back every table. Also the paginated order listing and the unchecked status update.
- `Bouquets`: the filtered, sorted and paginated listing; the view-counting fetch; create with its defaults; the partial update, whose merge mixes `||` and `!== undefined`; delete.
- `Categories`: the active-only sorted listing; create; the unconditional update; the delete guarded by "no bouquet uses it".
- `Uploads`: the MIME filter, the 5 MiB limit, the stored file name built with `path.extname`, the returned URL, and the image delete.

**Routes** (`Routes`). The validation rules the route files declare, as predicates. The routes never enforce them: no controller calls `validationResult`. Also which routes require `adminAuth`, and `Handle`, which dispatches one request against the store.

**Frontend.**
- `Catalog`: the catalog page's query string, its paging buttons, and its filter reset.
- `Checkout`: the time-slot generator, the order payload, and the submit handler.
- `BouquetCard`: the card's discounted price and its add-to-cart button.
- `Admin`: the dashboard's revenue and pending figures, deletion from its lists, the status badge, and the view reset.
- `ImageUpload`: the picker's list of uploaded images.

A request body field is `Undefined`, `Null` or `Val(v)`. This is because the source distinguishes `||`, `??` and `!== undefined`.

The mysql2 driver rejects `undefined` as a bind parameter. Every write whose bind list would contain one therefore answers 500 and changes nothing. A `null` is stored as NULL.

A rolled-back transaction restores every table. It keeps the AUTO_INCREMENT counters the transaction used up, as InnoDB does.

The order routes declare validators that no controller enforces, and `total_amount` is stored exactly as the client sends it. The model follows the code: see `Orders.CreateOrder`, `Routes.ValidOrderWithoutPhoneFails` and `Routes.UnlistedStatusIsWritten`.

## Model

| member | source | states |
|---|---|---|
| Cart.CalculateTotals | frontend/src/contexts/cart-context.tsx:25-36 | the final total is the total less the discount, and an empty list prices at zero on all three figures |
| Cart.TotalsBounds | frontend/src/contexts/cart-context.tsx:27-33 | when every line has price and quantity at least 0 and a discount between 0 and 100 percent, 0 ≤ discount ≤ total and 0 ≤ finalTotal ≤ total |
| Cart.TotalsOrderIndependent | frontend/src/contexts/cart-context.tsx:25-36 | the totals depend only on the multiset of lines, not on their order |
| Cart.TotalsConcat | frontend/src/contexts/cart-context.tsx:25-32 | the total and the discount of two lists put together are the sums of the two lists' figures |
| Cart.ZeroQuantityLineIsInert | frontend/src/contexts/cart-context.tsx:25-36 | a line of quantity 0 anywhere in the list changes none of the totals |
| Cart.AddLines | frontend/src/contexts/cart-context.tsx:42-58 | ADD_ITEM for a bouquet without a line appends one new line at the end; for one with a line, the first such line gains the quantity, the length is kept and every other line is unchanged |
| Cart.Reduce | frontend/src/contexts/cart-context.tsx:38-92 | every action but LOAD_CART leaves stored totals equal to the lines' totals; REMOVE_ITEM and UPDATE_QUANTITY ≤ 0 drop exactly the lines with the id; UPDATE_QUANTITY > 0 changes only the matching lines' quantity; CLEAR_CART gives the empty cart; LOAD_CART returns the payload |
| Cart.ReducePreservesInvariant | frontend/src/contexts/cart-context.tsx:38-85 | from a cart with one line per bouquet, every action except LOAD_CART yields a cart with consistent totals and still one line per bouquet |
| Cart.AddExistingTouchesOneLine | frontend/src/contexts/cart-context.tsx:42-48 | with unique lines, adding a bouquet already in the cart bumps exactly its line's quantity and leaves the length and all other lines unchanged |
| Cart.AddNewTotal | frontend/src/contexts/cart-context.tsx:49-62 | adding a bouquet new to the cart raises the total by its price times the quantity |
| Cart.AddExistingTotal | frontend/src/contexts/cart-context.tsx:45-48 | adding to an existing line raises the total by that line's price times the added quantity |
| Cart.AddItemCount | frontend/src/contexts/cart-context.tsx:40-63 | ADD_ITEM of q units raises `getItemCount` by exactly q, whether the bouquet was in the cart or not |
| Cart.RemoveKeepsOrder | frontend/src/contexts/cart-context.tsx:65-69 | REMOVE_ITEM on a list split in two removes from each half separately, so the kept lines stay in their order |
| Cart.RemoveItemCount | frontend/src/contexts/cart-context.tsx:137-139 | the item count is the count after REMOVE_ITEM plus the quantity held under the removed id |
| Cart.UpdateToZeroIsRemove | frontend/src/contexts/cart-context.tsx:71-77 | UPDATE_QUANTITY with q ≤ 0 yields exactly the cart REMOVE_ITEM yields |
| Cart.ClearCartIsZero | frontend/src/contexts/cart-context.tsx:84-85 | CLEAR_CART leaves no lines, zero total, discount, final total and item count, and consistent totals |
| Cart.LoadCartUnchecked | frontend/src/contexts/cart-context.tsx:87-88 | LOAD_CART accepts a payload whose stored totals disagree with its lines |
| Bouquets.SortOptionOf | backend/src/controllers/bouquetController.js:63-73 | each of the five named sort keys selects its own ORDER BY, and every other string that reaches a sorted listing selects name ascending |
| Bouquets.OrderByOf | backend/src/controllers/bouquetController.js:63-73 | the lookup yields no ordering exactly for the twelve names a plain object inherits from Object.prototype (they are truthy, so the name_asc fallback is not taken); every other key yields its sort option |
| Bouquets.FilteredIsListed | backend/src/controllers/bouquetController.js:16-61 | the WHERE clause built condition by condition selects exactly the available rows matching the search, a parsable category and the inclusive price bounds, in table order |
| Bouquets.GetAllBouquets | backend/src/controllers/bouquetController.js:4-105 | 500 exactly when sortBy is an inherited Object.prototype name or the limit or the offset is negative; otherwise total counts the selected rows, every shown row is a stored available bouquet that matches, joined with its category name, rows are in the requested order, pages is ceil(total / limit), and the rows are exactly the LIMIT/OFFSET window of `Bouquets.Ordered` when page and limit parse, and all of it otherwise, which is every matching row exactly once by `Bouquets.OrderedIsPermutation` |
| Bouquets.Ordered | backend/src/controllers/bouquetController.js:16-73 | as many rows as the WHERE selects, each a stored matching bouquet, in the order sortBy asks for |
| Bouquets.OrderedIsPermutation | backend/src/controllers/bouquetController.js:16-73 | the ordered listing is a permutation of the rows the WHERE selects: every matching row exactly once |
| Bouquets.UnknownSortIsNameAsc | backend/src/controllers/bouquetController.js:73 | a sortBy outside the six names and not inherited from Object.prototype gives exactly the answer of sortBy "name_asc" |
| Bouquets.SameOrder | backend/src/controllers/bouquetController.js:16-100 | two queries with the same selected rows, ORDER BY, page and limit get the same answer |
| Bouquets.ListingShowsOnlyAvailable | backend/src/controllers/bouquetController.js:16-17 | every listed bouquet has is_available true |
| Bouquets.GetBouquetById | backend/src/controllers/bouquetController.js:107-133 | 404 and no change exactly when no row has the id; otherwise the row with the id has its view count raised by one, nothing else changes, and the answer is that row joined with its category name |
| Bouquets.NewBouquetRow | backend/src/controllers/bouquetController.js:153-162 | a falsy discount becomes 0, missing images become [], is_available defaults to true and is_featured to false only when nullish, name, price and category are stored as sent; no views yet and created now, by the column defaults the model assumes |
| Bouquets.CreateBouquet | backend/src/controllers/bouquetController.js:135-173 | 201 exactly when no bind is undefined, appending the new row with the next id; otherwise 500 and no change |
| Bouquets.CreateThenFetch | backend/src/controllers/bouquetController.js:107-168 | a created bouquet is found under the id it was given, with one view, given the assumed `view_count` default of 0 |
| Bouquets.Merge | backend/src/controllers/bouquetController.js:200-209 | name, description, price and category_id take a new value only when it is truthy; images take any array, empty ones included; discount, is_available and is_featured take any value that is not undefined, null included; id, views and creation time are kept |
| Bouquets.FalsyPriceAndNameIgnored | backend/src/controllers/bouquetController.js:201-203 | a price of 0 and an empty name leave the current price and name |
| Bouquets.ZeroDiscountAndFalseApplied | backend/src/controllers/bouquetController.js:204-207 | a discount of 0 and is_available false are written |
| Bouquets.MergeIdempotent | backend/src/controllers/bouquetController.js:200-209 | merging the same body twice gives what merging once gives |
| Bouquets.UpdateBouquet | backend/src/controllers/bouquetController.js:175-243 | 404 and no change exactly when the id is unknown; otherwise 200, the merged columns are written to the row with the id and every other row is kept |
| Bouquets.EmptyUpdateChangesNothing | backend/src/controllers/bouquetController.js:200-233 | an update with an empty body leaves the store as it was |
| Bouquets.DeleteBouquet | backend/src/controllers/bouquetController.js:245-256 | always 200; afterwards no row has the id, and every row with another id is still there |
| Bouquets.UpdatePreservesWellFormed | backend/src/controllers/bouquetController.js:211-233 | a store with unique ids below their counters keeps that property through an update |
| Orders.OrderNumberRoundTrip | backend/src/controllers/orderController.js:24 | the order number is "ORD" followed by the timestamp's digits, and reading those digits back gives the timestamp |
| Orders.OrderNumberInjective | backend/src/controllers/orderController.js:24 | two timestamps give the same order number only when they are equal |
| Orders.InsertLines | backend/src/controllers/orderController.js:47-72 | the loop succeeds exactly when every item's bouquet exists and its binds are defined, and then appends one line per item in request order with consecutive ids; it touches only order_items |
| Orders.Rollback | backend/src/controllers/orderController.js:81-84 | every table is as before the transaction, and the AUTO_INCREMENT counters keep what the transaction used |
| Orders.CreateOrder | backend/src/controllers/orderController.js:4-88 | the order is created exactly when the header binds are defined, the order number is free, items is an array and every item is insertable; then one pending header row holding the client's total_amount unchanged and one line per item are added, and bouquets and categories are untouched; on failure every table is as before |
| Orders.CreateStatus | backend/src/controllers/orderController.js:74-84 | 201 exactly on commit and 500 exactly on rollback |
| Orders.MissingBouquetRollsBack | backend/src/controllers/orderController.js:47-84 | an item naming a bouquet not in the table makes the answer 500 and leaves every table as before |
| Orders.CreatedLinesSnapshot | backend/src/controllers/orderController.js:47-72 | each added line references the new order and copies the bouquet's name and price as they were, with the request's quantity |
| Orders.SameMillisecondCollides | backend/src/controllers/orderController.js:24-42 | a second order in the same millisecond fails on the duplicate order number and leaves every table unchanged |
| Orders.CreateOrderPreservesWellFormed | backend/src/controllers/orderController.js:27-84 | unique ids below their counters hold after order creation, committed or rolled back |
| Orders.Matching | backend/src/controllers/orderController.js:100-110 | a non-empty status keeps exactly the orders with that status; no status keeps all orders |
| Orders.GetOrders | backend/src/controllers/orderController.js:90-140 | page defaults to 1 and limit to 10; 500 exactly when the limit or offset is negative or unparsable; total is the number of matching orders, pages is ceil(total / limit), the page has at most `limit` matching orders, newest first, each with exactly its own lines, and it is exactly the LIMIT/OFFSET window of the matching orders sorted newest first |
| Orders.UpdateOrderStatus | backend/src/controllers/orderController.js:142-157 | with a status present, 200 and only the orders with the id take the new status, whatever they had before; an undefined status answers 500 and changes nothing |
| Orders.DeliveredBackToPending | backend/src/controllers/orderController.js:147-150 | a delivered order can be set back to pending: no transition is checked |
| Orders.UpdateStatusIdempotent | backend/src/controllers/orderController.js:147-150 | writing the same status twice gives the store that writing it once gives |
| Categories.GetAllCategories | backend/src/controllers/categoryController.js:4-15 | the listing is a permutation of the active categories, sorted by sort_order ascending |
| Categories.ListingIsActiveCategories | backend/src/controllers/categoryController.js:6-8 | every listed category is a stored active one, and every stored active one is listed |
| Categories.NewCategoryRow | backend/src/controllers/categoryController.js:21-26 | sort_order is the sent one when truthy and 0 otherwise; the new category is active, by the column default the model assumes |
| Categories.CreateCategory | backend/src/controllers/categoryController.js:17-34 | 201 exactly when no bind is undefined, appending the row with the next id; otherwise 500 and no change |
| Categories.CreatedCategoryIsListed | backend/src/controllers/categoryController.js:17-34 | a created category appears in the listing |
| Categories.UpdateCategory | backend/src/controllers/categoryController.js:36-57 | all five columns of the rows with the id take the body's values with no merge, other rows are kept; a missing field answers 500 and changes nothing |
| Categories.InactiveUpdateHidesCategory | backend/src/controllers/categoryController.js:41-49 | an update whose is_active is not true takes the category out of the listing |
| Categories.DeleteCategory | backend/src/controllers/categoryController.js:59-82 | 400 and no change exactly when a bouquet references the category; otherwise 200 and the category's rows are removed |
| Categories.DeleteKeepsReferencedCategories | backend/src/controllers/categoryController.js:64-75 | a category some bouquet references survives any delete |
| Categories.CategoryOpsPreserveWellFormed | backend/src/controllers/categoryController.js:17-82 | create, update and delete keep ids unique and below their counter |
| Routes.FormatDateIsDate | backend/src/routes/orders.js:16 | a YYYY-MM-DD string passes the delivery-date rule exactly when the day exists in that month of that year |
| Routes.CreateRulesImplyUpdateRules | backend/src/routes/bouquets.js:13-27 | a valid create body is a valid update body, and a valid update body with a name and a price is a valid create body; the same for categories |
| Routes.Handle | backend/src/routes/bouquets.js:9-29 | an admin route without a valid token answers 401 and changes nothing; POST /orders answers with the order controller's status; the three listings change nothing |
| Routes.PublicRoutesIgnoreAuth | backend/src/routes/orders.js:9-22 | the public routes answer the same with or without admin rights |
| Routes.RejectedOrderChangesNoTable | backend/src/routes/orders.js:9-18 | an order request answered with anything but 201 leaves every table unchanged |
| Routes.HandlePreservesWellFormed | backend/src/routes/categories.js:9-24 | every request keeps the store's ids unique and below their counters |
| Routes.OrderOutcomeIgnoresValidatedFields | backend/src/routes/orders.js:11-12 | the order's outcome does not depend on customer_phone or customer_address, the two fields the validator checks |
| Routes.ValidOrderWithoutPhoneFails | backend/src/routes/orders.js:10-18 | a body the order rules accept but without `phone` is rolled back with 500 |
| Routes.UnlistedStatusIsWritten | backend/src/routes/orders.js:22-26 | a status outside the five names fails the declared rule and is still written with 200 |
| Routes.NegativeSortOrderIsStored | backend/src/routes/categories.js:18-22 | a negative sort_order fails the declared rule and is still stored with 200 |
| Uploads.FileFilter | backend/src/controllers/uploadController.js:26-34 | a file is accepted exactly when its MIME type is image/jpeg, image/png or image/webp |
| Uploads.ExtName | backend/src/controllers/uploadController.js:21 | the extension is empty or starts with a dot |
| Uploads.ExtNameOfFileName | backend/src/controllers/uploadController.js:21 | for a name `stem.ext` without slashes and with no dot in ext, the extension is ".ext", except for the name ".." |
| Uploads.StoredName | backend/src/controllers/uploadController.js:19-22 | the stored name ends with the original name's extension |
| Uploads.UploadUrl | backend/src/controllers/uploadController.js:53-55 | the URL starts with "/uploads/", ends with the file name, and is exactly as long as the three parts and the slashes |
| Uploads.UploadImage | backend/src/controllers/uploadController.js:37-65 | no file gives 400; a refused MIME type or a file over 5 MiB gives 500; otherwise the file is stored under its generated name in the type's directory and its URL returned; a rejection stores nothing |
| Uploads.DeleteImage | backend/src/controllers/uploadController.js:67-82 | 200 exactly when the file exists, which then is removed and nothing else; 404 otherwise with no change |
| Uploads.UploadThenDelete | backend/src/controllers/uploadController.js:47-82 | deleting a just-uploaded file succeeds, restores the directory when the name was new, and a second delete gives 404 |
| Uploads.UploadedUrlKeepsExtension | backend/src/controllers/uploadController.js:19-55 | an accepted upload of `stem.ext` returns a URL under "/uploads/" ending in ".ext" |
| Catalog.RequestParams | frontend/src/app/catalog/page.tsx:31-38 | the request has page, limit 12, sort and order; category exactly when a category is selected; search exactly when the text is non-empty |
| Catalog.ControllerReadsRequest | frontend/src/app/catalog/page.tsx:31-40 | the listing controller reads the page's request as the page, limit 12, the category and search sent, and sort "name_asc" |
| Catalog.SortChoiceIgnored | frontend/src/app/catalog/page.tsx:36-37 | whatever sort field and order the page sends, the listing answers as for name ascending |
| Catalog.Prev | frontend/src/app/catalog/page.tsx:229 | "back" goes one page down, but never below 1, and changes nothing else |
| Catalog.Next | frontend/src/app/catalog/page.tsx:239 | "forward" goes one page up, but never above the page count, and changes nothing else |
| Catalog.PagingStaysInRange | frontend/src/app/catalog/page.tsx:229-240 | both buttons keep the page within [1, totalPages], and each is disabled exactly when pressing it would not move the page |
| Catalog.NextPrevInverse | frontend/src/app/catalog/page.tsx:229-240 | forward then back, or back then forward, returns to the page when the first button was enabled |
| Catalog.Loaded | frontend/src/app/catalog/page.tsx:42 | the page count is the answer's non-zero totalPages, else 1 |
| Catalog.StuckOnFirstPage | frontend/src/app/catalog/page.tsx:42-43 | the listing answer carries no totalPages, so the page count stays 1, the pagination block (rendered only for more than one page, line 225) is not shown, and the page stays 1 |
| Catalog.ClearFilters | frontend/src/app/catalog/page.tsx:91-97 | the reset gives empty search, all categories, created_at, desc and page 1 |
| Catalog.ClearedRequest | frontend/src/app/catalog/page.tsx:91-97 | after the reset the request is page 1, limit 12, sort created_at, order desc and nothing else |
| Catalog.HandleSearch | frontend/src/app/catalog/page.tsx:80-83 | the search resets to page 1 and the request for page 1 carries the typed text to the controller |
| Checkout.TimeSlots | frontend/src/app/checkout/page.tsx:65-71 | the loop yields 25 labels, the i-th being the half-hour slot i steps after 09:00 |
| Checkout.SlotsBeforeGrid | frontend/src/app/checkout/page.tsx:66-71 | after the hours before h the list holds 2·(h−9) slots, 25 once past 21, each the grid slot at its position |
| Checkout.SlotsAscend | frontend/src/app/checkout/page.tsx:65-71 | the slots begin "09:00", end "21:00", are strictly increasing as times of day, and do not include "21:30" |
| Checkout.PaddedHour | frontend/src/app/checkout/page.tsx:67-69 | an hour under 100 is written as exactly two digits that read back as the hour |
| Checkout.LabelTime | frontend/src/app/checkout/page.tsx:67-69 | a label reads back as its hour times 60 plus 30 for a half hour |
| Checkout.OrderPayload | frontend/src/app/checkout/page.tsx:45-49 | the payload carries one item per cart line with its bouquet id and quantity, total_amount is the cart's final total, and customer_phone and customer_address are absent |
| Checkout.PayloadFailsDeclaredRules | frontend/src/app/checkout/page.tsx:45-49 | the checkout's own payload never satisfies the order route's declared rules |
| Checkout.PayloadOutcome | frontend/src/app/checkout/page.tsx:45-51 | the order is stored exactly when the order number is free and every cart bouquet still exists, with the cart's final total as total_amount |
| Checkout.SubmitAsWritten | frontend/src/app/checkout/page.tsx:51-58 | as written: a failed request keeps the cart and alerts; an accepted one clears the cart |
| Checkout.StoredOrderReportedAsFailure | frontend/src/app/checkout/page.tsx:54-55 | as written, a stored order empties the cart, raises the failure alert and does not redirect |
| Checkout.Submit | frontend/src/app/checkout/page.tsx:40-62 | a failed request keeps the cart and alerts; an accepted one clears the cart and redirects to the confirmation page for the new id |
| Checkout.SubmitClearsOnlyOnSuccess | frontend/src/app/checkout/page.tsx:51-58 | the cart ends empty exactly when the order was stored or was already empty; the alert shows exactly on failure; the redirect carries the new order's id |
| BouquetCard.DiscountedPrice | frontend/src/components/bouquet-card.tsx:29-31 | with no discount or a zero discount the shown price is the price |
| BouquetCard.DiscountedPriceBounds | frontend/src/components/bouquet-card.tsx:29-31 | with price ≥ 0 and discount in [0, 100], the shown price lies between 0 and the price |
| BouquetCard.CardPriceMatchesCart | frontend/src/components/bouquet-card.tsx:29-31 | q units at the shown price cost the new cart line's total less its discount |
| BouquetCard.ClickAdd | frontend/src/components/bouquet-card.tsx:20-27 | a disabled button fires no click and leaves the state unchanged; an enabled click ends with loading cleared and the cart's totals consistent |
| BouquetCard.ClickAddsOneUnit | frontend/src/components/bouquet-card.tsx:23 | a click on an available bouquet adds exactly one unit; an unavailable bouquet is never added |
| BouquetCard.ClickRaisesTotal | frontend/src/components/bouquet-card.tsx:69 | a click on an available bouquet new to the cart raises the total by its price |
| Admin.RevenueSplit | frontend/src/app/admin/page.tsx:277 | revenue is the revenue of the orders without an id plus that of the orders with it, for `total_amount` read as a number |
| Admin.PendingOrders | frontend/src/app/admin/page.tsx:278 | the pending count is at most the number of orders, equals it exactly when all are pending, and is 0 exactly when none is |
| Admin.HandleDelete | frontend/src/app/admin/page.tsx:87-114 | with no dialog nothing changes; the dialog always closes; a failed or order delete reports failure and keeps every list; a successful delete drops exactly the entries with the id from its own list and keeps the others |
| Admin.DeleteKeepsOthersInOrder | frontend/src/app/admin/page.tsx:96-98 | deleting from a list split in two deletes from each half, so the others stay in order |
| Admin.OrderDeleteChangesNothing | frontend/src/app/admin/page.tsx:91-94 | deleting an order reports failure and keeps the orders, the revenue and the pending count |
| Admin.StatusBadge | frontend/src/app/admin/page.tsx:116-125 | the confirmed, delivered and cancelled badges show exactly for those statuses; the twelve names inherited from Object.prototype find a member with no label or variant and give a blank badge; every other status gets the pending badge |
| Admin.PreparingLooksPending | frontend/src/app/admin/page.tsx:116-124 | "preparing" and "pending" show the same badge, and they are the only two accepted statuses that do |
| Admin.ResetViews | frontend/src/app/admin/page.tsx:127-134 | every tab is back to its list and nothing is selected |
| ImageUpload.HandleFileSelect | frontend/src/components/image-upload.tsx:23-49 | an empty selection does nothing; a successful upload appends the returned URLs in order and reports the new list; a failure alerts and keeps the list; the uploading flag ends down |
| ImageUpload.FilterIndex | frontend/src/components/image-upload.tsx:52 | the filter drops exactly the element at the index, or nothing when the index is outside |
| ImageUpload.RemoveImage | frontend/src/components/image-upload.tsx:51-55 | an index in range is removed and the rest keep their order; any other index keeps the list; the new list is reported |
| ImageUpload.RemoveUndoesUpload | frontend/src/components/image-upload.tsx:35-55 | removing the image just uploaded in single mode gives the previous list back |
| ImageUpload.SingleModeHoldsOneImage | frontend/src/components/image-upload.tsx:69 | in single mode the picker never holds more than one image |
| ImageUpload.MaxFilesNotEnforced | frontend/src/components/image-upload.tsx:69-77 | in multiple mode the input stays enabled at five images and a one-file upload appends a sixth |
| Sorting.SortBy | backend/src/controllers/bouquetController.js:73 | ORDER BY yields a permutation of the rows in key order |
| Sorting.Page | backend/src/controllers/bouquetController.js:76-83 | LIMIT/OFFSET yields the rows from the offset on, at most limit of them |
| Sorting.PageCount | backend/src/controllers/orderController.js:133 | the page count is the least integer not below total / limit, absent when the limit is 0 |
| Tables.WithoutConcat | frontend/src/contexts/cart-context.tsx:66 | filtering out a key distributes over concatenation |
| Text.ParseNatToString | backend/src/controllers/orderController.js:24 | a number's decimal digits read back as the number |

## Left out

- Authentication: `adminAuth` is a boolean input of `Routes.Handle`. Its bcrypt and JSON Web Token code is foreign.
- The HTTP plumbing: the frontend's API client, its token in localStorage and its response-shape fallbacks; the Express wiring and the connection pool. The frontend parts take the server's answers as parameters.
- The LOAD_CART round trip through localStorage and JSON parsing. `Reduce` models LOAD_CART itself.
- The admin form components (`bouquet-form.tsx`, `bouquet-edit.tsx`, `category-form.tsx`, `category-edit.tsx`). They are UI state plus JavaScript `Number()` coercion.
- Presentation: the order details, the cart drawer and cart page, the header, the layouts, the delete dialog, and `toLocaleString` formatting.
- Concurrency between simultaneous transactions. Each operation is atomic on one store.
- `Date.now()` and multer's random suffix are parameters. Two orders in the same millisecond are covered by `Orders.SameMillisecondCollides`.
- Disk I/O in the upload controller: mkdir, unlink and existence checks. The directory is a set of (type, name) files. A `:type` or `:filename` holding `..` is not resolved as a path.
- Multer's storage engine and its error objects. A filter refusal or a file over the limit is modelled as the 500 of the error handler; `middleware/errorHandler.js` is not part of this model.
- A multi-file upload. The frontend posts several files to `/api/upload/bouquets/multiple`. The upload router defines only `POST /:type` and `DELETE /:type/:filename`, so no route serves that POST, the request fails, and the picker alerts. `ImageUpload.HandleFileSelect` takes that answer as a parameter, `None` against this backend.
- Categories.NewCategoryRow: the INSERT does not set `is_active`, and no schema file in this model gives its default. The model assumes the default is TRUE. An `is_active` sent with the create request is ignored, as in the controller.
- Categories.CreatedCategoryIsListed: it rests on the same assumed `is_active` default of TRUE.
- Bouquets.NewBouquetRow: the INSERT sets neither `view_count` nor `created_at`, and no schema file in this model gives their defaults. The model assumes `view_count` defaults to 0 and `created_at` to the time of the insert. `Bouquets.Popular` and `Bouquets.Newest` sort on these two columns.
- Bouquets.CreateThenFetch: "one view" rests on the assumed `view_count` default of 0. With a NULL default, `view_count = view_count + 1` would leave the column NULL.
- Admin.RevenueSplit: the model sums `total_amount` as a number. mysql2 returns DECIMAL columns as strings, and the connection does not set `decimalNumbers`. If `total_amount` is DECIMAL, `sum + order.total_amount` concatenates text: `0 + "1500.00" + "2300.00"` gives "01500.002300.00", not 3800. The figure the model proves is the one the dashboard shows only when the column arrives as a number.
- SQL `LIKE` matching, the name collation and the `final_price` column. `Bouquets.Sql` passes them as functions.
- MySQL rounding of DECIMAL columns, and mysql2 returning DECIMAL as strings. Money is exact.
- JSON values of unexpected types in request bodies, such as a string price or an array name. Fields are typed.
- `parseInt` prefix parsing of query strings, such as "12abc" or "-3". Only all-digit strings parse; anything else, the empty string included, is NaN.
- Path ids that are not numbers.
- Ties in `ORDER BY`: the model keeps table order, which SQL leaves unspecified.
- Routes.IsCalendarDate: stricter than express-validator's `isDate`. Both demand four-digit year and two-digit month and day parts. But `isDate` compares only as many delimiter-separated parts as its `YYYY/MM/DD` format has, so it also accepts a valid date followed by more parts, such as `2024-01-05-7` or `2024-01-05-`. The model accepts exactly ten characters. Some validator.js versions also accept mixed delimiters, such as `2024-01/05`; the model demands one delimiter throughout. The package version is not part of this model.
- Orders.Matching: `WHERE status = ?` is modelled as exact string equality. MySQL compares by the column's collation, and the default utf8mb4 collations ignore case. Under those, `?status=PENDING` would list and count the pending orders, while the model lists none. No schema file in this model gives the column's collation.
- Routes.UnlistedStatusIsWritten: the model assumes `orders.status` stores any string. No schema file in this model gives the column's type. If it is an ENUM of the five statuses, MySQL in strict mode rejects the UPDATE, and the controller's catch answers 500 instead of 200. `Orders.UpdateOrderStatus` rests on the same assumption.
- The validators' coercion of numeric strings: `isInt` and `isFloat` are modelled on JSON numbers only, and `isString` on notes by the field's type.

## Findings

| source | as written | input that shows it | evidently intended | confidence | as-written member | corrected member |
|---|---|---|---|---|---|---|
| frontend/src/app/checkout/page.tsx:54-55 | after a stored order the cart is cleared, then `response.order.id` is read; the order controller answers `{order_id, order_number, message}`, so the read throws and the catch alerts failure without a redirect | any cart whose bouquets all exist, with a free order number: the order is stored, the cart is emptied, "error" is shown | redirect to the confirmation page with the new order's id (`order_id`) and no alert | high, not executed | Checkout.StoredOrderReportedAsFailure | Checkout.SubmitClearsOnlyOnSuccess |

=== FILE: admin.dfy ===
/** The admin dashboard (frontend/src/app/admin/page.tsx): the revenue and
    pending-order figures, deleting from the three lists, the status
    badge, and the reset of the three panels. */
module Admin {
  import opened Values
  import opened Types
  import Tables
  import Routes

  // ------------------------------------------------------------ the figures

  function OrderId(o: Order): int {
    o.id
  }

  /** `orders.reduce((sum, order) => sum + order.total_amount, 0)`, with
      `total_amount` read as a number; a DECIMAL column that mysql2 hands
      over as a string would make `+` concatenate instead. */
  function Revenue(orders: seq<Order>): real {
    if |orders| == 0 then 0.0 else Revenue(orders[..|orders| - 1]) + orders[|orders| - 1].totalAmount
  }

  lemma {:induction false} RevenueConcat(a: seq<Order>, b: seq<Order>)
    ensures Revenue(a + b) == Revenue(a) + Revenue(b)
    decreases |b|
  {
    if |b| > 0 {
      assert (a + b)[..|a + b| - 1] == a + b[..|b| - 1];
      RevenueConcat(a, b[..|b| - 1]);
    } else {
      assert a + b == a;
    }
  }

  /** The revenue is the revenue of the orders without a given id plus
      that of the orders with it: deleting an order from the list would
      take exactly its amount off the figure. */
  lemma {:induction false} RevenueSplit(orders: seq<Order>, id: int)
    ensures Revenue(orders) == Revenue(Tables.Without(orders, OrderId, id))
                             + Revenue(Tables.Where(orders, (o: Order) => o.id == id))
    decreases |orders|
  {
    if |orders| > 0 {
      var x := orders[0];
      var rest := orders[1..];
      assert orders == [x] + rest;
      RevenueSplit(rest, id);
      RevenueConcat([x], rest);
      var kept := if x.id != id then [x] else [];
      var gone := if x.id == id then [x] else [];
      RevenueConcat(kept, Tables.Without(rest, OrderId, id));
      RevenueConcat(gone, Tables.Where(rest, (o: Order) => o.id == id));
      assert [x][..0] == [];
    }
  }

  predicate Pending(o: Order) {
    o.status == "pending"
  }

  /** `orders.filter(order => order.status === "pending").length`: never
      more than the number of orders, and equal to it exactly when every
      order is pending. */
  function PendingOrders(orders: seq<Order>): (n: nat)
    ensures n <= |orders|
    ensures n == |orders| <==> forall i :: 0 <= i < |orders| ==> Pending(orders[i])
    ensures n == 0 <==> forall i :: 0 <= i < |orders| ==> !Pending(orders[i])
  {
    if |orders| == 0 then 0
    else
      var rest := PendingOrders(orders[1..]);
      assert forall i :: 1 <= i < |orders| ==> orders[i] == orders[1..][i - 1];
      (if Pending(orders[0]) then 1 else 0) + rest
  }

  // --------------------------------------------------------------- deletion

  datatype Kind = OrderKind | BouquetKind | CategoryKind

  /** The open delete dialog: what to delete, and its id. */
  datatype Confirmation = Confirmation(kind: Kind, id: int, name: string)

  datatype Notice = Deleted(kind: Kind) | DeleteFailed

  /** The three lists the dashboard shows and the open dialog. */
  datatype Dashboard = Dashboard(
    orders: seq<Order>,
    bouquets: seq<Bouquet>,
    categories: seq<Category>,
    confirmation: Option<Confirmation>,
    notice: Option<Notice>)

  function BouquetId(b: Bouquet): int {
    b.id
  }

  function CategoryId(c: Category): int {
    c.id
  }

  /** The API has `DELETE` routes for bouquets and categories only: the
      order request finds no route and fails whatever the server would
      have done. */
  predicate DeleteAccepted(kind: Kind, serverOk: bool) {
    kind != OrderKind && serverOk
  }

  /** `handleDelete`: after a successful request, drop every entry with the
      id from the matching list and report success; after a failed one,
      report the failure. The dialog closes either way. Without an open
      dialog nothing happens. */
  function HandleDelete(d: Dashboard, serverOk: bool): (r: Dashboard)
    ensures d.confirmation.None? ==> r == d
    ensures d.confirmation.Some? ==> r.confirmation.None? && r.notice.Some?
    ensures d.confirmation.Some? && !DeleteAccepted(d.confirmation.value.kind, serverOk) ==>
      r == d.(confirmation := None, notice := Some(DeleteFailed))
    ensures d.confirmation.Some? && DeleteAccepted(d.confirmation.value.kind, serverOk) ==>
      var c := d.confirmation.value;
      r.notice == Some(Deleted(c.kind))
      && r.orders == d.orders
      && r.bouquets == (if c.kind == BouquetKind then Tables.Without(d.bouquets, BouquetId, c.id) else d.bouquets)
      && r.categories == (if c.kind == CategoryKind then Tables.Without(d.categories, CategoryId, c.id) else d.categories)
  {
    if d.confirmation.None? then d
    else
      var c := d.confirmation.value;
      if !DeleteAccepted(c.kind, serverOk) then d.(confirmation := None, notice := Some(DeleteFailed))
      else match c.kind
        case OrderKind => d.(orders := Tables.Without(d.orders, OrderId, c.id), confirmation := None, notice := Some(Deleted(c.kind)))
        case BouquetKind => d.(bouquets := Tables.Without(d.bouquets, BouquetId, c.id), confirmation := None, notice := Some(Deleted(c.kind)))
        case CategoryKind => d.(categories := Tables.Without(d.categories, CategoryId, c.id), confirmation := None, notice := Some(Deleted(c.kind)))
  }

  /** A successful delete removes exactly the entries with the id and
      keeps the others in their order: deleting from a list split in two
      deletes from each half. */
  lemma DeleteKeepsOthersInOrder(d: Dashboard, serverOk: bool, a: seq<Bouquet>, b: seq<Bouquet>)
    requires d.confirmation.Some? && d.confirmation.value.kind == BouquetKind && serverOk
    requires d.bouquets == a + b
    ensures HandleDelete(d, serverOk).bouquets
         == Tables.Without(a, BouquetId, d.confirmation.value.id) + Tables.Without(b, BouquetId, d.confirmation.value.id)
  {
    Tables.WithoutConcat(a, b, BouquetId, d.confirmation.value.id);
  }

  /** Deleting an order never takes it off the dashboard, and the revenue
      and pending figures stay as they were. */
  lemma OrderDeleteChangesNothing(d: Dashboard, serverOk: bool)
    requires d.confirmation.Some? && d.confirmation.value.kind == OrderKind
    ensures var r := HandleDelete(d, serverOk);
      r.orders == d.orders && r.notice == Some(DeleteFailed)
      && Revenue(r.orders) == Revenue(d.orders) && PendingOrders(r.orders) == PendingOrders(d.orders)
  {
  }

  // ----------------------------------------------------------------- badges

  /** The four configured badges, and the badge with neither label nor
      variant that an inherited member of `statusConfig` produces. */
  datatype Badge = PendingBadge | ConfirmedBadge | DeliveredBadge | CancelledBadge | BlankBadge

  /** `statusConfig[status] || statusConfig.pending`: four known statuses;
      an inherited name finds a truthy member with no `label` or `variant`
      and renders a blank default badge; anything else gets the pending
      badge. */
  function StatusBadge(status: string): (b: Badge)
    ensures b == ConfirmedBadge <==> status == "confirmed"
    ensures b == DeliveredBadge <==> status == "delivered"
    ensures b == CancelledBadge <==> status == "cancelled"
    ensures b == BlankBadge <==> status in InheritedKeys
    ensures b == PendingBadge <==> status !in {"confirmed", "delivered", "cancelled"} && status !in InheritedKeys
  {
    if status in InheritedKeys then BlankBadge
    else if status == "confirmed" then ConfirmedBadge
    else if status == "delivered" then DeliveredBadge
    else if status == "cancelled" then CancelledBadge
    else PendingBadge
  }

  /** "preparing", a status the order route accepts, is shown with the
      pending badge: of the five statuses the API knows, two look alike. */
  lemma PreparingLooksPending()
    ensures "preparing" in Routes.OrderStatuses && "pending" in Routes.OrderStatuses
    ensures StatusBadge("preparing") == StatusBadge("pending") == PendingBadge
    ensures forall s, t ::
      (s in Routes.OrderStatuses && t in Routes.OrderStatuses && s != t && StatusBadge(s) == StatusBadge(t))
      ==> {s, t} == {"pending", "preparing"}
  {
  }

  // ------------------------------------------------------------------ views

  datatype ViewMode = List | Create | Edit | View

  /** Which panel each tab shows and which entry it has selected. */
  datatype Views = Views(
    orderMode: ViewMode, bouquetMode: ViewMode, categoryMode: ViewMode,
    selectedOrder: Option<int>, selectedBouquet: Option<int>, selectedCategory: Option<int>)

  const Start := Views(List, List, List, None, None, None)

  /** `resetViews`: every tab back to its list with nothing selected, from
      any state. */
  function ResetViews(v: Views): (r: Views)
    ensures r.orderMode == List && r.bouquetMode == List && r.categoryMode == List
    ensures r.selectedOrder.None? && r.selectedBouquet.None? && r.selectedCategory.None?
  {
    Start
  }
}

=== FILE: bouquetcard.dfy ===
/** The catalog card (frontend/src/components/bouquet-card.tsx): the price
    it shows and its add-to-cart button. */
module BouquetCard {
  import opened Values
  import opened Types
  import Cart

  /** `discount_percentage ? price * (1 - discount_percentage / 100) : price`. */
  function DiscountedPrice(b: Bouquet): (p: real)
    ensures (b.discountPct.None? || b.discountPct.value == 0.0) ==> p == b.price
  {
    if b.discountPct.Some? && b.discountPct.value != 0.0 then b.price * (1.0 - b.discountPct.value / 100.0)
    else b.price
  }

  /** With a non-negative price and a discount between 0 and 100 percent,
      the shown price lies between 0 and the full price. */
  lemma DiscountedPriceBounds(b: Bouquet)
    requires b.price >= 0.0 && (b.discountPct.Some? ==> 0.0 <= b.discountPct.value <= 100.0)
    ensures 0.0 <= DiscountedPrice(b) <= b.price
  {
    if b.discountPct.Some? && b.discountPct.value != 0.0 {
      var pct := b.discountPct.value;
      Cart.MulNonNegative(b.price, pct / 100.0);
      Cart.MulNonNegative(b.price, 1.0 - pct / 100.0);
      assert b.price * (1.0 - pct / 100.0) == b.price - b.price * (pct / 100.0);
    }
  }

  /** The card prices a bouquet the way the cart will: q units at the shown
      price cost the new line's total less its discount. */
  lemma CardPriceMatchesCart(b: Bouquet, q: int)
    ensures var line := Cart.NewLine(b, q);
      DiscountedPrice(b) * (q as real) == Cart.LineTotal(line) - Cart.LineDiscount(line)
  {
    var line := Cart.NewLine(b, q);
    if Cart.HasDiscount(line) {
      var pct := b.discountPct.value;
      calc {
        DiscountedPrice(b) * (q as real);
        b.price * (1.0 - pct / 100.0) * (q as real);
        b.price * (q as real) - b.price * (q as real) * pct / 100.0;
      }
    }
  }

  /** `disabled={!bouquet.is_available || isLoading}`. */
  predicate AddDisabled(b: Bouquet, loading: bool) {
    !b.isAvailable || loading
  }

  /** The card's state: the cart it adds to and its loading flag. */
  datatype CardState = CardState(cart: Types.Cart, loading: bool)

  /** `handleAddToCart`: `addToCart(bouquet, 1)` between setting and
      clearing the loading flag; a disabled button fires no click and
      leaves the state as it is. */
  function ClickAdd(s: CardState, b: Bouquet): (r: CardState)
    ensures AddDisabled(b, s.loading) ==> r == s
    ensures !AddDisabled(b, s.loading) ==> !r.loading && Cart.Consistent(r.cart)
  {
    if AddDisabled(b, s.loading) then s
    else CardState(Cart.Reduce(s.cart, Cart.AddItem(b, 1)), false)
  }

  /** A click on an available bouquet adds exactly one unit, and an
      unavailable bouquet can never be added from its card. */
  lemma ClickAddsOneUnit(s: CardState, b: Bouquet)
    requires !s.loading
    ensures b.isAvailable ==> Cart.ItemCount(ClickAdd(s, b).cart.items) == Cart.ItemCount(s.cart.items) + 1
    ensures !b.isAvailable ==> ClickAdd(s, b).cart == s.cart
  {
    Cart.AddItemCount(s.cart, b, 1);
  }

  /** A click raises the cart total by the bouquet's undiscounted price
      when the bouquet is new to the cart. */
  lemma ClickRaisesTotal(s: CardState, b: Bouquet)
    requires !s.loading && b.isAvailable
    requires forall i :: 0 <= i < |s.cart.items| ==> s.cart.items[i].bouquetId != b.id
    ensures Cart.CalculateTotals(ClickAdd(s, b).cart.items).total
         == Cart.CalculateTotals(s.cart.items).total + b.price
  {
    Cart.AddNewTotal(s.cart, b, 1);
  }
}

=== FILE: bouquets.dfy ===
/** The bouquet controller (backend/src/controllers/bouquetController.js):
    the public catalog listing, the detail view that counts views, and the
    admin create, partial update and delete. */
module Bouquets {
  import opened Values
  import Tables
  import Sorting
  import opened Db

  /** The JSON body of create and update. */
  datatype BouquetBody = BouquetBody(
    name: Field<string>,
    description: Field<string>,
    price: Field<real>,
    discountPct: Field<real>,
    categoryId: Field<real>,
    images: Field<seq<string>>,
    isAvailable: Field<bool>,
    isFeatured: Field<bool>)

  const EmptyBody := BouquetBody(Undefined, Undefined, Undefined, Undefined, Undefined, Undefined, Undefined, Undefined)

  /** What the listing takes from MySQL rather than defining itself:
      `col LIKE '%s%'` on a text value, the schema's `final_price` column,
      and the collation order of names as a numeric rank. */
  datatype Sql = Sql(
    like: (string, string) -> bool,
    finalPrice: BouquetRow -> Option<real>,
    nameRank: string -> real)

  /** The listing's query string. `search` is "" when absent or empty;
      `category`, `minPrice`, `maxPrice`, `page` and `limit` are Missing
      when absent and otherwise the `parseInt`/`parseFloat` result (NaN for
      an empty value, which the falsy checks on the filters skip just as
      they skip NaN); an absent `sortBy` is "name_asc". */
  datatype ListQuery = ListQuery(
    search: string,
    category: Parsed<int>,
    minPrice: Parsed<real>,
    maxPrice: Parsed<real>,
    sortBy: string,
    page: Parsed<int>,
    limit: Parsed<int>)

  datatype SortOption = NameAsc | NameDesc | PriceAsc | PriceDesc | Newest | Popular

  /** The sort option of a `sortBy` that is not an inherited name: one of
      the five named keys, and every other string falls back to name
      ascending. */
  function SortOptionOf(s: string): (r: SortOption)
    ensures r.NameDesc? <==> s == "name_desc"
    ensures r.PriceAsc? <==> s == "price_asc"
    ensures r.PriceDesc? <==> s == "price_desc"
    ensures r.Newest? <==> s == "newest"
    ensures r.Popular? <==> s == "popular"
    ensures r.NameAsc? <==> s !in {"name_desc", "price_asc", "price_desc", "newest", "popular"}
  {
    if s == "name_desc" then NameDesc
    else if s == "price_asc" then PriceAsc
    else if s == "price_desc" then PriceDesc
    else if s == "newest" then Newest
    else if s == "popular" then Popular
    else NameAsc
  }

  /** `sortOptions[sortBy] || sortOptions.name_asc` as it lands in the
      ORDER BY clause: an option, or None when the lookup finds an inherited
      member whose text is not an ordering expression, which makes MySQL
      reject the statement. */
  function OrderByOf(s: string): (r: Option<SortOption>)
    ensures r.None? <==> s in InheritedKeys
    ensures r.Some? ==> r.value == SortOptionOf(s)
  {
    if s in InheritedKeys then None else Some(SortOptionOf(s))
  }

  function NameKey(sql: Sql): BouquetRow -> Option<real> {
    (b: BouquetRow) => if b.name.Some? then Some(sql.nameRank(b.name.value)) else None
  }

  /** The ORDER BY column of each option. */
  function SortKey(sql: Sql, o: SortOption): BouquetRow -> Option<real> {
    match o
    case NameAsc => NameKey(sql)
    case NameDesc => NameKey(sql)
    case PriceAsc => sql.finalPrice
    case PriceDesc => sql.finalPrice
    case Newest => (b: BouquetRow) => Some(b.createdAt as real)
    case Popular => (b: BouquetRow) => Some(b.viewCount as real)
  }

  predicate Descending(o: SortOption) {
    o.NameDesc? || o.PriceDesc? || o.Newest? || o.Popular?
  }

  /** `(b.name LIKE ? OR b.description LIKE ?)`; NULL matches nothing. */
  predicate Matches(sql: Sql, b: BouquetRow, search: string) {
    (b.name.Some? && sql.like(b.name.value, search))
    || (b.description.Some? && sql.like(b.description.value, search))
  }

  predicate Available(b: BouquetRow) {
    b.isAvailable == Some(true)
  }

  predicate InCategory(b: BouquetRow, c: int) {
    b.categoryId == Some(c as real)
  }

  predicate AtLeast(sql: Sql, b: BouquetRow, lo: real) {
    sql.finalPrice(b).Some? && sql.finalPrice(b).value >= lo
  }

  predicate AtMost(sql: Sql, b: BouquetRow, hi: real) {
    sql.finalPrice(b).Some? && sql.finalPrice(b).value <= hi
  }

  /** Which rows the listing selects, stated condition by condition: only
      available bouquets; the search, a parsable category and parsable
      price bounds (inclusive, on final_price) narrow it; a NaN parameter
      is ignored. */
  predicate Listed(sql: Sql, q: ListQuery, b: BouquetRow) {
    Available(b)
    && (q.search != "" ==> Matches(sql, b, q.search))
    && (q.category.Num? ==> InCategory(b, q.category.value))
    && (q.minPrice.Num? ==> AtLeast(sql, b, q.minPrice.value))
    && (q.maxPrice.Num? ==> AtMost(sql, b, q.maxPrice.value))
  }

  /** The WHERE clause as the controller builds it: one condition appended
      per parameter, in the source's order. */
  function Filtered(sql: Sql, q: ListQuery, rows: seq<BouquetRow>): seq<BouquetRow> {
    var s0 := Tables.Where(rows, Available);
    var s1 := if q.search != "" then Tables.Where(s0, (b: BouquetRow) => Matches(sql, b, q.search)) else s0;
    var s2 := if q.category.Num? then Tables.Where(s1, (b: BouquetRow) => InCategory(b, q.category.value)) else s1;
    var s3 := if q.minPrice.Num? then Tables.Where(s2, (b: BouquetRow) => AtLeast(sql, b, q.minPrice.value)) else s2;
    if q.maxPrice.Num? then Tables.Where(s3, (b: BouquetRow) => AtMost(sql, b, q.maxPrice.value)) else s3
  }

  /** The clause-by-clause query selects exactly the rows `Listed` describes,
      in table order. */
  lemma FilteredIsListed(sql: Sql, q: ListQuery, rows: seq<BouquetRow>)
    ensures Filtered(sql, q, rows) == Tables.Where(rows, (b: BouquetRow) => Listed(sql, q, b))
  {
    var p0 := (b: BouquetRow) => Available(b);
    var p1 := (b: BouquetRow) => p0(b) && (q.search != "" ==> Matches(sql, b, q.search));
    var p2 := (b: BouquetRow) => p1(b) && (q.category.Num? ==> InCategory(b, q.category.value));
    var p3 := (b: BouquetRow) => p2(b) && (q.minPrice.Num? ==> AtLeast(sql, b, q.minPrice.value));
    var p4 := (b: BouquetRow) => p3(b) && (q.maxPrice.Num? ==> AtMost(sql, b, q.maxPrice.value));
    var s0 := Tables.Where(rows, Available);
    Tables.WhereSame(rows, Available, p0);
    var s1 := if q.search != "" then Tables.Where(s0, (b: BouquetRow) => Matches(sql, b, q.search)) else s0;
    if q.search != "" {
      Tables.WhereWhere(rows, p0, (b: BouquetRow) => Matches(sql, b, q.search), p1);
    } else {
      Tables.WhereSame(rows, p0, p1);
    }
    var s2 := if q.category.Num? then Tables.Where(s1, (b: BouquetRow) => InCategory(b, q.category.value)) else s1;
    if q.category.Num? {
      Tables.WhereWhere(rows, p1, (b: BouquetRow) => InCategory(b, q.category.value), p2);
    } else {
      Tables.WhereSame(rows, p1, p2);
    }
    var s3 := if q.minPrice.Num? then Tables.Where(s2, (b: BouquetRow) => AtLeast(sql, b, q.minPrice.value)) else s2;
    if q.minPrice.Num? {
      Tables.WhereWhere(rows, p2, (b: BouquetRow) => AtLeast(sql, b, q.minPrice.value), p3);
    } else {
      Tables.WhereSame(rows, p2, p3);
    }
    if q.maxPrice.Num? {
      Tables.WhereWhere(rows, p3, (b: BouquetRow) => AtMost(sql, b, q.maxPrice.value), p4);
    } else {
      Tables.WhereSame(rows, p3, p4);
    }
    Tables.WhereSame(rows, p4, (b: BouquetRow) => Listed(sql, q, b));
  }

  /** A listed bouquet with the joined `category_name`. */
  datatype ListedBouquet = ListedBouquet(row: BouquetRow, categoryName: Option<string>)

  /** The JSON of a listing: the rows and the `pagination` object, where
      NaN and Infinity serialise as null (None). */
  datatype BouquetsPage = BouquetsPage(
    bouquets: seq<ListedBouquet>,
    page: Option<int>,
    limit: Option<int>,
    total: nat,
    pages: Option<int>)

  function Joined(rows: seq<BouquetRow>, categories: seq<CategoryRow>): (r: seq<ListedBouquet>)
    ensures |r| == |rows|
    ensures forall i :: 0 <= i < |r| ==>
      r[i].row == rows[i] && r[i].categoryName == CategoryName(categories, rows[i].categoryId)
  {
    seq(|rows|, i requires 0 <= i < |rows| => ListedBouquet(rows[i], CategoryName(categories, rows[i].categoryId)))
  }

  function AsOption(p: Parsed<int>): (r: Option<int>)
    ensures r.Some? <==> p.Num?
    ensures r.Some? ==> r.value == p.value
  {
    if p.Num? then Some(p.value) else None
  }

  /** Every row the query matches, in table order. */
  function Selected(db: Store, sql: Sql, q: ListQuery): seq<BouquetRow> {
    Tables.Where(db.bouquets, (b: BouquetRow) => Listed(sql, q, b))
  }

  /** What any page of the listing satisfies: each row is a stored bouquet
      the query matches, joined with its category's name, and the rows are
      in the order `sortBy` asks for. */
  predicate Shows(db: Store, sql: Sql, q: ListQuery, rows: seq<ListedBouquet>) {
    var o := SortOptionOf(q.sortBy);
    (forall i :: 0 <= i < |rows| ==>
       rows[i].row in db.bouquets && Listed(sql, q, rows[i].row)
       && rows[i].categoryName == CategoryName(db.categories, rows[i].row.categoryId))
    && (forall i :: 0 < i < |rows| ==>
          Sorting.InOrder(SortKey(sql, o)(rows[i - 1].row), SortKey(sql, o)(rows[i].row), Descending(o)))
  }

  /** The matching rows in the requested order. */
  function Ordered(db: Store, sql: Sql, q: ListQuery): (s: seq<BouquetRow>)
    ensures |s| == |Selected(db, sql, q)|
    ensures Shows(db, sql, q, Joined(s, db.categories))
  {
    var selected := Filtered(sql, q, db.bouquets);
    FilteredIsListed(sql, q, db.bouquets);
    var o := SortOptionOf(q.sortBy);
    var sorted := Sorting.SortBy(selected, SortKey(sql, o), Descending(o));
    SortedShows(db, sql, q, selected, sorted);
    sorted
  }

  /** The listing order loses and repeats nothing: every matching row
      appears exactly as often as the WHERE selects it. */
  lemma OrderedIsPermutation(db: Store, sql: Sql, q: ListQuery)
    ensures multiset(Ordered(db, sql, q)) == multiset(Selected(db, sql, q))
  {
    FilteredIsListed(sql, q, db.bouquets);
  }

  lemma SortedShows(db: Store, sql: Sql, q: ListQuery, selected: seq<BouquetRow>, sorted: seq<BouquetRow>)
    requires selected == Selected(db, sql, q)
    requires multiset(sorted) == multiset(selected)
    requires Sorting.SortedBy(sorted, SortKey(sql, SortOptionOf(q.sortBy)), Descending(SortOptionOf(q.sortBy)))
    ensures Shows(db, sql, q, Joined(sorted, db.categories))
  {
    var j := Joined(sorted, db.categories);
    forall i | 0 <= i < |j|
      ensures j[i].row in db.bouquets && Listed(sql, q, j[i].row)
    {
      assert sorted[i] in multiset(selected);
    }
  }

  /** `getAllBouquets`. An inherited `sortBy` name breaks the ORDER BY
      clause and the query fails (None, the 500 answer). The LIMIT clause is
      added only when both the page and the limit parse; then a negative
      limit or offset makes the query fail too. Without it every matching
      row is returned. The count uses the same conditions as the list. */
  function GetAllBouquets(db: Store, sql: Sql, q: ListQuery): (r: Option<BouquetsPage>)
    ensures var pg := if q.page.Missing? then Num(1) else q.page;
      var lim := if q.limit.Missing? then Num(12) else q.limit;
      r.None? <==> OrderByOf(q.sortBy).None?
                   || (pg.Num? && lim.Num? && (lim.value < 0 || Sorting.Offset(pg.value, lim.value) < 0))
    ensures r.Some? ==>
      r.value.total == |Selected(db, sql, q)|
      && Shows(db, sql, q, r.value.bouquets)
      && (r.value.limit.Some? && r.value.page.Some? ==> |r.value.bouquets| <= r.value.limit.value)
      && (r.value.limit.None? || r.value.page.None? ==> |r.value.bouquets| == r.value.total)
      && r.value.pages == (if r.value.limit.Some? then Sorting.PageCount(r.value.total, r.value.limit.value) else None)
    ensures r.Some? && r.value.page.Some? && r.value.limit.Some? ==>
      var lim, off := r.value.limit.value, Sorting.Offset(r.value.page.value, r.value.limit.value);
      lim >= 0 && off >= 0
      && r.value.bouquets == Joined(Sorting.Page(Ordered(db, sql, q), lim, off), db.categories)
    ensures r.Some? && (r.value.page.None? || r.value.limit.None?) ==>
      r.value.bouquets == Joined(Ordered(db, sql, q), db.categories)
  {
    var pg := if q.page.Missing? then Num(1) else q.page;
    var lim := if q.limit.Missing? then Num(12) else q.limit;
    var sorted := Ordered(db, sql, q);
    var total := |sorted|;
    var pages := if lim.Num? then Sorting.PageCount(total, lim.value) else None;
    if OrderByOf(q.sortBy).None? then None
    else if pg.Num? && lim.Num? then
      var offset := Sorting.Offset(pg.value, lim.value);
      if lim.value < 0 || offset < 0 then None
      else
        var window := Sorting.Page(sorted, lim.value, offset);
        WindowShows(db, sql, q, sorted, lim.value, offset);
        Some(BouquetsPage(Joined(window, db.categories), AsOption(pg), AsOption(lim), total, pages))
    else
      Some(BouquetsPage(Joined(sorted, db.categories), AsOption(pg), AsOption(lim), total, pages))
  }

  /** A LIMIT/OFFSET window of a correct listing is a correct listing. */
  lemma WindowShows(db: Store, sql: Sql, q: ListQuery, sorted: seq<BouquetRow>, limit: nat, offset: nat)
    requires Shows(db, sql, q, Joined(sorted, db.categories))
    ensures Shows(db, sql, q, Joined(Sorting.Page(sorted, limit, offset), db.categories))
  {
    var all := Joined(sorted, db.categories);
    var w := Sorting.Page(sorted, limit, offset);
    var jw := Joined(w, db.categories);
    forall i | 0 <= i < |jw|
      ensures jw[i] == all[offset + i]
    {
    }
    var o := SortOptionOf(q.sortBy);
    forall i | 0 < i < |jw|
      ensures Sorting.InOrder(SortKey(sql, o)(jw[i - 1].row), SortKey(sql, o)(jw[i].row), Descending(o))
    {
      assert jw[i - 1] == all[offset + i - 1];
    }
  }

  /** Two queries that differ only in `sortBy` filter alike. */
  lemma SameFilters(sql: Sql, q: ListQuery, sortBy: string, rows: seq<BouquetRow>)
    ensures Filtered(sql, q, rows) == Filtered(sql, q.(sortBy := sortBy), rows)
  {
    var q' := q.(sortBy := sortBy);
    assert q'.search == q.search && q'.category == q.category;
    assert q'.minPrice == q.minPrice && q'.maxPrice == q.maxPrice;
  }

  /** An unknown `sortBy` that is not an inherited name lists exactly as
      `name_asc` does. */
  lemma UnknownSortIsNameAsc(db: Store, sql: Sql, q: ListQuery)
    requires q.sortBy !in {"name_asc", "name_desc", "price_asc", "price_desc", "newest", "popular"}
    requires q.sortBy !in InheritedKeys
    ensures GetAllBouquets(db, sql, q) == GetAllBouquets(db, sql, q.(sortBy := "name_asc"))
  {
    var q' := q.(sortBy := "name_asc");
    assert OrderByOf(q.sortBy) == OrderByOf(q'.sortBy);
    SameFilters(sql, q, "name_asc", db.bouquets);
    SameOrder(db, sql, q, q');
  }

  /** Two queries with the same filters and the same ORDER BY list the
      same rows in the same order. */
  lemma SameOrder(db: Store, sql: Sql, q: ListQuery, q': ListQuery)
    requires Filtered(sql, q, db.bouquets) == Filtered(sql, q', db.bouquets)
    requires OrderByOf(q.sortBy) == OrderByOf(q'.sortBy)
    requires q.page == q'.page && q.limit == q'.limit
    ensures GetAllBouquets(db, sql, q) == GetAllBouquets(db, sql, q')
  {
    if OrderByOf(q.sortBy).Some? {
      assert Ordered(db, sql, q) == Ordered(db, sql, q');
    }
  }

  /** The listing never shows a bouquet that is not available, whatever
      the query. */
  lemma ListingShowsOnlyAvailable(db: Store, sql: Sql, q: ListQuery, i: int)
    requires GetAllBouquets(db, sql, q).Some?
    requires 0 <= i < |GetAllBouquets(db, sql, q).value.bouquets|
    ensures GetAllBouquets(db, sql, q).value.bouquets[i].row.isAvailable == Some(true)
  {
  }

  // ------------------------------------------------------------ getBouquetById

  function BumpViews(b: BouquetRow): BouquetRow {
    b.(viewCount := b.viewCount + 1)
  }

  datatype ByIdResult = Found(db: Store, bouquet: ListedBouquet) | NotFound(db: Store)

  function ByIdStatus(r: ByIdResult): (code: int)
    ensures code == 200 <==> r.Found?
    ensures code == 404 <==> r.NotFound?
  {
    if r.Found? then 200 else 404
  }

  /** `getBouquetById`: add one view to the row, then read it back with
      its category name; 404 when no row has the id. The view is counted
      for unavailable bouquets too. */
  function GetBouquetById(db: Store, id: int): (r: ByIdResult)
    ensures r.NotFound? <==> forall i :: 0 <= i < |db.bouquets| ==> db.bouquets[i].id != id
    ensures r.NotFound? ==> r.db == db
    ensures r.db == db.(bouquets := r.db.bouquets) && |r.db.bouquets| == |db.bouquets|
    ensures forall i :: 0 <= i < |db.bouquets| ==>
      r.db.bouquets[i].viewCount == db.bouquets[i].viewCount + (if db.bouquets[i].id == id then 1 else 0)
      && r.db.bouquets[i] == db.bouquets[i].(viewCount := r.db.bouquets[i].viewCount)
    ensures r.Found? ==>
      r.bouquet.row.id == id
      && r.bouquet.row == BumpViews(FindBouquetById(db.bouquets, id).value)
      && r.bouquet.categoryName == CategoryName(db.categories, r.bouquet.row.categoryId)
  {
    var bumped := Tables.Replace(db.bouquets, BouquetKey, id, BumpViews);
    var after := db.(bouquets := bumped);
    var k := Tables.IndexOf(bumped, BouquetKey, id);
    if k < 0 then
      Tables.ReplaceAbsent(db.bouquets, BouquetKey, id, BumpViews);
      NotFound(after)
    else
      assert Tables.IndexOf(db.bouquets, BouquetKey, id) == k by {
        IndexOfReplace(db.bouquets, id, k);
      }
      Found(after, ListedBouquet(bumped[k], CategoryName(db.categories, bumped[k].categoryId)))
  }

  lemma IndexOfReplace(rows: seq<BouquetRow>, id: int, k: int)
    requires k == Tables.IndexOf(Tables.Replace(rows, BouquetKey, id, BumpViews), BouquetKey, id) && k >= 0
    ensures Tables.IndexOf(rows, BouquetKey, id) == k
  {
    var bumped := Tables.Replace(rows, BouquetKey, id, BumpViews);
    assert forall j :: 0 <= j < |rows| ==> bumped[j].id == rows[j].id;
    var k' := Tables.IndexOf(rows, BouquetKey, id);
    assert BouquetKey(rows[k]) == id;
    assert k' >= 0 && k' <= k;
    assert BouquetKey(bumped[k']) == id;
  }

  // -------------------------------------------------------------- createBouquet

  /** The insert binds name, description, price and category_id as sent;
      none may be `undefined`. */
  predicate CreateBindsDefined(body: BouquetBody) {
    Defined(body.name) && Defined(body.description) && Defined(body.price) && Defined(body.categoryId)
  }

  /** The row `createBouquet` inserts: the discount is 0 when falsy, images
      `[]` when missing, available unless said otherwise, not featured
      unless said otherwise. The INSERT leaves `view_count` and
      `created_at` to the column defaults, taken to be 0 and the time of
      the insert. */
  function NewBouquetRow(id: int, body: BouquetBody, now: int): (b: BouquetRow)
    ensures b.discountPct == Some(if TruthyNum(body.discountPct) then body.discountPct.value else 0.0)
    ensures b.images == Some(if body.images.Val? then body.images.value else [])
    ensures b.isAvailable == Some(if body.isAvailable.Val? then body.isAvailable.value else true)
    ensures b.isFeatured == Some(body.isFeatured.Val? && body.isFeatured.value)
    ensures b.name == Column(body.name) && b.price == Column(body.price) && b.categoryId == Column(body.categoryId)
    ensures b.id == id && b.viewCount == 0
  {
    BouquetRow(id, Column(body.name), Column(body.description), Column(body.price),
               Some(if TruthyNum(body.discountPct) then body.discountPct.value else 0.0),
               Column(body.categoryId),
               Some(if body.images.Val? then body.images.value else []),
               Some(Coalesce(body.isAvailable, true)),
               Some(Coalesce(body.isFeatured, false)),
               0, now)
  }

  /** `createBouquet`: 201 and one new row with the next id, or 500 and no
      change when a bound field is `undefined`. */
  function CreateBouquet(db: Store, body: BouquetBody, now: int): (r: Outcome)
    ensures r.status == 201 <==> CreateBindsDefined(body)
    ensures r.status != 201 ==> r == Outcome(db, 500)
    ensures r.status == 201 ==>
      r.db == db.(bouquets := db.bouquets + [NewBouquetRow(db.nextBouquetId, body, now)],
                  nextBouquetId := db.nextBouquetId + 1)
  {
    if !CreateBindsDefined(body) then Outcome(db, 500)
    else Outcome(db.(bouquets := db.bouquets + [NewBouquetRow(db.nextBouquetId, body, now)],
                     nextBouquetId := db.nextBouquetId + 1), 201)
  }

  /** A bouquet just created can be fetched by the id it was given, and
      that first fetch counts its first view. */
  lemma CreateThenFetch(db: Store, body: BouquetBody, now: int)
    requires WellFormed(db) && CreateBindsDefined(body)
    ensures var created := CreateBouquet(db, body, now).db;
      var r := GetBouquetById(created, db.nextBouquetId);
      r.Found? && r.bouquet.row == NewBouquetRow(db.nextBouquetId, body, now).(viewCount := 1)
  {
    var created := CreateBouquet(db, body, now).db;
    var id := db.nextBouquetId;
    assert created.bouquets[|db.bouquets|].id == id;
    assert Tables.IndexOf(created.bouquets, BouquetKey, id) == |db.bouquets|;
  }

  // -------------------------------------------------------------- updateBouquet

  /** The merge `updateBouquet` computes from the current row: name,
      description, price and category_id take the new value only when it
      is truthy; discount, availability and featured take any value that is
      not `undefined` (so `0`, `false` and `null` are written); images are
      replaced by any array. */
  function Merge(current: BouquetRow, body: BouquetBody): (m: BouquetRow)
    ensures m.id == current.id && m.viewCount == current.viewCount && m.createdAt == current.createdAt
    ensures m.price == (if TruthyNum(body.price) then Some(body.price.value) else current.price)
    ensures m.name == (if TruthyStr(body.name) then Some(body.name.value) else current.name)
    ensures m.discountPct == (if body.discountPct.Undefined? then current.discountPct else Column(body.discountPct))
    ensures m.isAvailable == (if body.isAvailable.Undefined? then current.isAvailable else Column(body.isAvailable))
    ensures m.description == (if TruthyStr(body.description) then Some(body.description.value) else current.description)
    ensures m.categoryId == (if TruthyNum(body.categoryId) then Some(body.categoryId.value) else current.categoryId)
    ensures m.images == (if body.images.Val? then Some(body.images.value) else current.images)
    ensures m.isFeatured == (if body.isFeatured.Undefined? then current.isFeatured else Column(body.isFeatured))
  {
    current.(
      name := OrStr(body.name, current.name),
      description := OrStr(body.description, current.description),
      price := OrNum(body.price, current.price),
      discountPct := IfDefined(body.discountPct, current.discountPct),
      categoryId := OrNum(body.categoryId, current.categoryId),
      images := if body.images.Val? then Some(body.images.value) else current.images,
      isAvailable := IfDefined(body.isAvailable, current.isAvailable),
      isFeatured := IfDefined(body.isFeatured, current.isFeatured))
  }

  /** `UPDATE bouquets SET <the eight columns> = ... WHERE id = ?`. */
  function SetColumns(m: BouquetRow): BouquetRow -> BouquetRow {
    (b: BouquetRow) => b.(name := m.name, description := m.description, price := m.price,
                          discountPct := m.discountPct, categoryId := m.categoryId, images := m.images,
                          isAvailable := m.isAvailable, isFeatured := m.isFeatured)
  }

  /** `updateBouquet`: 404 and no change for an unknown id; otherwise 200 and
      the merged values written to that bouquet only. */
  function UpdateBouquet(db: Store, id: int, body: BouquetBody): (r: Outcome)
    ensures r.status == 404 <==> forall i :: 0 <= i < |db.bouquets| ==> db.bouquets[i].id != id
    ensures r.status == 404 ==> r.db == db
    ensures r.status != 404 ==> r.status == 200
    ensures r.db == db.(bouquets := r.db.bouquets) && |r.db.bouquets| == |db.bouquets|
    ensures forall i :: 0 <= i < |db.bouquets| && db.bouquets[i].id != id ==> r.db.bouquets[i] == db.bouquets[i]
    ensures r.status == 200 ==>
      forall i :: 0 <= i < |db.bouquets| && db.bouquets[i].id == id ==>
        r.db.bouquets[i] == SetColumns(Merge(FindBouquetById(db.bouquets, id).value, body))(db.bouquets[i])
  {
    var current := FindBouquetById(db.bouquets, id);
    if current.None? then Outcome(db, 404)
    else Outcome(db.(bouquets := Tables.Replace(db.bouquets, BouquetKey, id, SetColumns(Merge(current.value, body)))), 200)
  }

  /** A price of 0 or an empty name in an update is ignored. */
  lemma FalsyPriceAndNameIgnored(current: BouquetRow, body: BouquetBody)
    requires body.price == Val(0.0) && body.name == Val("")
    ensures Merge(current, body).price == current.price && Merge(current, body).name == current.name
  {
  }

  /** A discount of 0 or availability `false` in an update is applied. */
  lemma ZeroDiscountAndFalseApplied(current: BouquetRow, body: BouquetBody)
    requires body.discountPct == Val(0.0) && body.isAvailable == Val(false)
    ensures Merge(current, body).discountPct == Some(0.0) && Merge(current, body).isAvailable == Some(false)
  {
  }

  /** Updating with an empty body rewrites the bouquet with its own values:
      the store does not change. */
  lemma EmptyUpdateChangesNothing(db: Store, id: int)
    requires WellFormed(db)
    ensures UpdateBouquet(db, id, EmptyBody).db == db
  {
    var current := FindBouquetById(db.bouquets, id);
    if current.Some? {
      var f := SetColumns(Merge(current.value, EmptyBody));
      forall i | 0 <= i < |db.bouquets| && db.bouquets[i].id == id
        ensures f(db.bouquets[i]) == db.bouquets[i]
      {
        var k := Tables.IndexOf(db.bouquets, BouquetKey, id);
        assert db.bouquets[k] == current.value;
        assert i == k;
      }
      Tables.ReplaceIdentity(db.bouquets, BouquetKey, id, f);
    }
  }

  /** Sending the same update twice leaves the store as sending it once. */
  lemma MergeIdempotent(current: BouquetRow, body: BouquetBody)
    ensures Merge(Merge(current, body), body) == Merge(current, body)
  {
  }

  // -------------------------------------------------------------- deleteBouquet

  /** `deleteBouquet`: remove the rows with the id; 200 whether or not one
      existed. Order lines keep their copied name and price. */
  function DeleteBouquet(db: Store, id: int): (r: Outcome)
    ensures r.status == 200
    ensures r.db == db.(bouquets := r.db.bouquets)
    ensures forall i :: 0 <= i < |r.db.bouquets| ==> r.db.bouquets[i] in db.bouquets && r.db.bouquets[i].id != id
    ensures forall i :: 0 <= i < |db.bouquets| && db.bouquets[i].id != id ==> db.bouquets[i] in r.db.bouquets
  {
    Outcome(db.(bouquets := Tables.Without(db.bouquets, BouquetKey, id)), 200)
  }

  /** Creating a bouquet keeps the store well formed. */
  lemma CreatePreservesWellFormed(db: Store, body: BouquetBody, now: int)
    requires WellFormed(db)
    ensures WellFormed(CreateBouquet(db, body, now).db)
  {
    if CreateBindsDefined(body) {
      Tables.AppendFresh(db.bouquets, BouquetKey, db.nextBouquetId, NewBouquetRow(db.nextBouquetId, body, now));
    }
  }

  /** Updating a bouquet keeps the store well formed. */
  lemma UpdatePreservesWellFormed(db: Store, id: int, body: BouquetBody)
    requires WellFormed(db)
    ensures WellFormed(UpdateBouquet(db, id, body).db)
  {
    var current := FindBouquetById(db.bouquets, id);
    if current.Some? {
      Tables.ReplaceUnique(db.bouquets, BouquetKey, id, SetColumns(Merge(current.value, body)));
    }
  }

  /** Deleting a bouquet keeps the store well formed. */
  lemma DeletePreservesWellFormed(db: Store, id: int)
    requires WellFormed(db)
    ensures WellFormed(DeleteBouquet(db, id).db)
  {
    Tables.WithoutUnique(db.bouquets, BouquetKey, id);
    Tables.WithoutBelow(db.bouquets, BouquetKey, id, db.nextBouquetId);
  }

  /** Counting a view keeps the store well formed. */
  lemma ViewPreservesWellFormed(db: Store, id: int)
    requires WellFormed(db)
    ensures WellFormed(GetBouquetById(db, id).db)
  {
    Tables.ReplaceUnique(db.bouquets, BouquetKey, id, BumpViews);
  }
}

=== FILE: cart.dfy ===
/** The shopping cart (frontend/src/contexts/cart-context.tsx): the pricing
    fold `calculateTotals`, the five-action reducer over cart lines keyed
    by bouquet id, and `getItemCount`. */
module Cart {
  import opened Values
  import opened Types
  import Tables

  /** The key cart lines are matched on. */
  function LineId(it: CartItem): int {
    it.bouquetId
  }

  /** `if (item.discount_percentage)`: a discount is present and non-zero. */
  predicate HasDiscount(it: CartItem) {
    it.discountPct.Some? && it.discountPct.value != 0.0
  }

  /** `item.price * item.quantity`. */
  function LineTotal(it: CartItem): real {
    it.price * (it.quantity as real)
  }

  /** What the line contributes to the cart's discount. */
  function LineDiscount(it: CartItem): real {
    if HasDiscount(it) then it.price * (it.quantity as real) * it.discountPct.value / 100.0 else 0.0
  }

  /** `items.reduce((sum, item) => sum + f(item), 0)`: a left fold. */
  function Sum(items: seq<CartItem>, f: CartItem -> real): real {
    if |items| == 0 then 0.0 else Sum(items[..|items| - 1], f) + f(items[|items| - 1])
  }

  datatype Totals = Totals(total: real, discount: real, finalTotal: real)

  /** `calculateTotals`. */
  function CalculateTotals(items: seq<CartItem>): (t: Totals)
    ensures t.finalTotal == t.total - t.discount
    ensures items == [] ==> t == Totals(0.0, 0.0, 0.0)
  {
    var total := Sum(items, LineTotal);
    var discount := Sum(items, LineDiscount);
    Totals(total, discount, total - discount)
  }

  /** The cart's stored totals are the ones its lines give. */
  predicate Consistent(c: Cart) {
    CalculateTotals(c.items) == Totals(c.total, c.discount, c.finalTotal)
  }

  /** No two lines for the same bouquet. */
  predicate UniqueLines(items: seq<CartItem>) {
    Tables.UniqueKeys(items, LineId)
  }

  /** What every cart the reducer builds satisfies. */
  predicate Invariant(c: Cart) {
    Consistent(c) && UniqueLines(c.items)
  }

  /** A line whose numbers make sense: non-negative price and quantity and a
      discount, if any, between 0 and 100 percent. */
  predicate ValidLine(it: CartItem) {
    it.price >= 0.0 && it.quantity >= 0
    && (it.discountPct.Some? ==> 0.0 <= it.discountPct.value <= 100.0)
  }

  /** `{ items, ...calculateTotals(items) }`. */
  function WithTotals(items: seq<CartItem>): (c: Cart)
    ensures c.items == items && Consistent(c)
  {
    var t := CalculateTotals(items);
    Cart(items, t.total, t.discount, t.finalTotal)
  }

  const EmptyCart := Cart([], 0.0, 0.0, 0.0)

  datatype Action =
    | AddItem(bouquet: Bouquet, quantity: int)
    | RemoveItem(bouquetId: int)
    | UpdateQuantity(bouquetId: int, quantity: int)
    | ClearCart
    | LoadCart(payload: Cart)

  /** The line a bouquet becomes when it is first added: its first image
      (or "" when it has none) and a copy of its name, price and discount. */
  function NewLine(b: Bouquet, q: int): CartItem {
    CartItem(b.id, b.name, b.price, q, if |b.images| > 0 then b.images[0] else "", b.discountPct)
  }

  /** ADD_ITEM on the lines: bump the first line for the bouquet, or, when
      the cart has no line for it, append a new line at the end. */
  function AddLines(items: seq<CartItem>, b: Bouquet, q: int): (r: seq<CartItem>)
    ensures (forall i :: 0 <= i < |items| ==> items[i].bouquetId != b.id) ==> r == items + [NewLine(b, q)]
    ensures forall k ::
      (0 <= k < |items| && items[k].bouquetId == b.id
       && (forall j :: 0 <= j < k ==> items[j].bouquetId != b.id))
      ==> (|r| == |items|
           && r[k] == items[k].(quantity := items[k].quantity + q)
           && forall i :: 0 <= i < |items| && i != k ==> r[i] == items[i])
  {
    var k := Tables.IndexOf(items, LineId, b.id);
    if k >= 0 then items[k := items[k].(quantity := items[k].quantity + q)]
    else items + [NewLine(b, q)]
  }

  /** Set a line's quantity (the map in UPDATE_QUANTITY). */
  function WithQuantity(q: int): CartItem -> CartItem {
    (it: CartItem) => it.(quantity := q)
  }

  /** `cartReducer`. */
  function Reduce(state: Cart, a: Action): (r: Cart)
    ensures a.LoadCart? ==> r == a.payload
    ensures !a.LoadCart? ==> Consistent(r)
    ensures a.ClearCart? ==> r == EmptyCart
    ensures a.RemoveItem? ==> r.items == Tables.Without(state.items, LineId, a.bouquetId)
    ensures a.UpdateQuantity? && a.quantity <= 0 ==>
      r.items == Tables.Without(state.items, LineId, a.bouquetId)
    ensures a.UpdateQuantity? && a.quantity > 0 ==>
      |r.items| == |state.items|
      && forall i :: 0 <= i < |state.items| ==>
           r.items[i] == if state.items[i].bouquetId == a.bouquetId
                         then state.items[i].(quantity := a.quantity) else state.items[i]
  {
    match a
    case AddItem(b, q) => WithTotals(AddLines(state.items, b, q))
    case RemoveItem(id) => WithTotals(Tables.Without(state.items, LineId, id))
    case UpdateQuantity(id, q) =>
      if q <= 0 then WithTotals(Tables.Without(state.items, LineId, id))
      else WithTotals(Tables.Replace(state.items, LineId, id, WithQuantity(q)))
    case ClearCart => EmptyCart
    case LoadCart(payload) => payload
  }

  /** `getItemCount`: the sum of the line quantities. */
  function ItemCount(items: seq<CartItem>): int {
    if |items| == 0 then 0 else ItemCount(items[..|items| - 1]) + items[|items| - 1].quantity
  }

  // ---------------------------------------------------------------------
  // Lemmas about the pricing fold

  lemma {:induction false} SumConcat(a: seq<CartItem>, b: seq<CartItem>, f: CartItem -> real)
    ensures Sum(a + b, f) == Sum(a, f) + Sum(b, f)
    decreases |b|
  {
    if |b| == 0 {
      assert a + b == a;
    } else {
      var ab := a + b;
      assert ab[..|ab| - 1] == a + b[..|b| - 1];
      SumConcat(a, b[..|b| - 1], f);
    }
  }

  lemma SumSingle(x: CartItem, f: CartItem -> real)
    ensures Sum([x], f) == f(x)
  {
    assert [x][..0] == [];
  }

  /** Taking the line at j out of a sequence takes one copy of it out of
      the multiset. */
  lemma MultisetRemoveAt(b: seq<CartItem>, j: int)
    requires 0 <= j < |b|
    ensures multiset(b[..j] + b[j + 1..]) == multiset(b) - multiset{b[j]}
  {
    SplitAt(b, j);
  }

  /** A line in the middle of a sequence adds its share to the fold of
      the lines around it. */
  lemma SumMiddle(left: seq<CartItem>, x: CartItem, right: seq<CartItem>, f: CartItem -> real)
    ensures Sum(left + [x] + right, f) == Sum(left + right, f) + f(x)
  {
    SumConcat(left + [x], right, f);
    SumConcat(left, [x], f);
    SumSingle(x, f);
    SumConcat(left, right, f);
  }

  /** Taking the line at j out of a sequence takes its share off a fold. */
  lemma SumRemoveAt(b: seq<CartItem>, j: int, f: CartItem -> real)
    requires 0 <= j < |b|
    ensures Sum(b, f) == Sum(b[..j] + b[j + 1..], f) + f(b[j])
  {
    var left, x, right := b[..j], b[j], b[j + 1..];
    SplitAt(b, j);
    SumMiddle(left, x, right, f);
  }

  lemma SplitAt(b: seq<CartItem>, j: int)
    requires 0 <= j < |b|
    ensures b == b[..j] + [b[j]] + b[j + 1..]
  {
  }

  /** A fold over a sequence does not depend on the order of its lines. */
  lemma {:induction false} SumPermutation(a: seq<CartItem>, b: seq<CartItem>, f: CartItem -> real)
    requires multiset(a) == multiset(b)
    ensures Sum(a, f) == Sum(b, f)
    decreases |a|
  {
    if |a| == 0 {
      assert |b| == |multiset(b)| == 0;
    } else {
      var x := a[|a| - 1];
      var a' := a[..|a| - 1];
      assert a == a' + [x];
      assert x in multiset(b);
      var j :| 0 <= j < |b| && b[j] == x;
      MultisetRemoveAt(b, j);
      assert multiset(a') == multiset(a) - multiset{x};
      SumPermutation(a', b[..j] + b[j + 1..], f);
      SumRemoveAt(b, j, f);
    }
  }

  lemma {:induction false} SumMonotone(items: seq<CartItem>, f: CartItem -> real, g: CartItem -> real)
    requires forall i :: 0 <= i < |items| ==> f(items[i]) <= g(items[i])
    ensures Sum(items, f) <= Sum(items, g)
    decreases |items|
  {
    if |items| > 0 {
      SumMonotone(items[..|items| - 1], f, g);
    }
  }

  lemma {:induction false} SumNonNegative(items: seq<CartItem>, f: CartItem -> real)
    requires forall i :: 0 <= i < |items| ==> f(items[i]) >= 0.0
    ensures Sum(items, f) >= 0.0
    decreases |items|
  {
    if |items| > 0 {
      SumNonNegative(items[..|items| - 1], f);
    }
  }

  lemma MulNonNegative(a: real, b: real)
    requires a >= 0.0 && b >= 0.0
    ensures a * b >= 0.0
  {
  }

  lemma LineBounds(it: CartItem)
    requires ValidLine(it)
    ensures 0.0 <= LineDiscount(it) <= LineTotal(it)
  {
    var base := it.price * (it.quantity as real);
    MulNonNegative(it.price, it.quantity as real);
    if HasDiscount(it) {
      var p := it.discountPct.value;
      MulNonNegative(base, p);
      MulNonNegative(base, 100.0 - p);
      assert base * (100.0 - p) == base * 100.0 - base * p;
      assert LineDiscount(it) == base * p / 100.0;
    }
  }

  /** With sensible lines the discount never exceeds the total, so the
      amount to pay lies between 0 and the undiscounted total. */
  lemma TotalsBounds(items: seq<CartItem>)
    requires forall i :: 0 <= i < |items| ==> ValidLine(items[i])
    ensures var t := CalculateTotals(items);
      0.0 <= t.discount <= t.total && 0.0 <= t.finalTotal <= t.total
  {
    forall i | 0 <= i < |items|
      ensures 0.0 <= LineDiscount(items[i]) <= LineTotal(items[i])
    {
      LineBounds(items[i]);
    }
    SumNonNegative(items, LineDiscount);
    SumMonotone(items, LineDiscount, LineTotal);
  }

  /** Reordering the lines leaves all three totals unchanged. */
  lemma TotalsOrderIndependent(a: seq<CartItem>, b: seq<CartItem>)
    requires multiset(a) == multiset(b)
    ensures CalculateTotals(a) == CalculateTotals(b)
  {
    SumPermutation(a, b, LineTotal);
    SumPermutation(a, b, LineDiscount);
  }

  /** The totals of two groups of lines add up. */
  lemma TotalsConcat(a: seq<CartItem>, b: seq<CartItem>)
    ensures CalculateTotals(a + b).total == CalculateTotals(a).total + CalculateTotals(b).total
    ensures CalculateTotals(a + b).discount == CalculateTotals(a).discount + CalculateTotals(b).discount
  {
    SumConcat(a, b, LineTotal);
    SumConcat(a, b, LineDiscount);
  }

  /** A line with quantity 0 adds nothing to any total. */
  lemma ZeroQuantityLineIsInert(a: seq<CartItem>, x: CartItem, b: seq<CartItem>)
    requires x.quantity == 0
    ensures CalculateTotals(a + [x] + b) == CalculateTotals(a + b)
  {
    TotalsConcat(a + [x], b);
    TotalsConcat(a, [x]);
    TotalsConcat(a, b);
    SumSingle(x, LineTotal);
    SumSingle(x, LineDiscount);
  }

  // ---------------------------------------------------------------------
  // Lemmas about the reducer

  /** Replacing one line changes a fold by the difference of that line. */
  lemma SumUpdate(items: seq<CartItem>, k: int, x: CartItem, f: CartItem -> real)
    requires 0 <= k < |items|
    ensures Sum(items[k := x], f) == Sum(items, f) - f(items[k]) + f(x)
  {
    var u := items[k := x];
    assert items == items[..k] + [items[k]] + items[k + 1..];
    assert u == items[..k] + [x] + items[k + 1..];
    SumConcat(items[..k] + [items[k]], items[k + 1..], f);
    SumConcat(items[..k], [items[k]], f);
    SumConcat(items[..k] + [x], items[k + 1..], f);
    SumConcat(items[..k], [x], f);
    SumSingle(items[k], f);
    SumSingle(x, f);
  }

  /** ADD_ITEM raises the total by q times the price of the line it lands
      on: the existing line's stored price, or the bouquet's for a new line. */
  lemma BumpLineTotal(it: CartItem, q: int)
    ensures LineTotal(it.(quantity := it.quantity + q)) == LineTotal(it) + it.price * (q as real)
  {
    assert ((it.quantity + q) as real) == (it.quantity as real) + (q as real);
  }

  /** ADD_ITEM for a bouquet already in the cart raises the total by q times
      the price stored on its line (not the bouquet's current price). */
  lemma AddExistingTotal(state: Cart, k: int, b: Bouquet, q: int)
    requires k == Tables.IndexOf(state.items, LineId, b.id) && k >= 0
    ensures Reduce(state, AddItem(b, q)).total
         == CalculateTotals(state.items).total + state.items[k].price * (q as real)
  {
    AddExistingSum(state.items, k, b, q);
  }

  lemma AddExistingSum(items: seq<CartItem>, k: int, b: Bouquet, q: int)
    requires k == Tables.IndexOf(items, LineId, b.id) && k >= 0
    ensures Sum(AddLines(items, b, q), LineTotal) == Sum(items, LineTotal) + items[k].price * (q as real)
  {
    var x := items[k].(quantity := items[k].quantity + q);
    AddLinesExisting(items, k, b, q);
    BumpSum(items, k, x, q);
  }

  /** ADD_ITEM for a bouquet not in the cart raises the total by q times the
      bouquet's price. */
  lemma AddNewTotal(state: Cart, b: Bouquet, q: int)
    requires Tables.IndexOf(state.items, LineId, b.id) < 0
    ensures Reduce(state, AddItem(b, q)).total
         == CalculateTotals(state.items).total + b.price * (q as real)
  {
    var items := state.items;
    var x := NewLine(b, q);
    ReduceAddItem(state, b, q);
    AddLinesNew(items, b, q);
    SumConcat(items, [x], LineTotal);
    SumSingle(x, LineTotal);
  }

  lemma ReduceAddItem(state: Cart, b: Bouquet, q: int)
    ensures Reduce(state, AddItem(b, q)) == WithTotals(AddLines(state.items, b, q))
  {
  }

  lemma AddLinesNew(items: seq<CartItem>, b: Bouquet, q: int)
    requires Tables.IndexOf(items, LineId, b.id) < 0
    ensures AddLines(items, b, q) == items + [NewLine(b, q)]
  {
  }

  lemma AddLinesExisting(items: seq<CartItem>, k: int, b: Bouquet, q: int)
    requires k == Tables.IndexOf(items, LineId, b.id) && k >= 0
    ensures AddLines(items, b, q) == items[k := items[k].(quantity := items[k].quantity + q)]
  {
    var x := items[k].(quantity := items[k].quantity + q);
    var r := AddLines(items, b, q);
    assert items[k].bouquetId == b.id;
    assert |r| == |items|;
    forall i | 0 <= i < |r|
      ensures r[i] == items[k := x][i]
    {
    }
  }

  lemma BumpSum(items: seq<CartItem>, k: int, x: CartItem, q: int)
    requires 0 <= k < |items| && x == items[k].(quantity := items[k].quantity + q)
    ensures Sum(items[k := x], LineTotal) == Sum(items, LineTotal) + items[k].price * (q as real)
  {
    SumUpdate(items, k, x, LineTotal);
    BumpLineTotal(items[k], q);
  }

  lemma {:induction false} ItemCountConcat(a: seq<CartItem>, b: seq<CartItem>)
    ensures ItemCount(a + b) == ItemCount(a) + ItemCount(b)
    decreases |b|
  {
    if |b| == 0 {
      assert a + b == a;
    } else {
      var ab := a + b;
      assert ab[..|ab| - 1] == a + b[..|b| - 1];
      ItemCountConcat(a, b[..|b| - 1]);
    }
  }

  /** Replacing one line changes the item count by the difference of the
      two quantities. */
  lemma ItemCountUpdate(items: seq<CartItem>, k: int, x: CartItem)
    requires 0 <= k < |items|
    ensures ItemCount(items[k := x]) == ItemCount(items) - items[k].quantity + x.quantity
  {
    assert items == items[..k] + [items[k]] + items[k + 1..];
    assert items[k := x] == items[..k] + [x] + items[k + 1..];
    ItemCountConcat(items[..k] + [items[k]], items[k + 1..]);
    ItemCountConcat(items[..k], [items[k]]);
    ItemCountConcat(items[..k] + [x], items[k + 1..]);
    ItemCountConcat(items[..k], [x]);
    assert [x][..0] == [] && [items[k]][..0] == [];
  }

  /** ADD_ITEM raises the item count by exactly the quantity added, whether
      it bumps an existing line or appends a new one. */
  lemma AddItemCount(state: Cart, b: Bouquet, q: int)
    ensures ItemCount(Reduce(state, AddItem(b, q)).items) == ItemCount(state.items) + q
  {
    var items := state.items;
    ReduceAddItem(state, b, q);
    var k := Tables.IndexOf(items, LineId, b.id);
    if k >= 0 {
      AddLinesExisting(items, k, b, q);
      ItemCountUpdate(items, k, items[k].(quantity := items[k].quantity + q));
    } else {
      AddLinesNew(items, b, q);
      ItemCountConcat(items, [NewLine(b, q)]);
      assert [NewLine(b, q)][..0] == [];
    }
  }

  /** With unique lines, ADD_ITEM for a bouquet already in the cart changes
      exactly that bouquet's line. */
  lemma AddExistingTouchesOneLine(items: seq<CartItem>, b: Bouquet, q: int)
    requires UniqueLines(items)
    requires exists k :: 0 <= k < |items| && items[k].bouquetId == b.id
    ensures var r := AddLines(items, b, q);
      |r| == |items|
      && forall i :: 0 <= i < |items| ==>
           r[i] == if items[i].bouquetId == b.id
                   then items[i].(quantity := items[i].quantity + q) else items[i]
  {
  }

  /** Every transition but LOAD_CART keeps the stored totals equal to the
      lines' totals and keeps one line per bouquet. */
  lemma ReducePreservesInvariant(state: Cart, a: Action)
    requires UniqueLines(state.items) && !a.LoadCart?
    ensures Invariant(Reduce(state, a))
  {
    var items := state.items;
    match a
    case AddItem(b, q) =>
      var r := AddLines(items, b, q);
      var k := Tables.IndexOf(items, LineId, b.id);
      if k >= 0 {
        forall i | 0 <= i < |r|
          ensures LineId(r[i]) == LineId(items[i])
        {
        }
      } else {
        forall i | 0 <= i < |items|
          ensures LineId(items[i]) != b.id
        {
        }
      }
    case RemoveItem(id) =>
      Tables.WithoutUnique(items, LineId, id);
    case UpdateQuantity(id, q) =>
      if q <= 0 {
        Tables.WithoutUnique(items, LineId, id);
      } else {
        Tables.ReplaceUnique(items, LineId, id, WithQuantity(q));
      }
    case ClearCart =>
  }

  /** LOAD_CART takes its payload as it is: a stored cart whose totals do
      not match its lines is loaded unchanged. */
  lemma LoadCartUnchecked()
    ensures var bad := Cart([], 5.0, 0.0, 5.0);
      Reduce(EmptyCart, LoadCart(bad)) == bad && !Consistent(bad)
  {
  }

  /** UPDATE_QUANTITY to zero or below is exactly REMOVE_ITEM. */
  lemma UpdateToZeroIsRemove(state: Cart, id: int, q: int)
    requires q <= 0
    ensures Reduce(state, UpdateQuantity(id, q)) == Reduce(state, RemoveItem(id))
  {
  }

  /** REMOVE_ITEM keeps the other lines in order: removing from a cart split
      in two removes from each half. */
  lemma RemoveKeepsOrder(a: seq<CartItem>, b: seq<CartItem>, id: int)
    ensures Reduce(WithTotals(a + b), RemoveItem(id)).items
         == Tables.Without(a, LineId, id) + Tables.Without(b, LineId, id)
  {
    Tables.WithoutConcat(a, b, LineId, id);
  }

  /** REMOVE_ITEM lowers the item count by the quantities of the removed
      lines and leaves the count of the remaining lines. */
  lemma {:induction false} RemoveItemCount(items: seq<CartItem>, id: int)
    ensures ItemCount(items) == ItemCount(Tables.Without(items, LineId, id)) + QuantityOf(items, id)
    decreases |items|
  {
    if |items| > 0 {
      var x := items[0];
      var rest := items[1..];
      assert items == [x] + rest;
      RemoveItemCount(rest, id);
      ItemCountConcat([x], rest);
      var kept := if x.bouquetId != id then [x] else [];
      ItemCountConcat(kept, Tables.Without(rest, LineId, id));
      assert [x][..0] == [];
    }
  }

  /** Sum of the quantities of the lines for one bouquet. */
  function QuantityOf(items: seq<CartItem>, id: int): int {
    if |items| == 0 then 0
    else (if items[0].bouquetId == id then items[0].quantity else 0) + QuantityOf(items[1..], id)
  }

  /** CLEAR_CART and the empty list both price at zero. */
  lemma ClearCartIsZero(state: Cart)
    ensures var r := Reduce(state, ClearCart);
      r.items == [] && r.total == 0.0 && r.discount == 0.0 && r.finalTotal == 0.0
      && Consistent(r) && ItemCount(r.items) == 0
  {
  }
}

=== FILE: catalog.dfy ===
/** The catalog page (frontend/src/app/catalog/page.tsx): the query string
    it sends for the bouquet listing, the previous/next page buttons, and
    the filter resets. The query string is then read back the way the
    listing controller reads `req.query`. */
module Catalog {
  import opened Values
  import Text
  import Bouquets

  /** The category select: "all", or a category's id as its value. */
  datatype Selection = AllCategories | OneCategory(id: nat)

  /** The page's filter and paging state. */
  datatype CatalogState = CatalogState(
    search: string,
    category: Selection,
    sortBy: string,
    sortOrder: string,
    page: nat,
    totalPages: nat)

  const Initial := CatalogState("", AllCategories, "created_at", "desc", 1, 1)

  /** The listing request's query parameters, in the order the page builds
      them: page, limit 12, the category unless "all" is selected, the
      search text unless it is empty, then sort and order. */
  function RequestParams(s: CatalogState): (ps: seq<(string, string)>)
    ensures |ps| == 4 + (if s.category.OneCategory? then 1 else 0) + (if s.search != "" then 1 else 0)
    ensures ps[0] == ("page", Text.NatToString(s.page)) && ps[1] == ("limit", "12")
    ensures ps[|ps| - 2] == ("sort", s.sortBy) && ps[|ps| - 1] == ("order", s.sortOrder)
    ensures s.category.OneCategory? ==> ("category", Text.NatToString(s.category.id)) in ps
    ensures s.category.AllCategories? ==> forall i :: 0 <= i < |ps| ==> ps[i].0 != "category"
    ensures s.search != "" ==> ("search", s.search) in ps
    ensures s.search == "" ==> forall i :: 0 <= i < |ps| ==> ps[i].0 != "search"
  {
    [("page", Text.NatToString(s.page)), ("limit", "12")]
    + (if s.category.OneCategory? then [("category", Text.NatToString(s.category.id))] else [])
    + (if s.search != "" then [("search", s.search)] else [])
    + [("sort", s.sortBy), ("order", s.sortOrder)]
  }

  /** The first value sent under a key. */
  function Lookup(ps: seq<(string, string)>, key: string): (r: Option<string>)
    ensures r.Some? ==> (key, r.value) in ps
    ensures r.None? ==> forall i :: 0 <= i < |ps| ==> ps[i].0 != key
  {
    if |ps| == 0 then None
    else if ps[0].0 == key then Some(ps[0].1)
    else Lookup(ps[1..], key)
  }

  /** A query-string number as the controller parses it. An absent key is
      `undefined` and takes the destructuring default; a key sent empty is
      the string "", which `parseInt` turns into NaN (for `category`, the
      falsy "" is skipped, which NaN also is). */
  function ParseParam(v: Option<string>): (r: Parsed<int>)
    ensures r.Missing? <==> v.None?
    ensures v.Some? && v.value == "" ==> r.NaN?
    ensures r.Num? ==> v.Some? && r.value >= 0 && Text.ParseNat(v.value) == Some(r.value as nat)
  {
    if v.None? then Missing
    else match Text.ParseNat(v.value)
      case Some(n) => Num(n)
      case None => NaN
  }

  /** How `getAllBouquets` reads the catalog page's query string:
      `search`, `category`, `sortBy` (default "name_asc"), `page` and
      `limit`. The page never sends `minPrice` or `maxPrice`, so both are
      left Missing here. Other keys are ignored. */
  function ListQueryOf(ps: seq<(string, string)>): (q: Bouquets.ListQuery)
    ensures Lookup(ps, "sortBy").None? ==> q.sortBy == "name_asc"
  {
    var search := Lookup(ps, "search");
    var sortBy := Lookup(ps, "sortBy");
    Bouquets.ListQuery(
      if search.Some? then search.value else "",
      ParseParam(Lookup(ps, "category")),
      Missing, Missing,
      if sortBy.Some? then sortBy.value else "name_asc",
      ParseParam(Lookup(ps, "page")),
      ParseParam(Lookup(ps, "limit")))
  }

  /** The page and limit come first in the request; `sortBy` is never in
      it. */
  lemma LookupFixed(s: CatalogState)
    ensures var ps := RequestParams(s);
      Lookup(ps, "page") == Some(Text.NatToString(s.page)) && Lookup(ps, "limit") == Some("12")
      && Lookup(ps, "sortBy").None?
  {
  }

  /** The category and the search text are found exactly when sent. */
  lemma LookupFilters(s: CatalogState)
    ensures var ps := RequestParams(s);
      Lookup(ps, "category") == (if s.category.OneCategory? then Some(Text.NatToString(s.category.id)) else None)
      && Lookup(ps, "search") == (if s.search != "" then Some(s.search) else None)
  {
    var ps := RequestParams(s);
    var cat := if s.category.OneCategory? then [("category", Text.NatToString(s.category.id))] else [];
    var search := if s.search != "" then [("search", s.search)] else [];
    assert ps[2..] == cat + search + [("sort", s.sortBy), ("order", s.sortOrder)];
    assert Lookup(ps, "category") == Lookup(ps[2..], "category");
    assert Lookup(ps, "search") == Lookup(ps[2..], "search");
  }

  /** What the controller makes of the page's request: the page and the
      category the page chose, the search text, 12 per page, and the
      default sort, because the page sends `sort` and the controller reads
      `sortBy`. */
  lemma ControllerReadsRequest(s: CatalogState)
    ensures ListQueryOf(RequestParams(s)) == Bouquets.ListQuery(
      s.search,
      if s.category.OneCategory? then Num(s.category.id) else Missing,
      Missing, Missing, "name_asc", Num(s.page), Num(12))
  {
    LookupFixed(s);
    LookupFilters(s);
    Text.ParseNatToString(s.page);
    Text.ParseNatToString(12);
    assert Text.NatToString(12) == "12";
    if s.category.OneCategory? {
      Text.ParseNatToString(s.category.id);
    }
  }

  /** The sort controls change nothing the store answers: every choice of
      sort field and order lists the bouquets by name, ascending. */
  lemma SortChoiceIgnored(s: CatalogState, sortBy: string, sortOrder: string, db: Bouquets.Db.Store, sql: Bouquets.Sql)
    ensures Bouquets.SortOptionOf(ListQueryOf(RequestParams(s)).sortBy) == Bouquets.NameAsc
    ensures Bouquets.GetAllBouquets(db, sql, ListQueryOf(RequestParams(s.(sortBy := sortBy, sortOrder := sortOrder))))
         == Bouquets.GetAllBouquets(db, sql, ListQueryOf(RequestParams(s)))
  {
    ControllerReadsRequest(s);
    ControllerReadsRequest(s.(sortBy := sortBy, sortOrder := sortOrder));
  }

  /** The page is between 1 and the page count. */
  predicate InRange(s: CatalogState) {
    1 <= s.page <= s.totalPages
  }

  /** "Back": `Math.max(1, currentPage - 1)`. */
  function Prev(s: CatalogState): (r: CatalogState)
    ensures r == s.(page := r.page)
    ensures r.page >= 1 && (s.page > 1 ==> r.page == s.page - 1)
  {
    s.(page := if s.page >= 2 then s.page - 1 else 1)
  }

  /** "Forward": `Math.min(totalPages, currentPage + 1)`. */
  function Next(s: CatalogState): (r: CatalogState)
    ensures r == s.(page := r.page)
    ensures r.page <= s.totalPages && (s.page < s.totalPages ==> r.page == s.page + 1)
  {
    s.(page := if s.page + 1 <= s.totalPages then s.page + 1 else s.totalPages)
  }

  predicate PrevDisabled(s: CatalogState) {
    s.page == 1
  }

  predicate NextDisabled(s: CatalogState) {
    s.page == s.totalPages
  }

  /** Both buttons keep the page in range, and a button is disabled exactly
      when pressing it would not move the page. */
  lemma PagingStaysInRange(s: CatalogState)
    requires InRange(s)
    ensures InRange(Prev(s)) && InRange(Next(s))
    ensures PrevDisabled(s) <==> Prev(s) == s
    ensures NextDisabled(s) <==> Next(s) == s
  {
  }

  /** Forward then back returns to the page unless forward was disabled;
      back then forward likewise. */
  lemma NextPrevInverse(s: CatalogState)
    requires InRange(s)
    ensures !NextDisabled(s) ==> Prev(Next(s)) == s
    ensures !PrevDisabled(s) ==> Next(Prev(s)) == s
  {
  }

  /** The listing answer: `response.totalPages || 1`. The listing
      controller reports its page count as `pagination.pages`, so the
      field is absent and the page count stays 1. */
  function Loaded(s: CatalogState, totalPages: Option<nat>): (r: CatalogState)
    ensures r == s.(totalPages := r.totalPages) && r.totalPages >= 1
    ensures totalPages.Some? && totalPages.value != 0 ==> r.totalPages == totalPages.value
  {
    s.(totalPages := if totalPages.Some? && totalPages.value != 0 then totalPages.value else 1)
  }

  /** `totalPages > 1 && (...)`: the pagination block is rendered only when
      there is more than one page. */
  predicate PaginationShown(s: CatalogState) {
    s.totalPages > 1
  }

  /** With the page count the listing really delivers, the pagination
      block is not rendered at all, and the page never leaves page 1:
      even the handlers behind the buttons would keep it there. */
  lemma StuckOnFirstPage(s: CatalogState)
    requires s.page == 1
    ensures var t := Loaded(s, None);
      !PaginationShown(t) && t.page == 1
      && PrevDisabled(t) && NextDisabled(t) && Next(t) == t && Prev(t) == t
  {
  }

  /** `clearFilters`. */
  function ClearFilters(s: CatalogState): (r: CatalogState)
    ensures r == Initial.(totalPages := s.totalPages)
  {
    CatalogState("", AllCategories, "created_at", "desc", 1, s.totalPages)
  }

  /** After a reset the request carries only page 1, the limit, and the
      default sort fields. */
  lemma ClearedRequest(s: CatalogState)
    ensures RequestParams(ClearFilters(s)) == [("page", "1"), ("limit", "12"), ("sort", "created_at"), ("order", "desc")]
  {
  }

  /** `handleSearch`: back to page 1 and fetch with the typed text. The
      fetch made inside the handler still sees the old `currentPage`; when
      that was not 1, the page change fetches once more, and this contract
      describes the request of that later fetch (page 1, the typed text). */
  function HandleSearch(s: CatalogState): (r: CatalogState)
    ensures r.page == 1 && r == s.(page := 1)
    ensures ListQueryOf(RequestParams(r)).search == s.search
  {
    ControllerReadsRequest(s.(page := 1));
    s.(page := 1)
  }
}

=== FILE: categories.dfy ===
/** The category controller
    (backend/src/controllers/categoryController.js): the public listing of
    active categories, create with a default sort order, an update that
    overwrites every column, and a delete guarded by the bouquets that
    still use the category. */
module Categories {
  import opened Values
  import Tables
  import Sorting
  import opened Db

  /** The JSON body of create and update. */
  datatype CategoryBody = CategoryBody(
    name: Field<string>,
    description: Field<string>,
    imageUrl: Field<string>,
    sortOrder: Field<real>,
    isActive: Field<bool>)

  function SortOrderKey(c: CategoryRow): Option<real> {
    c.sortOrder
  }

  predicate Active(c: CategoryRow) {
    c.isActive == Some(true)
  }

  /** `getAllCategories`: the active categories, `ORDER BY sort_order ASC`
      (a NULL sort order first). */
  function GetAllCategories(db: Store): (r: seq<CategoryRow>)
    ensures multiset(r) == multiset(Tables.Where(db.categories, Active))
    ensures Sorting.SortedBy(r, SortOrderKey, false)
  {
    Sorting.SortBy(Tables.Where(db.categories, Active), SortOrderKey, false)
  }

  /** The listing holds exactly the active categories. */
  lemma ListingIsActiveCategories(db: Store)
    ensures forall i :: 0 <= i < |GetAllCategories(db)| ==>
      GetAllCategories(db)[i] in db.categories && Active(GetAllCategories(db)[i])
    ensures forall i :: 0 <= i < |db.categories| && Active(db.categories[i]) ==>
      db.categories[i] in GetAllCategories(db)
  {
    var active := Tables.Where(db.categories, Active);
    var r := GetAllCategories(db);
    forall i | 0 <= i < |r|
      ensures r[i] in db.categories && Active(r[i])
    {
      assert r[i] in multiset(active);
    }
    forall i | 0 <= i < |db.categories| && Active(db.categories[i])
      ensures db.categories[i] in r
    {
      assert db.categories[i] in multiset(active);
    }
  }

  /** The insert binds name, description and image_url as sent; none may be
      `undefined`. */
  predicate CreateBindsDefined(body: CategoryBody) {
    Defined(body.name) && Defined(body.description) && Defined(body.imageUrl)
  }

  /** The row `createCategory` inserts: `sort_order || 0`. The INSERT
      leaves `is_active` to the column default, taken to be TRUE. */
  function NewCategoryRow(id: int, body: CategoryBody): (c: CategoryRow)
    ensures c.sortOrder == Some(if TruthyNum(body.sortOrder) then body.sortOrder.value else 0.0)
    ensures c.name == Column(body.name) && c.description == Column(body.description)
    ensures c.imageUrl == Column(body.imageUrl) && c.isActive == Some(true) && c.id == id
  {
    CategoryRow(id, Column(body.name), Column(body.description), Column(body.imageUrl),
                Some(if TruthyNum(body.sortOrder) then body.sortOrder.value else 0.0), Some(true))
  }

  /** `createCategory`: 201 and one new row with the next id, or 500 and no
      change. */
  function CreateCategory(db: Store, body: CategoryBody): (r: Outcome)
    ensures r.status == 201 <==> CreateBindsDefined(body)
    ensures r.status != 201 ==> r == Outcome(db, 500)
    ensures r.status == 201 ==>
      r.db == db.(categories := db.categories + [NewCategoryRow(db.nextCategoryId, body)],
                  nextCategoryId := db.nextCategoryId + 1)
  {
    if !CreateBindsDefined(body) then Outcome(db, 500)
    else Outcome(db.(categories := db.categories + [NewCategoryRow(db.nextCategoryId, body)],
                     nextCategoryId := db.nextCategoryId + 1), 201)
  }

  /** A category just created is active, so the public listing shows it. */
  lemma CreatedCategoryIsListed(db: Store, body: CategoryBody)
    requires CreateBindsDefined(body)
    ensures NewCategoryRow(db.nextCategoryId, body) in GetAllCategories(CreateCategory(db, body).db)
  {
    var after := CreateCategory(db, body).db;
    assert after.categories[|db.categories|] == NewCategoryRow(db.nextCategoryId, body);
    ListingIsActiveCategories(after);
  }

  /** The update binds all five columns; none may be `undefined`. */
  predicate UpdateBindsDefined(body: CategoryBody) {
    Defined(body.name) && Defined(body.description) && Defined(body.imageUrl)
    && Defined(body.sortOrder) && Defined(body.isActive)
  }

  /** `UPDATE categories SET <all five columns> WHERE id = ?`. */
  function Overwrite(body: CategoryBody): CategoryRow -> CategoryRow {
    (c: CategoryRow) => c.(name := Column(body.name), description := Column(body.description),
                           imageUrl := Column(body.imageUrl), sortOrder := Column(body.sortOrder),
                           isActive := Column(body.isActive))
  }

  /** `updateCategory`: no merge with the current row. Every column takes the
      body's value (`null` becomes NULL); a body that leaves a column out
      fails with 500. 200 whether or not the id exists. */
  function UpdateCategory(db: Store, id: int, body: CategoryBody): (r: Outcome)
    ensures r.status == 200 <==> UpdateBindsDefined(body)
    ensures r.status != 200 ==> r == Outcome(db, 500)
    ensures r.db == db.(categories := r.db.categories) && |r.db.categories| == |db.categories|
    ensures forall i :: 0 <= i < |db.categories| && db.categories[i].id != id ==> r.db.categories[i] == db.categories[i]
    ensures r.status == 200 ==> forall i :: 0 <= i < |db.categories| && db.categories[i].id == id ==>
      r.db.categories[i] == CategoryRow(id, Column(body.name), Column(body.description), Column(body.imageUrl),
                                        Column(body.sortOrder), Column(body.isActive))
  {
    if !UpdateBindsDefined(body) then Outcome(db, 500)
    else Outcome(db.(categories := Tables.Replace(db.categories, CategoryKey, id, Overwrite(body))), 200)
  }

  /** Sending `is_active: null` (or false) takes the category off the public
      listing. */
  lemma InactiveUpdateHidesCategory(db: Store, id: int, body: CategoryBody, i: int)
    requires UpdateBindsDefined(body) && body.isActive != Val(true)
    requires 0 <= i < |db.categories| && db.categories[i].id == id
    ensures db.categories[i].(name := Column(body.name), description := Column(body.description),
                              imageUrl := Column(body.imageUrl), sortOrder := Column(body.sortOrder),
                              isActive := Column(body.isActive))
            !in GetAllCategories(UpdateCategory(db, id, body).db)
  {
    ListingIsActiveCategories(UpdateCategory(db, id, body).db);
  }

  /** Some bouquet's category_id equals the category's id. */
  predicate InUse(bouquets: seq<BouquetRow>, id: int) {
    exists i :: 0 <= i < |bouquets| && bouquets[i].categoryId == Some(id as real)
  }

  /** `deleteCategory`: 400 and no change while any bouquet uses the
      category; otherwise the category's rows are removed and 200. */
  function DeleteCategory(db: Store, id: int): (r: Outcome)
    ensures r.status == 400 <==> InUse(db.bouquets, id)
    ensures r.status == 400 ==> r.db == db
    ensures r.status != 400 ==> r.status == 200 && r.db == db.(categories := Tables.Without(db.categories, CategoryKey, id))
  {
    var using := Tables.Where(db.bouquets, (b: BouquetRow) => b.categoryId == Some(id as real));
    if |using| > 0 then
      assert using[0] in db.bouquets;
      Outcome(db, 400)
    else
      Outcome(db.(categories := Tables.Without(db.categories, CategoryKey, id)), 200)
  }

  /** A category that some bouquet points at survives every delete. */
  lemma DeleteKeepsReferencedCategories(db: Store, id: int, i: int, j: int)
    requires 0 <= i < |db.categories| && 0 <= j < |db.bouquets|
    requires db.bouquets[j].categoryId == Some(db.categories[i].id as real)
    ensures db.categories[i] in DeleteCategory(db, id).db.categories
  {
    if db.categories[i].id == id {
      assert InUse(db.bouquets, id);
    }
  }

  /** The category operations keep the store well formed. */
  lemma CategoryOpsPreserveWellFormed(db: Store, id: int, body: CategoryBody)
    requires WellFormed(db)
    ensures WellFormed(CreateCategory(db, body).db)
    ensures WellFormed(UpdateCategory(db, id, body).db)
    ensures WellFormed(DeleteCategory(db, id).db)
  {
    if CreateBindsDefined(body) {
      Tables.AppendFresh(db.categories, CategoryKey, db.nextCategoryId, NewCategoryRow(db.nextCategoryId, body));
    }
    Tables.ReplaceUnique(db.categories, CategoryKey, id, Overwrite(body));
    Tables.WithoutUnique(db.categories, CategoryKey, id);
    Tables.WithoutBelow(db.categories, CategoryKey, id, db.nextCategoryId);
  }
}

=== FILE: checkout.dfy ===
/** The checkout page (frontend/src/app/checkout/page.tsx): the delivery
    time slots it offers, the order it sends, and what it does with the
    answer. */
module Checkout {
  import opened Values
  import Text
  import opened Types
  import Cart
  import Db
  import Orders
  import Routes

  // ------------------------------------------------------------ time slots

  /** A delivery slot: its hour and whether it is the half hour. */
  datatype Slot = Slot(hour: nat, half: bool)

  /** `${hour.toString().padStart(2, "0")}:00` or `:30`. */
  function Label(s: Slot): string {
    Text.PadStart2(Text.NatToString(s.hour)) + (if s.half then ":30" else ":00")
  }

  /** The slot at position i of the half-hour grid from 09:00. */
  function SlotAt(i: nat): Slot {
    Slot(9 + i / 2, i % 2 == 1)
  }

  lemma HalvesOf(k: nat)
    ensures (2 * k) / 2 == k && (2 * k) % 2 == 0
    ensures (2 * k + 1) / 2 == k && (2 * k + 1) % 2 == 1
  {
  }

  /** The slots the loop has pushed once it reaches `hour`: per hour the
      full hour, then the half hour except at 21. */
  function SlotsBefore(hour: nat): (r: seq<Slot>)
    requires 9 <= hour <= 22
    decreases hour
  {
    if hour == 9 then []
    else if hour - 1 < 21 then SlotsBefore(hour - 1) + [Slot(hour - 1, false)] + [Slot(hour - 1, true)]
    else SlotsBefore(hour - 1) + [Slot(hour - 1, false)]
  }

  /** The slots pushed before `hour` are the first positions of the
      half-hour grid. */
  lemma {:induction false} SlotsBeforeGrid(hour: nat)
    requires 9 <= hour <= 22
    ensures |SlotsBefore(hour)| == if hour <= 21 then 2 * (hour - 9) else 25
    ensures forall i :: 0 <= i < |SlotsBefore(hour)| ==> SlotsBefore(hour)[i] == SlotAt(i)
    decreases hour
  {
    if hour > 9 {
      var h := hour - 1;
      var prev := SlotsBefore(h);
      var tail := if h < 21 then [Slot(h, false), Slot(h, true)] else [Slot(h, false)];
      var r := SlotsBefore(hour);
      assert r == prev + tail;
      SlotsBeforeGrid(h);
      var n := |prev|;
      assert n == 2 * (h - 9);
      HalvesOf(h - 9);
      assert tail[0] == SlotAt(n);
      assert |tail| == 2 ==> tail[1] == SlotAt(n + 1);
      forall i | 0 <= i < |r|
        ensures r[i] == SlotAt(i)
      {
        if i < n {
          assert r[i] == prev[i];
        } else if i == n {
          assert r[i] == tail[0];
        } else {
          assert r[i] == tail[1];
        }
      }
    }
  }

  /** The loop that fills `timeSlots`: for each hour from 9 to 21 the full
      hour, and the half hour except after 21. */
  method TimeSlots() returns (slots: seq<string>)
    ensures |slots| == 25
    ensures forall i :: 0 <= i < |slots| ==> slots[i] == Label(SlotAt(i))
  {
    slots := [];
    ghost var pushed: seq<Slot> := [];
    var hour := 9;
    while hour <= 21
      invariant 9 <= hour <= 22
      invariant pushed == SlotsBefore(hour)
      invariant |slots| == |pushed|
      invariant forall i :: 0 <= i < |slots| ==> slots[i] == Label(pushed[i])
    {
      slots := slots + [Label(Slot(hour, false))];
      pushed := pushed + [Slot(hour, false)];
      if hour < 21 {
        slots := slots + [Label(Slot(hour, true))];
        pushed := pushed + [Slot(hour, true)];
      }
      hour := hour + 1;
    }
    SlotsBeforeGrid(22);
  }

  /** Minutes after midnight of an "HH:MM" label, or None. */
  function ParseSlot(s: string): (r: Option<nat>)
    ensures r.Some? ==> |s| == 5 && s[2] == ':'
  {
    if |s| == 5 && s[2] == ':' && Text.AllDigits(s[..2]) && Text.AllDigits(s[3..]) then
      Some(60 * Text.ParseDigits(s[..2]) + Text.ParseDigits(s[3..]))
    else None
  }

  /** Two-digit padding of an hour reads back as the hour. */
  lemma PaddedHour(h: nat)
    requires h < 100
    ensures var p := Text.PadStart2(Text.NatToString(h));
      |p| == 2 && Text.AllDigits(p) && Text.ParseDigits(p) == h
  {
    var n := Text.NatToString(h);
    var p := Text.PadStart2(n);
    if h < 10 {
      assert p == ['0', Text.DigitChar(h)];
      assert p[..1] == ['0'] && ['0'][..0] == [];
    } else {
      Text.ParseNatToString(h);
      assert n == Text.NatToString(h / 10) + [Text.DigitChar(h % 10)];
      assert |n| == 2;
    }
  }

  lemma PaddedLength(h: nat)
    requires h < 100
    ensures |Text.PadStart2(Text.NatToString(h))| == 2
  {
    if h < 10 {
      assert |Text.NatToString(h)| == 1;
    } else {
      var d := h / 10;
      assert d < 10;
      assert |Text.NatToString(d)| == 1;
      assert Text.NatToString(h) == Text.NatToString(d) + [Text.DigitChar(h % 10)];
    }
  }

  lemma SplitLabel(p: string, suffix: string)
    requires |p| == 2 && |suffix| == 3 && suffix[0] == ':'
    ensures var l := p + suffix;
      |l| == 5 && l[2] == ':' && l[..2] == p && l[3..] == suffix[1..]
  {
  }

  /** A label is the padded hour, a colon, and "00" or "30". */
  lemma LabelParts(s: Slot)
    requires s.hour < 100
    ensures var l := Label(s);
      |l| == 5 && l[2] == ':' && l[..2] == Text.PadStart2(Text.NatToString(s.hour))
      && l[3..] == (if s.half then "30" else "00")
  {
    PaddedLength(s.hour);
    var suffix := if s.half then ":30" else ":00";
    SplitLabel(Text.PadStart2(Text.NatToString(s.hour)), suffix);
  }

  lemma MinuteDigits()
    ensures Text.AllDigits("30") && Text.ParseDigits("30") == 30
    ensures Text.AllDigits("00") && Text.ParseDigits("00") == 0
  {
    assert "30"[..1] == "3" && "3"[..0] == [];
    assert "00"[..1] == "0" && "0"[..0] == [];
  }

  /** A label reads back as its minutes after midnight. */
  lemma LabelTime(s: Slot)
    requires s.hour < 100
    ensures ParseSlot(Label(s)) == Some(60 * s.hour + (if s.half then 30 else 0))
  {
    LabelParts(s);
    PaddedHour(s.hour);
    MinuteDigits();
  }

  /** Slot i is 9:00 plus i half hours. */
  lemma SlotTime(i: nat)
    requires i < 25
    ensures ParseSlot(Label(SlotAt(i))) == Some(540 + 30 * i)
  {
    LabelTime(SlotAt(i));
    assert i == 2 * (i / 2) + i % 2;
  }

  /** Labels read as 9:00 plus i half hours are strictly increasing and
      never "21:30". */
  lemma TimesAscend(slots: seq<string>)
    requires |slots| == 25 && forall i :: 0 <= i < |slots| ==> ParseSlot(slots[i]) == Some(540 + 30 * i)
    ensures forall i, j :: 0 <= i < j < 25 ==>
      ParseSlot(slots[i]).Some? && ParseSlot(slots[j]).Some? && ParseSlot(slots[i]).value < ParseSlot(slots[j]).value
    ensures "21:30" !in slots
  {
    LateSlotTime();
  }

  /** The slots run from "09:00" to "21:00", strictly later one after the
      other, and "21:30" is not among them. */
  lemma SlotsAscend(slots: seq<string>)
    requires |slots| == 25 && forall i :: 0 <= i < |slots| ==> slots[i] == Label(SlotAt(i))
    ensures slots[0] == "09:00" && slots[24] == "21:00"
    ensures forall i, j :: 0 <= i < j < 25 ==>
      ParseSlot(slots[i]).Some? && ParseSlot(slots[j]).Some? && ParseSlot(slots[i]).value < ParseSlot(slots[j]).value
    ensures "21:30" !in slots
  {
    forall i | 0 <= i < 25
      ensures ParseSlot(slots[i]) == Some(540 + 30 * i)
    {
      SlotTime(i);
    }
    TimesAscend(slots);
    FirstAndLastSlot();
  }

  lemma FirstAndLastSlot()
    ensures Label(SlotAt(0)) == "09:00" && Label(SlotAt(24)) == "21:00"
  {
    assert SlotAt(0) == Slot(9, false) && SlotAt(24) == Slot(21, false);
    assert Text.NatToString(9) == "9" && Text.NatToString(21) == "21";
    assert Text.PadStart2("9") == "09";
  }

  lemma LateSlotTime()
    ensures ParseSlot("21:30") == Some(1290)
  {
    assert "21:30"[..2] == "21" && "21:30"[3..] == "30";
    assert "21"[..1] == "2" && "2"[..0] == [] && "30"[..1] == "3" && "3"[..0] == [];
  }

  // --------------------------------------------------------------- payload

  /** One cart line as the controller reads it: `bouquet_id` and
      `quantity`. */
  function ItemOf(it: CartItem): (b: Orders.ItemBody)
    ensures b.bouquetId == Val(it.bouquetId as real) && b.quantity == Val(it.quantity as real)
  {
    Orders.ItemBody(Val(it.bouquetId as real), Val(it.quantity as real))
  }

  function PaymentName(p: PaymentMethod): string {
    if p.Card? then "card" else "cash"
  }

  /** `{ ...formData, items: cart.items, total_amount: cart.finalTotal }`:
      the form's eight fields, the cart's lines and its final total.
      `customer_phone` and `customer_address` are not part of it. */
  function OrderPayload(form: OrderForm, cart: Types.Cart): (body: Orders.OrderBody)
    ensures body.items.Val? && |body.items.value| == |cart.items|
    ensures forall i :: 0 <= i < |cart.items| ==> body.items.value[i] == ItemOf(cart.items[i])
    ensures body.totalAmount == Val(cart.finalTotal)
    ensures body.customerPhone.Undefined? && body.customerAddress.Undefined?
  {
    Orders.OrderBody(
      Val(form.customerName), Val(form.phone), Val(form.email), Val(form.deliveryAddress),
      Val(form.deliveryDate), Val(form.deliveryTime),
      Val(seq(|cart.items|, i requires 0 <= i < |cart.items| => ItemOf(cart.items[i]))),
      Val(cart.finalTotal), Val(PaymentName(form.paymentMethod)), Val(form.notes),
      Undefined, Undefined)
  }

  /** The checkout never sends a body that passes the order route's
      declared rules: they ask for `customer_phone`, which it does not
      send. */
  lemma PayloadFailsDeclaredRules(form: OrderForm, cart: Types.Cart)
    ensures !Routes.ValidCreateOrder(OrderPayload(form, cart))
  {
  }

  /** Every bouquet in the cart is still in the catalog. */
  predicate CartInCatalog(bouquets: seq<Db.BouquetRow>, cart: Types.Cart) {
    forall i :: 0 <= i < |cart.items| ==> Db.FindBouquet(bouquets, cart.items[i].bouquetId as real).Some?
  }

  /** The checkout's order goes through exactly when the order number is
      free and every bouquet in the cart still exists; the stored total is
      the cart's final total. */
  lemma PayloadOutcome(db: Db.Store, form: OrderForm, cart: Types.Cart, now: nat)
    ensures var r := Orders.CreateOrder(db, OrderPayload(form, cart), now);
      r.Created? <==> !Orders.NumberTaken(db.orders, Orders.OrderNumber(now)) && CartInCatalog(db.bouquets, cart)
    ensures var r := Orders.CreateOrder(db, OrderPayload(form, cart), now);
      r.Created? ==> r.db.orders[|db.orders|].totalAmount == Some(cart.finalTotal)
  {
    var body := OrderPayload(form, cart);
    if CartInCatalog(db.bouquets, cart) {
      assert Orders.AllInsertable(db.bouquets, body.items.value);
    } else {
      var i :| 0 <= i < |cart.items| && Db.FindBouquet(db.bouquets, cart.items[i].bouquetId as real).None?;
      assert !Orders.ItemInsertable(db.bouquets, body.items.value[i]);
    }
  }

  // ------------------------------------------------------------ submission

  /** The answer `createOrder` gives the page: on 201 the JSON
      `{ order_id, order_number, message }`; anything else makes the API
      client throw. */
  datatype Reply = OrderAccepted(orderId: int, orderNumber: string) | RequestFailed

  function ReplyOf(r: Orders.CreateResult): (reply: Reply)
    ensures reply.OrderAccepted? <==> r.Created?
    ensures r.Created? ==> reply == OrderAccepted(r.orderId, r.orderNumber)
  {
    if r.Created? then OrderAccepted(r.orderId, r.orderNumber) else RequestFailed
  }

  /** What the customer is left with: the cart, the page the browser goes
      to (if any), and whether the error alert was shown. */
  datatype Screen = Screen(cart: Types.Cart, redirect: Option<string>, alerted: bool)

  /** `handleSubmit` as written: on success it clears the cart and then
      reads `response.order.id`; the reply has no `order` field, so that
      read throws, the catch shows the error alert, and no redirect
      happens. */
  function SubmitAsWritten(cart: Types.Cart, reply: Reply): (s: Screen)
    ensures reply.RequestFailed? ==> s == Screen(cart, None, true)
    ensures reply.OrderAccepted? ==> s.cart == Cart.Reduce(cart, Cart.ClearCart)
  {
    if reply.RequestFailed? then Screen(cart, None, true)
    else Screen(Cart.Reduce(cart, Cart.ClearCart), None, true)
  }

  /** The confirmation page's address for an order id. */
  function SuccessUrl(orderId: int): string {
    "/order-success?orderId=" + (if orderId >= 0 then Text.NatToString(orderId) else "-" + Text.NatToString(-orderId))
  }

  /** `handleSubmit` reading the id the controller does send (`order_id`):
      clear the cart and go to the confirmation page. */
  function Submit(cart: Types.Cart, reply: Reply): (s: Screen)
    ensures reply.RequestFailed? ==> s == Screen(cart, None, true)
    ensures reply.OrderAccepted? ==>
      s == Screen(Cart.Reduce(cart, Cart.ClearCart), Some(SuccessUrl(reply.orderId)), false)
  {
    if reply.RequestFailed? then Screen(cart, None, true)
    else Screen(Cart.Reduce(cart, Cart.ClearCart), Some(SuccessUrl(reply.orderId)), false)
  }

  /** As written, an order the shop has stored is reported to the customer
      as a failure, with the cart already emptied: the customer cannot
      tell it went through, and retrying means refilling the cart. */
  lemma StoredOrderReportedAsFailure(db: Db.Store, form: OrderForm, cart: Types.Cart, now: nat)
    requires cart.items != []
    requires Orders.CreateOrder(db, OrderPayload(form, cart), now).Created?
    ensures var s := SubmitAsWritten(cart, ReplyOf(Orders.CreateOrder(db, OrderPayload(form, cart), now)));
      s.alerted && s.redirect.None? && s.cart.items == [] && s.cart != cart
  {
  }

  /** With the reply read correctly, the cart is emptied exactly when the
      order was stored, the customer is sent to that order's confirmation
      page exactly then, and the alert shows exactly when it was not. */
  lemma SubmitClearsOnlyOnSuccess(db: Db.Store, form: OrderForm, cart: Types.Cart, now: nat)
    ensures var r := Orders.CreateOrder(db, OrderPayload(form, cart), now);
      var s := Submit(cart, ReplyOf(r));
      (s.cart.items == [] <==> r.Created? || cart.items == [])
      && (s.alerted <==> r.Failed?)
      && (r.Created? ==> s.redirect == Some(SuccessUrl(r.orderId)) && r.orderId == db.nextOrderId)
      && (r.Failed? ==> s.cart == cart && s.redirect.None?)
  {
  }
}

=== FILE: db.dfy ===
/** The MySQL store the controllers share: the `bouquets`, `categories`,
    `orders` and `order_items` tables as sequences of rows in insertion
    order, with the AUTO_INCREMENT counter of each table. Columns that a
    request can leave NULL are `Option`s; numbers that come from a JSON
    body are exact reals, ids and counters are integers. */
module Db {
  import opened Values
  import Tables

  datatype BouquetRow = BouquetRow(
    id: int,
    name: Option<string>,
    description: Option<string>,
    price: Option<real>,
    discountPct: Option<real>,
    categoryId: Option<real>,
    images: Option<seq<string>>,
    isAvailable: Option<bool>,
    isFeatured: Option<bool>,
    viewCount: int,
    createdAt: int)

  datatype CategoryRow = CategoryRow(
    id: int,
    name: Option<string>,
    description: Option<string>,
    imageUrl: Option<string>,
    sortOrder: Option<real>,
    isActive: Option<bool>)

  datatype OrderRow = OrderRow(
    id: int,
    orderNumber: string,
    customerName: Option<string>,
    customerPhone: Option<string>,
    customerAddress: Option<string>,
    deliveryDate: Option<string>,
    totalAmount: Option<real>,
    status: Option<string>,
    notes: Option<string>,
    createdAt: int)

  /** One order line: the bouquet's name and price copied at order time. */
  datatype OrderItemRow = OrderItemRow(
    id: int,
    orderId: int,
    bouquetId: real,
    bouquetName: Option<string>,
    price: Option<real>,
    quantity: Option<real>)

  datatype Store = Store(
    bouquets: seq<BouquetRow>,
    categories: seq<CategoryRow>,
    orders: seq<OrderRow>,
    orderItems: seq<OrderItemRow>,
    nextBouquetId: int,
    nextCategoryId: int,
    nextOrderId: int,
    nextItemId: int)

  /** The store after a request, and the HTTP status the request answered. */
  datatype Outcome = Outcome(db: Store, status: int)

  function BouquetKey(b: BouquetRow): int { b.id }
  function CategoryKey(c: CategoryRow): int { c.id }
  function OrderKey(o: OrderRow): int { o.id }
  function ItemKey(it: OrderItemRow): int { it.id }

  /** Primary keys are unique and below their table's AUTO_INCREMENT
      counter, and every order line belongs to an order
      (`order_items.order_id REFERENCES orders.id`). */
  predicate WellFormed(db: Store) {
    Tables.UniqueKeys(db.bouquets, BouquetKey) && Tables.KeysBelow(db.bouquets, BouquetKey, db.nextBouquetId)
    && Tables.UniqueKeys(db.categories, CategoryKey) && Tables.KeysBelow(db.categories, CategoryKey, db.nextCategoryId)
    && Tables.UniqueKeys(db.orders, OrderKey) && Tables.KeysBelow(db.orders, OrderKey, db.nextOrderId)
    && Tables.UniqueKeys(db.orderItems, ItemKey) && Tables.KeysBelow(db.orderItems, ItemKey, db.nextItemId)
    && (forall i :: 0 <= i < |db.orderItems| ==> HasOrder(db.orders, db.orderItems[i].orderId))
  }

  predicate HasOrder(orders: seq<OrderRow>, id: int) {
    exists j :: 0 <= j < |orders| && orders[j].id == id
  }

  /** The four tables of a and b hold the same rows (the counters may
      differ: InnoDB does not hand back ids used by a rolled-back insert). */
  predicate SameTables(a: Store, b: Store) {
    a.bouquets == b.bouquets && a.categories == b.categories
    && a.orders == b.orders && a.orderItems == b.orderItems
  }

  /** `SELECT ... FROM bouquets WHERE id = ?` for a numeric parameter: the
      first row whose id equals it (a fractional value matches nothing). */
  function FindBouquet(rows: seq<BouquetRow>, id: real): (r: Option<BouquetRow>)
    ensures r.Some? ==> r.value in rows && r.value.id as real == id
    ensures r.None? ==> forall i :: 0 <= i < |rows| ==> rows[i].id as real != id
  {
    if |rows| == 0 then None
    else if rows[0].id as real == id then Some(rows[0])
    else FindBouquet(rows[1..], id)
  }

  /** `WHERE id = ?` with an integer key: the first row with that id. */
  function FindBouquetById(rows: seq<BouquetRow>, id: int): (r: Option<BouquetRow>)
    ensures r.Some? ==> r.value in rows && r.value.id == id
    ensures r.None? ==> forall i :: 0 <= i < |rows| ==> rows[i].id != id
  {
    var k := Tables.IndexOf(rows, BouquetKey, id);
    if k < 0 then None else Some(rows[k])
  }

  /** `LEFT JOIN categories c ON b.category_id = c.id`: the joined
      category's name, or NULL when no category matches. */
  function CategoryName(categories: seq<CategoryRow>, categoryId: Option<real>): (r: Option<string>)
    ensures categoryId.None? ==> r.None?
    ensures r.Some? ==> exists i :: 0 <= i < |categories| && Some(categories[i].id as real) == categoryId
                                    && categories[i].name == r
  {
    if categoryId.None? || |categories| == 0 then None
    else if categories[0].id as real == categoryId.value then categories[0].name
    else CategoryName(categories[1..], categoryId)
  }
}

=== FILE: imageupload.dfy ===
/** The image picker of the admin forms (frontend/src/components/image-upload.tsx):
    the list of uploaded image URLs, how an upload appends to it, how a
    thumbnail's remove button takes one out, and when the file input is
    disabled. The upload requests themselves are answers passed in. */
module ImageUpload {
  import opened Values

  /** The picker's state: the URLs shown, the uploading flag, and whether
      the failure alert has been raised. */
  datatype Picker = Picker(images: seq<string>, uploading: bool, alerted: bool)

  const Empty := Picker([], false, false)

  /** The state after an event, and the list handed to `onUpload`, if it
      was called. */
  datatype Step = Step(picker: Picker, reported: Option<seq<string>>)

  /** `disabled={uploading || (!multiple && uploadedImages.length >= 1)}`. */
  predicate InputDisabled(p: Picker, multiple: bool) {
    p.uploading || (!multiple && |p.images| >= 1)
  }

  /** Several files in multiple mode go to the multi-file endpoint; in
      every other case only the first file is sent. */
  predicate UsesMultiUpload(multiple: bool, fileCount: nat) {
    multiple && fileCount > 1
  }

  /** `handleFileSelect`. `single` is the URL of the answer to the one-file
      request and `many` the URLs of the answer to the multi-file request,
      `None` when that request fails (the backend serves no multi-file
      route, so against it `many` is always `None`); only the request the
      branch sends is read. An empty selection does nothing. A success appends the answer's
      URLs after the existing ones and reports the new list; a failure
      raises the alert and keeps the list. The flag is down afterwards. */
  function HandleFileSelect(p: Picker, multiple: bool, fileCount: nat,
                            single: Option<string>, many: Option<seq<string>>): (r: Step)
    ensures fileCount == 0 ==> r == Step(p, None)
    ensures fileCount > 0 ==> !r.picker.uploading
    ensures fileCount > 0 && UsesMultiUpload(multiple, fileCount) && many.Some? ==>
      r.picker.images == p.images + many.value && r.reported == Some(r.picker.images)
    ensures fileCount > 0 && !UsesMultiUpload(multiple, fileCount) && single.Some? ==>
      r.picker.images == p.images + [single.value] && r.reported == Some(r.picker.images)
    ensures r.reported.None? ==> r.picker.images == p.images
    ensures r.reported.Some? ==> r.reported.value == r.picker.images
    ensures r.picker.alerted <==> p.alerted || (r.reported.None? && fileCount > 0)
  {
    if fileCount == 0 then Step(p, None)
    else
      var answer := if UsesMultiUpload(multiple, fileCount) then many
                    else if single.Some? then Some([single.value]) else None;
      match answer
        case None => Step(p.(uploading := false, alerted := true), None)
        case Some(urls) =>
          var images := p.images + urls;
          Step(p.(images := images, uploading := false), Some(images))
  }

  /** `uploadedImages.filter((_, i) => i !== index)`, one element at a
      time: `offset` is the position of `xs[0]` in the original list. */
  function FilterIndex(xs: seq<string>, index: int, offset: int): (r: seq<string>)
    ensures |r| <= |xs|
    ensures offset <= index < offset + |xs| ==> r == xs[..index - offset] + xs[index - offset + 1..]
    ensures !(offset <= index < offset + |xs|) ==> r == xs
    decreases |xs|
  {
    if |xs| == 0 then []
    else
      var rest := FilterIndex(xs[1..], index, offset + 1);
      var keep := if offset != index then [xs[0]] else [];
      assert xs == [xs[0]] + xs[1..];
      assert offset < index < offset + |xs| ==> [xs[0]] + xs[1..][..index - offset - 1] == xs[..index - offset];
      keep + rest
  }

  /** `removeImage`: the list without position `index`, the rest in their
      order; an index outside the list changes nothing. The new list is
      reported. */
  function RemoveImage(p: Picker, index: int): (r: Step)
    ensures 0 <= index < |p.images| ==>
      |r.picker.images| == |p.images| - 1
      && (forall k :: 0 <= k < index ==> r.picker.images[k] == p.images[k])
      && (forall k :: index <= k < |r.picker.images| ==> r.picker.images[k] == p.images[k + 1])
    ensures !(0 <= index < |p.images|) ==> r.picker.images == p.images
    ensures r.picker == p.(images := r.picker.images) && r.reported == Some(r.picker.images)
  {
    var images := FilterIndex(p.images, index, 0);
    Step(p.(images := images), Some(images))
  }

  /** Removing the image just uploaded in single mode gives the list back. */
  lemma RemoveUndoesUpload(p: Picker, url: string)
    requires !p.uploading
    ensures var up := HandleFileSelect(p, false, 1, Some(url), None).picker;
      RemoveImage(up, |up.images| - 1).picker.images == p.images
  {
    var up := HandleFileSelect(p, false, 1, Some(url), None).picker;
    assert up.images == p.images + [url];
    var n := |p.images|;
    assert FilterIndex(up.images, n, 0) == up.images[..n] + up.images[n + 1..];
    assert up.images[..n] == p.images && up.images[n + 1..] == [];
  }

  /** In single mode the picker never shows more than one image: the input
      is disabled once one is there, and a single upload adds one URL. */
  lemma SingleModeHoldsOneImage(p: Picker, fileCount: nat, single: Option<string>, many: Option<seq<string>>)
    requires |p.images| <= 1 && !InputDisabled(p, false)
    ensures |HandleFileSelect(p, false, fileCount, single, many).picker.images| <= 1
  {
  }

  /** `maxFiles` is only shown: in multiple mode the input stays enabled
      at any length, so a one-file upload takes a full list of five to six. */
  lemma MaxFilesNotEnforced(urls: seq<string>, url: string)
    requires |urls| == 5
    ensures var p := Picker(urls, false, false);
      !InputDisabled(p, true)
      && HandleFileSelect(p, true, 1, Some(url), None).picker.images == urls + [url]
      && |HandleFileSelect(p, true, 1, Some(url), None).picker.images| == 6
  {
  }
}

=== FILE: orders.dfy ===
/** The order controller (backend/src/controllers/orderController.js):
    order creation as one transaction over the store, the paginated order
    listing, and the status update. The timestamp `Date.now()` is a
    parameter. */
module Orders {
  import opened Values
  import Text
  import Tables
  import Sorting
  import opened Db

  /** One entry of the request's `items` array. */
  datatype ItemBody = ItemBody(bouquetId: Field<real>, quantity: Field<real>)

  /** The JSON body of `POST /api/orders`. The controller reads `phone` and
      `delivery_address`; `customer_phone` and `customer_address` are the
      names the route's validator checks, and the controller never reads
      them. */
  datatype OrderBody = OrderBody(
    customerName: Field<string>,
    phone: Field<string>,
    email: Field<string>,
    deliveryAddress: Field<string>,
    deliveryDate: Field<string>,
    deliveryTime: Field<string>,
    items: Field<seq<ItemBody>>,
    totalAmount: Field<real>,
    paymentMethod: Field<string>,
    notes: Field<string>,
    customerPhone: Field<string>,
    customerAddress: Field<string>)

  /** Why the transaction rolled back. Every one of them answers 500. */
  datatype OrderError =
    | UndefinedBind          // the driver refuses `undefined` as a bind parameter
    | DuplicateOrderNumber   // the UNIQUE key on order_number
    | ItemsNotIterable       // `for (const item of items)` over null or undefined
    | BouquetNotFound(bouquetId: Option<real>)

  datatype CreateResult =
    | Created(db: Store, orderId: int, orderNumber: string)
    | Failed(db: Store, error: OrderError)

  /** The HTTP status `createOrder` answers with. */
  function CreateStatus(r: CreateResult): (code: int)
    ensures code == 201 <==> r.Created?
    ensures code == 500 <==> r.Failed?
  {
    if r.Created? then 201 else 500
  }

  /** `ORD${Date.now()}`. */
  function OrderNumber(now: nat): (s: string)
    ensures |s| > 3 && s[..3] == "ORD" && Text.AllDigits(s[3..])
  {
    var s := "ORD" + Text.NatToString(now);
    assert s[3..] == Text.NatToString(now);
    s
  }

  /** Reads the timestamp back out of an order number. */
  function ParseOrderNumber(s: string): (r: Option<nat>)
    ensures r.Some? ==> |s| > 3 && s[..3] == "ORD"
  {
    if |s| >= 3 && s[..3] == "ORD" then Text.ParseNat(s[3..]) else None
  }

  /** The order number carries its timestamp: parsing it gives it back. */
  lemma OrderNumberRoundTrip(now: nat)
    ensures ParseOrderNumber(OrderNumber(now)) == Some(now)
  {
    var s := OrderNumber(now);
    assert s[3..] == Text.NatToString(now);
    Text.ParseNatToString(now);
  }

  /** Orders created at different milliseconds get different numbers. */
  lemma OrderNumberInjective(a: nat, b: nat)
    requires OrderNumber(a) == OrderNumber(b)
    ensures a == b
  {
    OrderNumberRoundTrip(a);
    OrderNumberRoundTrip(b);
  }

  /** The header insert binds customer_name, phone, delivery_address,
      delivery_date, total_amount and notes; none may be `undefined`. */
  predicate HeaderBindsDefined(body: OrderBody) {
    Defined(body.customerName) && Defined(body.phone) && Defined(body.deliveryAddress)
    && Defined(body.deliveryDate) && Defined(body.totalAmount) && Defined(body.notes)
  }

  predicate NumberTaken(orders: seq<OrderRow>, number: string) {
    exists j :: 0 <= j < |orders| && orders[j].orderNumber == number
  }

  /** The header row: `total_amount` exactly as the client sent it and
      status 'pending'; `email`, `delivery_time` and `payment_method` are
      not stored. */
  function NewOrderRow(id: int, number: string, body: OrderBody, now: nat): OrderRow {
    OrderRow(id, number, Column(body.customerName), Column(body.phone), Column(body.deliveryAddress),
             Column(body.deliveryDate), Column(body.totalAmount), Some("pending"), Column(body.notes), now)
  }

  /** An item passes every step of the loop: its bouquet id is bound and
      found, and its quantity is bound. */
  predicate ItemInsertable(bouquets: seq<BouquetRow>, item: ItemBody) {
    item.bouquetId.Val? && FindBouquet(bouquets, item.bouquetId.value).Some? && Defined(item.quantity)
  }

  predicate AllInsertable(bouquets: seq<BouquetRow>, items: seq<ItemBody>) {
    forall i :: 0 <= i < |items| ==> ItemInsertable(bouquets, items[i])
  }

  /** The line an item becomes: the bouquet's name and price as the catalog
      holds them now, the quantity as the client sent it. */
  function LineRow(bouquets: seq<BouquetRow>, orderId: int, item: ItemBody, id: int): OrderItemRow
    requires ItemInsertable(bouquets, item)
  {
    var b := FindBouquet(bouquets, item.bouquetId.value).value;
    OrderItemRow(id, orderId, item.bouquetId.value, b.name, b.price, Column(item.quantity))
  }

  /** The lines for all items, numbered from firstId. */
  function Lines(bouquets: seq<BouquetRow>, orderId: int, items: seq<ItemBody>, firstId: int): (r: seq<OrderItemRow>)
    requires AllInsertable(bouquets, items)
    ensures |r| == |items|
  {
    seq(|items|, i requires 0 <= i < |items| => LineRow(bouquets, orderId, items[i], firstId + i))
  }

  datatype LinesResult = LinesOk(db: Store) | LinesFailed(db: Store, error: OrderError)

  /** The `for (const item of items)` loop inside the transaction: look the
      bouquet up, then insert its line; the first failing item stops it. */
  function InsertLines(db: Store, orderId: int, items: seq<ItemBody>): (r: LinesResult)
    ensures r.db == db.(orderItems := r.db.orderItems, nextItemId := r.db.nextItemId)
    ensures r.db.nextItemId >= db.nextItemId
    ensures r.LinesOk? <==> AllInsertable(db.bouquets, items)
    ensures r.LinesOk? ==>
      r.db.orderItems == db.orderItems + Lines(db.bouquets, orderId, items, db.nextItemId)
      && r.db.nextItemId == db.nextItemId + |items|
    decreases |items|
  {
    if |items| == 0 then LinesOk(db)
    else
      var item := items[0];
      if item.bouquetId.Undefined? then LinesFailed(db, UndefinedBind)
      else if item.bouquetId.Null? || FindBouquet(db.bouquets, item.bouquetId.value).None? then
        LinesFailed(db, BouquetNotFound(Column(item.bouquetId)))
      else if item.quantity.Undefined? then LinesFailed(db, UndefinedBind)
      else
        var line := LineRow(db.bouquets, orderId, item, db.nextItemId);
        var next := db.(orderItems := db.orderItems + [line], nextItemId := db.nextItemId + 1);
        var rest := InsertLines(next, orderId, items[1..]);
        assert AllInsertable(db.bouquets, items) <==> AllInsertable(db.bouquets, items[1..]) by {
          if AllInsertable(db.bouquets, items[1..]) {
            forall i | 0 <= i < |items|
              ensures ItemInsertable(db.bouquets, items[i])
            {
              if i > 0 { assert items[i] == items[1..][i - 1]; }
            }
          }
        }
        if rest.LinesOk? then
          LinesCons(db.bouquets, orderId, items, db.nextItemId);
          rest
        else rest
  }

  lemma LinesCons(bouquets: seq<BouquetRow>, orderId: int, items: seq<ItemBody>, firstId: int)
    requires |items| > 0 && AllInsertable(bouquets, items)
    ensures AllInsertable(bouquets, items[1..])
    ensures Lines(bouquets, orderId, items, firstId)
         == [LineRow(bouquets, orderId, items[0], firstId)] + Lines(bouquets, orderId, items[1..], firstId + 1)
  {
    assert forall i :: 0 <= i < |items| - 1 ==> items[1..][i] == items[i + 1];
  }

  /** The whole request succeeds: every bind is defined, the order number is
      free, `items` is an array, and every item passes the loop. */
  predicate Succeeds(db: Store, body: OrderBody, now: nat) {
    HeaderBindsDefined(body) && !NumberTaken(db.orders, OrderNumber(now))
    && body.items.Val? && AllInsertable(db.bouquets, body.items.value)
  }

  /** `connection.rollback()`: every table as before the transaction; the
      AUTO_INCREMENT counters keep the values the transaction used up. */
  function Rollback(pre: Store, post: Store): (r: Store)
    ensures SameTables(r, pre)
    ensures r.nextOrderId == post.nextOrderId && r.nextItemId == post.nextItemId
  {
    pre.(nextOrderId := post.nextOrderId, nextItemId := post.nextItemId)
  }

  /** `createOrder`: insert the header, then one line per item, all in one
      transaction. Either both tables grow by exactly the new order and its
      lines, or the transaction rolls back and every table is as it was. */
  function CreateOrder(db: Store, body: OrderBody, now: nat): (r: CreateResult)
    ensures r.Created? <==> Succeeds(db, body, now)
    ensures r.Failed? ==> SameTables(r.db, db)
    ensures r.Created? ==>
      r.orderId == db.nextOrderId && r.orderNumber == OrderNumber(now)
      && r.db.bouquets == db.bouquets && r.db.categories == db.categories
      && r.db.orders == db.orders + [NewOrderRow(r.orderId, r.orderNumber, body, now)]
      && r.db.orderItems == db.orderItems + Lines(db.bouquets, r.orderId, body.items.value, db.nextItemId)
    ensures r.Created? ==>
      r.db.orders[|db.orders|].status == Some("pending")
      && r.db.orders[|db.orders|].totalAmount == Column(body.totalAmount)
    ensures r.db.nextOrderId >= db.nextOrderId && r.db.nextItemId >= db.nextItemId
    ensures r.db.nextBouquetId == db.nextBouquetId && r.db.nextCategoryId == db.nextCategoryId
  {
    var number := OrderNumber(now);
    if !HeaderBindsDefined(body) then Failed(db, UndefinedBind)
    else if NumberTaken(db.orders, number) then Failed(db.(nextOrderId := db.nextOrderId + 1), DuplicateOrderNumber)
    else
      var id := db.nextOrderId;
      var withOrder := db.(orders := db.orders + [NewOrderRow(id, number, body, now)], nextOrderId := id + 1);
      if !body.items.Val? then Failed(Rollback(db, withOrder), ItemsNotIterable)
      else
        var lines := InsertLines(withOrder, id, body.items.value);
        if lines.LinesOk? then Created(lines.db, id, number)
        else Failed(Rollback(db, lines.db), lines.error)
  }

  /** One missing bouquet anywhere in the request aborts the whole order:
      500, and no table changes. */
  lemma MissingBouquetRollsBack(db: Store, body: OrderBody, now: nat, i: int)
    requires body.items.Val? && 0 <= i < |body.items.value|
    requires body.items.value[i].bouquetId.Val?
    requires FindBouquet(db.bouquets, body.items.value[i].bouquetId.value).None?
    ensures CreateStatus(CreateOrder(db, body, now)) == 500
    ensures SameTables(CreateOrder(db, body, now).db, db)
  {
    assert !ItemInsertable(db.bouquets, body.items.value[i]);
  }

  /** On success the order's lines are one per requested item, in request
      order, each pointing at the new order, copying the bouquet's catalog
      name and price, and keeping the requested quantity. */
  lemma CreatedLinesSnapshot(db: Store, body: OrderBody, now: nat)
    requires CreateOrder(db, body, now).Created?
    ensures var r := CreateOrder(db, body, now);
      var added := r.db.orderItems[|db.orderItems|..];
      |added| == |body.items.value|
      && forall i :: 0 <= i < |added| ==>
           var item := body.items.value[i];
           var b := FindBouquet(db.bouquets, item.bouquetId.value).value;
           added[i].orderId == r.orderId && added[i].bouquetId == item.bouquetId.value
           && added[i].bouquetName == b.name && added[i].price == b.price
           && added[i].quantity == Column(item.quantity)
  {
    var r := CreateOrder(db, body, now);
    assert r.db.orderItems[|db.orderItems|..] == Lines(db.bouquets, r.orderId, body.items.value, db.nextItemId);
    LinesContents(db.bouquets, r.orderId, body.items.value, db.nextItemId);
  }

  lemma LinesContents(bouquets: seq<BouquetRow>, orderId: int, items: seq<ItemBody>, firstId: int)
    requires AllInsertable(bouquets, items)
    ensures forall i :: 0 <= i < |items| ==>
      var line := Lines(bouquets, orderId, items, firstId)[i];
      var b := FindBouquet(bouquets, items[i].bouquetId.value).value;
      line.orderId == orderId && line.bouquetId == items[i].bouquetId.value
      && line.bouquetName == b.name && line.price == b.price && line.quantity == Column(items[i].quantity)
  {
  }

  /** Two orders in the same millisecond collide on order_number: the second
      one fails and changes nothing. */
  lemma SameMillisecondCollides(db: Store, first: OrderBody, second: OrderBody, now: nat)
    requires CreateOrder(db, first, now).Created?
    requires HeaderBindsDefined(second)
    ensures var after := CreateOrder(db, first, now).db;
      CreateOrder(after, second, now).Failed?
      && CreateOrder(after, second, now).error == DuplicateOrderNumber
      && SameTables(CreateOrder(after, second, now).db, after)
  {
    var after := CreateOrder(db, first, now).db;
    assert after.orders[|db.orders|].orderNumber == OrderNumber(now);
    assert NumberTaken(after.orders, OrderNumber(now));
  }

  /** Creating an order keeps primary keys unique and below their counters,
      and every line pointing at an existing order. */
  lemma CreateOrderPreservesWellFormed(db: Store, body: OrderBody, now: nat)
    requires WellFormed(db)
    ensures WellFormed(CreateOrder(db, body, now).db)
  {
    var r := CreateOrder(db, body, now);
    if r.Created? {
      var id := db.nextOrderId;
      var row := NewOrderRow(id, OrderNumber(now), body, now);
      Tables.AppendFresh(db.orders, OrderKey, id, row);
      var lines := Lines(db.bouquets, id, body.items.value, db.nextItemId);
      LinesFresh(db.orderItems, lines, db.nextItemId);
      assert r.db.orders == db.orders + [row];
      forall i | 0 <= i < |r.db.orderItems|
        ensures HasOrder(r.db.orders, r.db.orderItems[i].orderId)
      {
        if i < |db.orderItems| {
          assert r.db.orderItems[i] == db.orderItems[i];
          var j :| 0 <= j < |db.orders| && db.orders[j].id == db.orderItems[i].orderId;
          assert r.db.orders[j] == db.orders[j];
        } else {
          assert r.db.orderItems[i] == lines[i - |db.orderItems|];
          assert r.db.orders[|db.orders|].id == id;
        }
      }
    } else {
      BelowMonotone(db.orders, OrderKey, db.nextOrderId, r.db.nextOrderId);
      BelowMonotone(db.orderItems, ItemKey, db.nextItemId, r.db.nextItemId);
    }
  }

  lemma BelowMonotone<T>(rows: seq<T>, key: T -> int, a: int, b: int)
    requires Tables.KeysBelow(rows, key, a) && a <= b
    ensures Tables.KeysBelow(rows, key, b)
  {
  }

  /** Lines numbered consecutively from the counter keep the line ids
      unique and below the advanced counter. */
  lemma LinesFresh(rows: seq<OrderItemRow>, lines: seq<OrderItemRow>, first: int)
    requires Tables.UniqueKeys(rows, ItemKey) && Tables.KeysBelow(rows, ItemKey, first)
    requires forall i :: 0 <= i < |lines| ==> lines[i].id == first + i
    ensures Tables.UniqueKeys(rows + lines, ItemKey)
    ensures Tables.KeysBelow(rows + lines, ItemKey, first + |lines|)
  {
    var all := rows + lines;
    forall i, j | 0 <= i < j < |all|
      ensures ItemKey(all[i]) != ItemKey(all[j])
    {
      if j >= |rows| {
        assert all[j] == lines[j - |rows|];
        if i >= |rows| {
          assert all[i] == lines[i - |rows|];
        }
      }
    }
  }

  // ---------------------------------------------------------------- getOrders

  datatype OrderWithItems = OrderWithItems(order: OrderRow, items: seq<OrderItemRow>)

  /** The JSON of a successful listing: the page of orders with their lines,
      and the `pagination` object. */
  datatype OrdersPage = OrdersPage(orders: seq<OrderWithItems>, page: int, limit: int, total: nat, pages: Option<int>)

  /** A query parameter after `parseInt`, with the destructuring default
      used when the parameter is absent. */
  function WithDefault(p: Parsed<int>, d: int): (r: Parsed<int>)
    ensures r.Missing? ==> false
    ensures p.Missing? ==> r == Num(d)
    ensures !p.Missing? ==> r == p
  {
    if p.Missing? then Num(d) else p
  }

  /** `if (status)`: the filter applies for a non-empty status. */
  predicate Filters(status: Option<string>) {
    status.Some? && status.value != ""
  }

  /** The orders `WHERE status = ?` selects (NULL never matches), or every
      order when no status is given. Both the count and the page use it. */
  function Matching(orders: seq<OrderRow>, status: Option<string>): (r: seq<OrderRow>)
    ensures Filters(status) ==> forall i :: 0 <= i < |r| ==> r[i] in orders && r[i].status == status
    ensures Filters(status) ==> forall i :: 0 <= i < |orders| && orders[i].status == status ==> orders[i] in r
    ensures !Filters(status) ==> r == orders
  {
    if Filters(status) then Tables.Where(orders, (o: OrderRow) => o.status == status) else orders
  }

  function CreatedKey(o: OrderRow): Option<real> {
    Some(o.createdAt as real)
  }

  /** `SELECT * FROM order_items WHERE order_id = ?`, in table order. */
  function ItemsOf(items: seq<OrderItemRow>, orderId: int): (r: seq<OrderItemRow>)
    ensures forall i :: 0 <= i < |r| ==> r[i] in items && r[i].orderId == orderId
    ensures forall i :: 0 <= i < |items| && items[i].orderId == orderId ==> items[i] in r
  {
    Tables.Where(items, (it: OrderItemRow) => it.orderId == orderId)
  }

  function WithItems(orders: seq<OrderRow>, items: seq<OrderItemRow>): (r: seq<OrderWithItems>)
    ensures |r| == |orders|
    ensures forall i :: 0 <= i < |r| ==> r[i].order == orders[i] && r[i].items == ItemsOf(items, orders[i].id)
  {
    seq(|orders|, i requires 0 <= i < |orders| => OrderWithItems(orders[i], ItemsOf(items, orders[i].id)))
  }

  /** The LIMIT/OFFSET pair the server accepts: both numbers, neither
      negative. Anything else makes the query fail with 500. */
  predicate WindowOk(page: Parsed<int>, limit: Parsed<int>) {
    page.Num? && limit.Num? && limit.value >= 0 && Sorting.Offset(page.value, limit.value) >= 0
  }

  /** `getOrders`: count the matching orders, list one page of them newest
      first, attach each order's lines. None is the 500 answer. */
  function GetOrders(db: Store, status: Option<string>, page: Parsed<int>, limit: Parsed<int>): (r: Option<OrdersPage>)
    ensures r.Some? <==> WindowOk(WithDefault(page, 1), WithDefault(limit, 10))
    ensures r.Some? ==>
      var p := r.value;
      p.total == |Matching(db.orders, status)|
      && p.pages == Sorting.PageCount(p.total, p.limit)
      && p.page == WithDefault(page, 1).value && p.limit == WithDefault(limit, 10).value
      && |p.orders| <= p.limit
      && (forall i :: 0 <= i < |p.orders| ==>
            p.orders[i].order in db.orders
            && (Filters(status) ==> p.orders[i].order.status == status)
            && p.orders[i].items == ItemsOf(db.orderItems, p.orders[i].order.id))
      && (forall i :: 0 < i < |p.orders| ==> p.orders[i - 1].order.createdAt >= p.orders[i].order.createdAt)
    ensures r.Some? ==>
      var p := r.value;
      p.limit >= 0 && Sorting.Offset(p.page, p.limit) >= 0
      && p.orders == WithItems(Sorting.Page(Sorting.SortBy(Matching(db.orders, status), CreatedKey, true),
                                            p.limit, Sorting.Offset(p.page, p.limit)), db.orderItems)
  {
    var pg := WithDefault(page, 1);
    var lim := WithDefault(limit, 10);
    if !WindowOk(pg, lim) then None
    else
      var selected := Matching(db.orders, status);
      var sorted := Sorting.SortBy(selected, CreatedKey, true);
      var window := Sorting.Page(sorted, lim.value, Sorting.Offset(pg.value, lim.value));
      assert forall i :: 0 <= i < |window| ==> window[i] in multiset(sorted) && window[i] in selected;
      SortedWindow(sorted, lim.value, Sorting.Offset(pg.value, lim.value));
      Some(OrdersPage(WithItems(window, db.orderItems), pg.value, lim.value, |selected|,
                      Sorting.PageCount(|selected|, lim.value)))
  }

  lemma SortedWindow(sorted: seq<OrderRow>, limit: nat, offset: nat)
    requires Sorting.SortedBy(sorted, CreatedKey, true)
    ensures var w := Sorting.Page(sorted, limit, offset);
      forall i :: 0 < i < |w| ==> w[i - 1].createdAt >= w[i].createdAt
  {
    var w := Sorting.Page(sorted, limit, offset);
    forall i | 0 < i < |w|
      ensures w[i - 1].createdAt >= w[i].createdAt
    {
      assert w[i - 1] == sorted[offset + i - 1] && w[i] == sorted[offset + i];
    }
  }

  // --------------------------------------------------------- updateOrderStatus

  function SetStatus(s: Option<string>): OrderRow -> OrderRow {
    (o: OrderRow) => o.(status := s)
  }

  /** `updateOrderStatus`: `UPDATE orders SET status = ? WHERE id = ?` with
      no check of the current status; 200 whether or not the order exists. */
  function UpdateOrderStatus(db: Store, id: int, status: Field<string>): (r: Outcome)
    ensures status.Undefined? ==> r == Outcome(db, 500)
    ensures !status.Undefined? ==>
      r.status == 200
      && r.db == db.(orders := r.db.orders)
      && |r.db.orders| == |db.orders|
      && forall i :: 0 <= i < |db.orders| ==>
           r.db.orders[i] == if db.orders[i].id == id then db.orders[i].(status := Column(status)) else db.orders[i]
  {
    if status.Undefined? then Outcome(db, 500)
    else Outcome(db.(orders := Tables.Replace(db.orders, OrderKey, id, SetStatus(Column(status)))), 200)
  }

  /** No transition graph: a delivered order can be sent back to pending. */
  lemma DeliveredBackToPending(db: Store, k: int)
    requires 0 <= k < |db.orders| && db.orders[k].status == Some("delivered")
    ensures UpdateOrderStatus(db, db.orders[k].id, Val("pending")).db.orders[k].status == Some("pending")
  {
  }

  /** Setting the same status twice is setting it once. */
  lemma {:induction false} UpdateStatusIdempotent(db: Store, id: int, status: Field<string>)
    ensures var once := UpdateOrderStatus(db, id, status);
      UpdateOrderStatus(once.db, id, status).db == once.db
  {
    var once := UpdateOrderStatus(db, id, status);
    if !status.Undefined? {
      var twice := UpdateOrderStatus(once.db, id, status);
      assert |twice.db.orders| == |once.db.orders|;
      forall i | 0 <= i < |once.db.orders|
        ensures twice.db.orders[i] == once.db.orders[i]
      {
      }
    }
  }

  /** A status update keeps the store well formed. */
  lemma UpdateStatusPreservesWellFormed(db: Store, id: int, status: Field<string>)
    requires WellFormed(db)
    ensures WellFormed(UpdateOrderStatus(db, id, status).db)
  {
    var r := UpdateOrderStatus(db, id, status);
    if !status.Undefined? {
      assert forall i :: 0 <= i < |db.orders| ==> r.db.orders[i].id == db.orders[i].id;
      forall i | 0 <= i < |r.db.orderItems|
        ensures HasOrder(r.db.orders, r.db.orderItems[i].orderId)
      {
        var j :| 0 <= j < |db.orders| && db.orders[j].id == db.orderItems[i].orderId;
        assert r.db.orders[j].id == db.orders[j].id;
      }
    }
  }
}

=== FILE: routes.dfy ===
/** The API routes (backend/src/routes/bouquets.js, categories.js,
    orders.js): which requests need an administrator, and the request rules
    each route declares with express-validator. No controller calls
    `validationResult`, so the rules are stated here as predicates and the
    dispatcher `Handle` does not consult them. */
module Routes {
  import opened Values
  import Text
  import opened Db
  import Orders
  import Bouquets
  import Categories

  // ------------------------------------------------------------ validators

  /** `notEmpty()`: a value whose string form is not empty (`null` and
      `undefined` render as ""). */
  predicate NotEmpty(f: Field<string>) {
    f.Val? && f.value != ""
  }

  /** `isInt({ min, max })` on a JSON number. */
  predicate IntIn(f: Field<real>, min: Option<int>, max: Option<int>) {
    f.Val? && IsInt(f.value)
    && (min.Some? ==> f.value >= min.value as real)
    && (max.Some? ==> f.value <= max.value as real)
  }

  /** `optional()` skips a check only when the field is absent. */
  predicate Optional<T>(f: Field<T>, check: bool) {
    f.Undefined? || check
  }

  predicate LeapYear(y: nat) {
    (y % 4 == 0 && y % 100 != 0) || y % 400 == 0
  }

  function DaysInMonth(y: nat, m: nat): (days: nat)
    requires 1 <= m <= 12
    ensures 28 <= days <= 31
    ensures days == 29 <==> m == 2 && LeapYear(y)
  {
    if m == 2 then (if LeapYear(y) then 29 else 28)
    else if m == 4 || m == 6 || m == 9 || m == 11 then 30
    else 31
  }

  /** `isDate()` with its default format: `YYYY/MM/DD` or `YYYY-MM-DD`, one
      delimiter throughout, naming a day of the Gregorian calendar. */
  predicate IsCalendarDate(s: string) {
    |s| == 10 && (s[4] == '/' || s[4] == '-') && s[7] == s[4]
    && Text.AllDigits(s[..4]) && Text.AllDigits(s[5..7]) && Text.AllDigits(s[8..])
    && 1 <= Text.ParseDigits(s[5..7]) <= 12
    && 1 <= Text.ParseDigits(s[8..]) <= DaysInMonth(Text.ParseDigits(s[..4]), Text.ParseDigits(s[5..7]))
  }

  /** The w lowest decimal digits of n, zero-padded. */
  function Fixed(n: nat, w: nat): (s: string)
    ensures |s| == w && Text.AllDigits(s)
  {
    if w == 0 then [] else Fixed(n / 10, w - 1) + [Text.DigitChar(n % 10)]
  }

  function Pow10(w: nat): (p: nat)
    ensures p >= 1
  {
    if w == 0 then 1 else 10 * Pow10(w - 1)
  }

  /** Reading back w padded digits gives n when it fits. */
  lemma {:induction false} ParseFixed(n: nat, w: nat)
    requires n < Pow10(w)
    ensures Text.ParseDigits(Fixed(n, w)) == n
  {
    var s := Fixed(n, w);
    if w > 0 {
      ParseFixed(n / 10, w - 1);
      assert s[..|s| - 1] == Fixed(n / 10, w - 1);
      assert Text.DigitValue(s[|s| - 1]) == n % 10;
    }
  }

  /** A date written `YYYY-MM-DD`. */
  function FormatDate(y: nat, m: nat, d: nat): (s: string)
    ensures |s| == 10
  {
    Fixed(y, 4) + "-" + Fixed(m, 2) + "-" + Fixed(d, 2)
  }

  /** A formatted date passes `isDate()` exactly when the day exists. */
  lemma FormatDateIsDate(y: nat, m: nat, d: nat)
    requires y < 10000 && 1 <= m <= 12 && d < 100
    ensures IsCalendarDate(FormatDate(y, m, d)) <==> 1 <= d <= DaysInMonth(y, m)
  {
    var s := FormatDate(y, m, d);
    assert s[..4] == Fixed(y, 4) && s[5..7] == Fixed(m, 2) && s[8..] == Fixed(d, 2);
    assert Pow10(4) == 10000 && Pow10(2) == 100;
    ParseFixed(y, 4);
    ParseFixed(m, 2);
    ParseFixed(d, 2);
  }

  /** `POST /api/orders`: customer_name, customer_phone and customer_address
      not empty; `items` an array whose every bouquet_id is an integer and
      every quantity an integer of at least 1; delivery_date, if present, a
      date; notes, if present, a string. */
  predicate ValidCreateOrder(body: Orders.OrderBody) {
    NotEmpty(body.customerName) && NotEmpty(body.customerPhone) && NotEmpty(body.customerAddress)
    && body.items.Val?
    && (forall i :: 0 <= i < |body.items.value| ==>
          IntIn(body.items.value[i].bouquetId, None, None) && IntIn(body.items.value[i].quantity, Some(1), None))
    && Optional(body.deliveryDate, body.deliveryDate.Val? && IsCalendarDate(body.deliveryDate.value))
    && Optional(body.notes, body.notes.Val?)
  }

  const OrderStatuses: seq<string> := ["pending", "confirmed", "preparing", "delivered", "cancelled"]

  /** `PUT /api/orders/:id/status`: status is one of the five names. */
  predicate ValidStatusUpdate(status: Field<string>) {
    status.Val? && status.value in OrderStatuses
  }

  /** `POST /api/bouquets`: a name, a price of at least 0, and if present an
      integer category_id and an integer discount in [0, 100]. */
  predicate ValidCreateBouquet(body: Bouquets.BouquetBody) {
    NotEmpty(body.name)
    && body.price.Val? && body.price.value >= 0.0
    && Optional(body.categoryId, IntIn(body.categoryId, None, None))
    && Optional(body.discountPct, IntIn(body.discountPct, Some(0), Some(100)))
  }

  /** `PUT /api/bouquets/:id`: every field optional, the same bounds when
      present. */
  predicate ValidUpdateBouquet(body: Bouquets.BouquetBody) {
    Optional(body.name, NotEmpty(body.name))
    && Optional(body.price, body.price.Val? && body.price.value >= 0.0)
    && Optional(body.categoryId, IntIn(body.categoryId, None, None))
    && Optional(body.discountPct, IntIn(body.discountPct, Some(0), Some(100)))
  }

  /** `POST /api/categories`: a name, and if present an integer sort order
      of at least 0. */
  predicate ValidCreateCategory(body: Categories.CategoryBody) {
    NotEmpty(body.name) && Optional(body.sortOrder, IntIn(body.sortOrder, Some(0), None))
  }

  /** `PUT /api/categories/:id`: name optional but not empty, the same sort
      order rule. */
  predicate ValidUpdateCategory(body: Categories.CategoryBody) {
    Optional(body.name, NotEmpty(body.name)) && Optional(body.sortOrder, IntIn(body.sortOrder, Some(0), None))
  }

  /** The update rules are the create rules with every field made
      optional: a valid create body is a valid update body. */
  lemma CreateRulesImplyUpdateRules(b: Bouquets.BouquetBody, c: Categories.CategoryBody)
    ensures ValidCreateBouquet(b) ==> ValidUpdateBouquet(b)
    ensures ValidCreateCategory(c) ==> ValidUpdateCategory(c)
    ensures ValidUpdateBouquet(b) && NotEmpty(b.name) && b.price.Val? ==> ValidCreateBouquet(b)
    ensures ValidUpdateCategory(c) && NotEmpty(c.name) ==> ValidCreateCategory(c)
  {
  }

  // --------------------------------------------------------------- routing

  /** The requests of the three routers, with their parsed parameters. */
  datatype Request =
    | ListBouquets(query: Bouquets.ListQuery)
    | ShowBouquet(id: int)
    | PostBouquet(bouquet: Bouquets.BouquetBody)
    | PutBouquet(id: int, bouquet: Bouquets.BouquetBody)
    | RemoveBouquet(id: int)
    | ListCategories
    | PostCategory(category: Categories.CategoryBody)
    | PutCategory(id: int, category: Categories.CategoryBody)
    | RemoveCategory(id: int)
    | PostOrder(order: Orders.OrderBody)
    | ListOrders(status: Option<string>, page: Parsed<int>, limit: Parsed<int>)
    | PutOrderStatus(id: int, newStatus: Field<string>)

  /** The routes behind `adminAuth`. */
  predicate AdminOnly(req: Request) {
    !(req.ListBouquets? || req.ShowBouquet? || req.ListCategories? || req.PostOrder?)
  }

  /** What a request needs besides the store: the SQL the listing delegates
      to MySQL, and the clock. */
  datatype Env = Env(sql: Bouquets.Sql, now: nat)

  /** One request against the store. `authorised` is the verdict of
      `adminAuth` on the request's bearer token; without it an admin route
      answers 401 before its controller runs. A GET leaves the store as it
      was except for the view counter. */
  function Handle(db: Store, env: Env, authorised: bool, req: Request): (r: Outcome)
    ensures AdminOnly(req) && !authorised ==> r == Outcome(db, 401)
    ensures req.PostOrder? ==> r.status == Orders.CreateStatus(Orders.CreateOrder(db, req.order, env.now))
    ensures req.ListBouquets? || req.ListCategories? || req.ListOrders? ==> r.db == db
  {
    if AdminOnly(req) && !authorised then Outcome(db, 401)
    else match req
      case ListBouquets(q) =>
        Outcome(db, if Bouquets.GetAllBouquets(db, env.sql, q).Some? then 200 else 500)
      case ShowBouquet(id) =>
        var res := Bouquets.GetBouquetById(db, id);
        Outcome(res.db, Bouquets.ByIdStatus(res))
      case PostBouquet(body) => Bouquets.CreateBouquet(db, body, env.now)
      case PutBouquet(id, body) => Bouquets.UpdateBouquet(db, id, body)
      case RemoveBouquet(id) => Bouquets.DeleteBouquet(db, id)
      case ListCategories => Outcome(db, 200)
      case PostCategory(body) => Categories.CreateCategory(db, body)
      case PutCategory(id, body) => Categories.UpdateCategory(db, id, body)
      case RemoveCategory(id) => Categories.DeleteCategory(db, id)
      case PostOrder(body) =>
        var res := Orders.CreateOrder(db, body, env.now);
        Outcome(res.db, Orders.CreateStatus(res))
      case ListOrders(status, page, limit) =>
        Outcome(db, if Orders.GetOrders(db, status, page, limit).Some? then 200 else 500)
      case PutOrderStatus(id, status) => Orders.UpdateOrderStatus(db, id, status)
  }

  /** The public routes answer the same with or without a token. */
  lemma PublicRoutesIgnoreAuth(db: Store, env: Env, req: Request)
    requires !AdminOnly(req)
    ensures Handle(db, env, true, req) == Handle(db, env, false, req)
  {
  }

  /** An order the route does not answer 201 leaves every table as it was
      (only the AUTO_INCREMENT counters may have moved). */
  lemma RejectedOrderChangesNoTable(db: Store, env: Env, authorised: bool, body: Orders.OrderBody)
    ensures Handle(db, env, authorised, PostOrder(body)).status != 201 ==>
      SameTables(Handle(db, env, authorised, PostOrder(body)).db, db)
  {
  }

  /** Every request keeps the store well formed. */
  lemma HandlePreservesWellFormed(db: Store, env: Env, authorised: bool, req: Request)
    requires WellFormed(db)
    ensures WellFormed(Handle(db, env, authorised, req).db)
  {
    if !(AdminOnly(req) && !authorised) {
      var out := Handle(db, env, authorised, req).db;
      match req
      case ShowBouquet(id) =>
        assert out == Bouquets.GetBouquetById(db, id).db;
        Bouquets.ViewPreservesWellFormed(db, id);
      case PostBouquet(body) =>
        assert out == Bouquets.CreateBouquet(db, body, env.now).db;
        Bouquets.CreatePreservesWellFormed(db, body, env.now);
      case PutBouquet(id, body) =>
        assert out == Bouquets.UpdateBouquet(db, id, body).db;
        Bouquets.UpdatePreservesWellFormed(db, id, body);
      case RemoveBouquet(id) =>
        assert out == Bouquets.DeleteBouquet(db, id).db;
        Bouquets.DeletePreservesWellFormed(db, id);
      case PostCategory(body) =>
        assert out == Categories.CreateCategory(db, body).db;
        Categories.CategoryOpsPreserveWellFormed(db, 0, body);
      case PutCategory(id, body) =>
        assert out == Categories.UpdateCategory(db, id, body).db;
        Categories.CategoryOpsPreserveWellFormed(db, id, body);
      case RemoveCategory(id) =>
        assert out == Categories.DeleteCategory(db, id).db;
        Categories.CategoryOpsPreserveWellFormed(db, id, Categories.CategoryBody(Undefined, Undefined, Undefined, Undefined, Undefined));
      case PostOrder(body) =>
        assert out == Orders.CreateOrder(db, body, env.now).db;
        Orders.CreateOrderPreservesWellFormed(db, body, env.now);
      case PutOrderStatus(id, status) =>
        assert out == Orders.UpdateOrderStatus(db, id, status).db;
        Orders.UpdateStatusPreservesWellFormed(db, id, status);
      case _ =>
    }
  }

  // ------------------------------------------- the rules are not enforced

  /** The order route's outcome does not depend on the two fields its rules
      check and its controller never reads. */
  lemma OrderOutcomeIgnoresValidatedFields(db: Store, body: Orders.OrderBody, now: nat, phone: Field<string>, address: Field<string>)
    ensures Orders.CreateOrder(db, body.(customerPhone := phone, customerAddress := address), now)
         == Orders.CreateOrder(db, body, now)
  {
    var other := body.(customerPhone := phone, customerAddress := address);
    assert Orders.HeaderBindsDefined(other) == Orders.HeaderBindsDefined(body);
    assert forall id, n :: Orders.NewOrderRow(id, n, other, now) == Orders.NewOrderRow(id, n, body, now);
  }

  /** A body that meets every declared rule but leaves out `phone` (the
      field the controller reads) still fails: 500 and no change. */
  lemma ValidOrderWithoutPhoneFails(db: Store, env: Env, authorised: bool, body: Orders.OrderBody)
    requires ValidCreateOrder(body) && body.phone.Undefined?
    ensures Orders.CreateOrder(db, body, env.now).Failed?
    ensures Handle(db, env, authorised, PostOrder(body)).status == 500
    ensures SameTables(Handle(db, env, authorised, PostOrder(body)).db, db)
  {
  }

  /** A status outside the five names fails its rule and is written all the
      same. */
  lemma UnlistedStatusIsWritten(db: Store, env: Env, id: int, s: string, k: int)
    requires s !in OrderStatuses
    requires 0 <= k < |db.orders| && db.orders[k].id == id
    ensures !ValidStatusUpdate(Val(s))
    ensures Handle(db, env, true, PutOrderStatus(id, Val(s))).status == 200
    ensures Handle(db, env, true, PutOrderStatus(id, Val(s))).db.orders[k].status == Some(s)
  {
  }

  /** A category update that breaks the sort-order rule (a negative, or a
      fraction) is stored as sent. */
  lemma NegativeSortOrderIsStored(db: Store, env: Env, id: int, body: Categories.CategoryBody, k: int)
    requires Categories.UpdateBindsDefined(body) && body.sortOrder.Val? && body.sortOrder.value < 0.0
    requires 0 <= k < |db.categories| && db.categories[k].id == id
    ensures !ValidUpdateCategory(body)
    ensures Handle(db, env, true, PutCategory(id, body)).status == 200
    ensures Handle(db, env, true, PutCategory(id, body)).db.categories[k].sortOrder == Some(body.sortOrder.value)
  {
  }
}

=== FILE: sorting.dfy ===
/** What the SQL listings do after filtering: `ORDER BY key ASC|DESC`,
    `LIMIT n OFFSET m`, and the page count `Math.ceil(total / limit)` the
    controllers report. Keys are nullable numbers; as in MySQL, NULL sorts
    before every number ascending and after every number descending. */
module Sorting {
  import opened Values

  /** `a <= b` on nullable keys, NULL first. */
  predicate KeyLe(a: Option<real>, b: Option<real>) {
    a.None? || (b.Some? && a.value <= b.value)
  }

  /** a may come before b under `ORDER BY ... ASC` (desc false) or `DESC`. */
  predicate InOrder(a: Option<real>, b: Option<real>, desc: bool) {
    if desc then KeyLe(b, a) else KeyLe(a, b)
  }

  /** Every adjacent pair is in order. */
  predicate SortedBy<T>(s: seq<T>, key: T -> Option<real>, desc: bool) {
    forall i :: 0 < i < |s| ==> InOrder(key(s[i - 1]), key(s[i]), desc)
  }

  lemma InOrderTotal(a: Option<real>, b: Option<real>, desc: bool)
    ensures InOrder(a, b, desc) || InOrder(b, a, desc)
  {
  }

  lemma InOrderTransitive(a: Option<real>, b: Option<real>, c: Option<real>, desc: bool)
    requires InOrder(a, b, desc) && InOrder(b, c, desc)
    ensures InOrder(a, c, desc)
  {
  }

  /** Adjacent order gives order between any two positions. */
  lemma {:induction false} SortedPairwise<T>(s: seq<T>, key: T -> Option<real>, desc: bool, i: int, j: int)
    requires SortedBy(s, key, desc)
    requires 0 <= i < j < |s|
    ensures InOrder(key(s[i]), key(s[j]), desc)
    decreases j - i
  {
    if j > i + 1 {
      SortedPairwise(s, key, desc, i, j - 1);
      InOrderTransitive(key(s[i]), key(s[j - 1]), key(s[j]), desc);
    }
  }

  /** Insert x into a sorted list after every row that must precede it. */
  function Insert<T>(x: T, s: seq<T>, key: T -> Option<real>, desc: bool): (r: seq<T>)
    requires SortedBy(s, key, desc)
    ensures SortedBy(r, key, desc)
    ensures multiset(r) == multiset(s) + multiset{x}
    ensures |r| == |s| + 1
    ensures r[0] == x || (|s| > 0 && r[0] == s[0])
  {
    if |s| == 0 then [x]
    else if InOrder(key(x), key(s[0]), desc) then [x] + s
    else
      InOrderTotal(key(x), key(s[0]), desc);
      var rest := Insert(x, s[1..], key, desc);
      assert s == [s[0]] + s[1..];
      [s[0]] + rest
  }

  /** The listing order of a query: a sorted permutation of its rows. */
  function SortBy<T>(s: seq<T>, key: T -> Option<real>, desc: bool): (r: seq<T>)
    ensures SortedBy(r, key, desc)
    ensures multiset(r) == multiset(s)
    ensures |r| == |s|
  {
    if |s| == 0 then []
    else
      assert s == [s[0]] + s[1..];
      Insert(s[0], SortBy(s[1..], key, desc), key, desc)
  }

  function Min(a: int, b: int): int {
    if a <= b then a else b
  }

  /** `LIMIT limit OFFSET offset`. */
  function Page<T>(s: seq<T>, limit: nat, offset: nat): (r: seq<T>)
    ensures |r| == if offset >= |s| then 0 else Min(limit, |s| - offset)
    ensures forall i :: 0 <= i < |r| ==> r[i] == s[offset + i]
  {
    if offset >= |s| then [] else s[offset..offset + Min(limit, |s| - offset)]
  }

  /** `(page - 1) * limit`. */
  function Offset(page: int, limit: int): int {
    (page - 1) * limit
  }

  /** `Math.ceil(total / limit)` as JSON carries it: None where JavaScript
      produces Infinity or NaN (limit 0), which serialise as null. */
  function PageCount(total: nat, limit: int): (r: Option<int>)
    ensures r.None? <==> limit == 0
    ensures r.Some? ==> (r.value as real) - 1.0 < (total as real) / (limit as real) <= r.value as real
  {
    if limit == 0 then None
    else if limit > 0 then
      var p := (total + limit - 1) / limit;
      CeilBounds(total, limit, p);
      Some(p)
    else
      var p := -(total / -limit);
      FloorBounds(total, -limit, total / -limit);
      assert (total as real) / (limit as real) == -((total as real) / ((-limit) as real));
      Some(p)
  }

  lemma CeilBounds(total: nat, limit: int, p: int)
    requires limit > 0 && p == (total + limit - 1) / limit
    ensures (p as real) - 1.0 < (total as real) / (limit as real) <= p as real
  {
    var q := total + limit - 1;
    assert p * limit <= q < p * limit + limit;
    assert total <= p * limit;
    assert (p - 1) * limit < total;
    assert (total as real) <= (p as real) * (limit as real);
    assert ((p - 1) as real) * (limit as real) < total as real;
    DivBounds(total as real, limit as real, (p - 1) as real, p as real);
  }

  /** a / n lies strictly above lo and at most hi when lo * n < a <= hi * n. */
  lemma DivBounds(a: real, n: real, lo: real, hi: real)
    requires n > 0.0 && lo * n < a <= hi * n
    ensures lo < a / n <= hi
  {
    assert a / n - lo == (a - lo * n) / n;
    assert hi - a / n == (hi * n - a) / n;
  }

  /** a / n lies at or above lo and strictly below hi when lo * n <= a < hi * n. */
  lemma DivBoundsHalfOpen(a: real, n: real, lo: real, hi: real)
    requires n > 0.0 && lo * n <= a < hi * n
    ensures lo <= a / n < hi
  {
    assert a / n - lo == (a - lo * n) / n;
    assert hi - a / n == (hi * n - a) / n;
  }

  lemma FloorBounds(total: nat, n: int, q: int)
    requires n > 0 && q == total / n
    ensures (q as real) <= (total as real) / (n as real) < (q as real) + 1.0
  {
    assert q * n <= total < q * n + n;
    assert (q as real) * (n as real) <= total as real;
    assert (total as real) < ((q + 1) as real) * (n as real);
    DivBoundsHalfOpen(total as real, n as real, q as real, (q + 1) as real);
  }
}

=== FILE: tables.dfy ===
/** Lists of records keyed by an integer id, as the shop keeps them both in
    database tables (rows in insertion order) and in client state (cart
    lines, the admin page's lists): `findIndex`, `filter(x => x.id !== k)`
    and `map(x => x.id === k ? f(x) : x)`. */
module Tables {

  /** No two rows share a key. */
  predicate UniqueKeys<T>(rows: seq<T>, key: T -> int) {
    forall i, j :: 0 <= i < j < |rows| ==> key(rows[i]) != key(rows[j])
  }

  /** Number of rows with key k. */
  function Count<T>(rows: seq<T>, key: T -> int, k: int): (n: nat)
    ensures n <= |rows|
  {
    if |rows| == 0 then 0 else (if key(rows[0]) == k then 1 else 0) + Count(rows[1..], key, k)
  }

  /** `rows.findIndex(x => key(x) === k)`: the first row with key k, or -1. */
  function IndexOf<T>(rows: seq<T>, key: T -> int, k: int): (i: int)
    ensures -1 <= i < |rows|
    ensures i >= 0 ==> key(rows[i]) == k && forall j :: 0 <= j < i ==> key(rows[j]) != k
    ensures i < 0 ==> forall j :: 0 <= j < |rows| ==> key(rows[j]) != k
  {
    if |rows| == 0 then -1
    else if key(rows[0]) == k then 0
    else
      var i := IndexOf(rows[1..], key, k);
      if i < 0 then -1 else i + 1
  }

  /** `rows.filter(x => key(x) !== k)`. */
  function Without<T>(rows: seq<T>, key: T -> int, k: int): (r: seq<T>)
    ensures |r| == |rows| - Count(rows, key, k)
    ensures forall i :: 0 <= i < |r| ==> r[i] in rows && key(r[i]) != k
    ensures forall i :: 0 <= i < |rows| && key(rows[i]) != k ==> rows[i] in r
  {
    if |rows| == 0 then []
    else (if key(rows[0]) != k then [rows[0]] else []) + Without(rows[1..], key, k)
  }

  /** `rows.map(x => key(x) === k ? f(x) : x)`. */
  function Replace<T>(rows: seq<T>, key: T -> int, k: int, f: T -> T): (r: seq<T>)
    ensures |r| == |rows|
    ensures forall i :: 0 <= i < |rows| && key(rows[i]) != k ==> r[i] == rows[i]
    ensures forall i :: 0 <= i < |rows| && key(rows[i]) == k ==> r[i] == f(rows[i])
  {
    seq(|rows|, i requires 0 <= i < |rows| => if key(rows[i]) == k then f(rows[i]) else rows[i])
  }

  /** Filtering distributes over concatenation: each part keeps its
      surviving rows, in order. */
  lemma {:induction false} WithoutConcat<T>(a: seq<T>, b: seq<T>, key: T -> int, k: int)
    ensures Without(a + b, key, k) == Without(a, key, k) + Without(b, key, k)
    decreases |a|
  {
    if |a| == 0 {
      assert a + b == b;
    } else {
      assert (a + b)[1..] == a[1..] + b;
      WithoutConcat(a[1..], b, key, k);
    }
  }

  /** Filtering a list that has no row with key k changes nothing. */
  lemma {:induction false} WithoutAbsent<T>(rows: seq<T>, key: T -> int, k: int)
    requires forall i :: 0 <= i < |rows| ==> key(rows[i]) != k
    ensures Without(rows, key, k) == rows
    decreases |rows|
  {
    if |rows| > 0 {
      WithoutAbsent(rows[1..], key, k);
    }
  }

  /** Filtering twice by the same key is filtering once. */
  lemma WithoutIdempotent<T>(rows: seq<T>, key: T -> int, k: int)
    ensures Without(Without(rows, key, k), key, k) == Without(rows, key, k)
  {
    var w := Without(rows, key, k);
    WithoutAbsent(w, key, k);
  }

  /** Filtering keeps keys unique. */
  lemma {:induction false} WithoutUnique<T>(rows: seq<T>, key: T -> int, k: int)
    requires UniqueKeys(rows, key)
    ensures UniqueKeys(Without(rows, key, k), key)
    decreases |rows|
  {
    if |rows| > 0 {
      var rest := rows[1..];
      assert UniqueKeys(rest, key) by {
        forall i, j | 0 <= i < j < |rest|
          ensures key(rest[i]) != key(rest[j])
        {
          assert rest[i] == rows[i + 1] && rest[j] == rows[j + 1];
        }
      }
      WithoutUnique(rest, key, k);
      var w := Without(rest, key, k);
      forall i | 0 <= i < |w|
        ensures key(w[i]) != key(rows[0])
      {
        var j :| 0 <= j < |rest| && rest[j] == w[i];
        assert rows[j + 1] == w[i];
      }
    }
  }

  /** Updating rows without touching their keys keeps keys unique. */
  lemma ReplaceUnique<T>(rows: seq<T>, key: T -> int, k: int, f: T -> T)
    requires UniqueKeys(rows, key)
    requires forall x :: key(f(x)) == key(x)
    ensures UniqueKeys(Replace(rows, key, k, f), key)
  {
    var r := Replace(rows, key, k, f);
    forall i | 0 <= i < |r|
      ensures key(r[i]) == key(rows[i])
    {
      if key(rows[i]) == k {
        assert r[i] == f(rows[i]);
      }
    }
  }

  /** `rows.filter(p)`, or `WHERE p`: the rows satisfying p, in table order. */
  function Where<T>(rows: seq<T>, p: T -> bool): (r: seq<T>)
    ensures |r| <= |rows|
    ensures forall i :: 0 <= i < |r| ==> r[i] in rows && p(r[i])
    ensures forall i :: 0 <= i < |rows| && p(rows[i]) ==> rows[i] in r
  {
    if |rows| == 0 then []
    else (if p(rows[0]) then [rows[0]] else []) + Where(rows[1..], p)
  }

  /** Updating the rows with key k when there are none changes nothing. */
  lemma ReplaceAbsent<T>(rows: seq<T>, key: T -> int, k: int, f: T -> T)
    requires forall i :: 0 <= i < |rows| ==> key(rows[i]) != k
    ensures Replace(rows, key, k, f) == rows
  {
  }

  /** Updating rows with a function that changes nothing changes nothing. */
  lemma ReplaceIdentity<T>(rows: seq<T>, key: T -> int, k: int, f: T -> T)
    requires forall i :: 0 <= i < |rows| && key(rows[i]) == k ==> f(rows[i]) == rows[i]
    ensures Replace(rows, key, k, f) == rows
  {
  }

  /** Every key of rows lies below bound. */
  predicate KeysBelow<T>(rows: seq<T>, key: T -> int, bound: int) {
    forall i :: 0 <= i < |rows| ==> key(rows[i]) < bound
  }

  /** Appending a row whose key is at least every existing key's bound keeps
      keys unique and below the next bound. */
  lemma AppendFresh<T>(rows: seq<T>, key: T -> int, bound: int, x: T)
    requires UniqueKeys(rows, key) && KeysBelow(rows, key, bound) && key(x) == bound
    ensures UniqueKeys(rows + [x], key) && KeysBelow(rows + [x], key, bound + 1)
  {
  }

  /** Filtering keeps every key below the bound. */
  lemma WithoutBelow<T>(rows: seq<T>, key: T -> int, k: int, bound: int)
    requires KeysBelow(rows, key, bound)
    ensures KeysBelow(Without(rows, key, k), key, bound)
  {
    var w := Without(rows, key, k);
    forall i | 0 <= i < |w|
      ensures key(w[i]) < bound
    {
      var j :| 0 <= j < |rows| && rows[j] == w[i];
    }
  }

  /** Filtering by p and then by q is filtering by both at once. */
  lemma {:induction false} WhereWhere<T>(rows: seq<T>, p: T -> bool, q: T -> bool, pq: T -> bool)
    requires forall x :: pq(x) == (p(x) && q(x))
    ensures Where(Where(rows, p), q) == Where(rows, pq)
    decreases |rows|
  {
    if |rows| > 0 {
      WhereWhere(rows[1..], p, q, pq);
      if p(rows[0]) {
        var w := Where(rows, p);
        assert w[0] == rows[0] && w[1..] == Where(rows[1..], p);
        assert Where(w, q) == (if q(rows[0]) then [rows[0]] else []) + Where(w[1..], q);
      } else {
        assert Where(rows, p) == Where(rows[1..], p);
      }
    }
  }

  /** Filtering by predicates that agree on every row gives the same rows. */
  lemma {:induction false} WhereSame<T>(rows: seq<T>, p: T -> bool, q: T -> bool)
    requires forall i :: 0 <= i < |rows| ==> p(rows[i]) == q(rows[i])
    ensures Where(rows, p) == Where(rows, q)
    decreases |rows|
  {
    if |rows| > 0 {
      WhereSame(rows[1..], p, q);
    }
  }
}

=== FILE: text.dfy ===
/** Decimal text: JavaScript's rendering of a non-negative integer
    (`String(n)`, template literals), `padStart(2, "0")`, and the digit
    parser that inverts them. */
module Text {
  import Values

  predicate IsDigit(c: char) {
    '0' <= c <= '9'
  }

  predicate AllDigits(s: string) {
    forall i :: 0 <= i < |s| ==> IsDigit(s[i])
  }

  function DigitChar(d: nat): (c: char)
    requires d < 10
    ensures IsDigit(c)
  {
    ('0' as int + d) as char
  }

  function DigitValue(c: char): (d: nat)
    requires IsDigit(c)
    ensures d < 10
  {
    c as int - '0' as int
  }

  /** `String(n)` for a non-negative integer: shortest decimal form. */
  function NatToString(n: nat): (s: string)
    ensures |s| >= 1 && AllDigits(s)
    ensures |s| > 1 ==> s[0] != '0'
    decreases n
  {
    if n < 10 then [DigitChar(n)] else NatToString(n / 10) + [DigitChar(n % 10)]
  }

  /** Value of a string of decimal digits (most significant first). */
  function ParseDigits(s: string): nat
    requires AllDigits(s)
  {
    if |s| == 0 then 0 else 10 * ParseDigits(s[..|s| - 1]) + DigitValue(s[|s| - 1])
  }

  /** A non-empty all-digit string's value, or None (NaN) for anything else. */
  function ParseNat(s: string): (r: Values.Option<nat>)
    ensures r.Some? <==> |s| > 0 && AllDigits(s)
  {
    if |s| > 0 && AllDigits(s) then Values.Some(ParseDigits(s)) else Values.None
  }

  /** Parsing the decimal rendering of n gives n back. */
  lemma {:induction false} ParseNatToString(n: nat)
    ensures ParseNat(NatToString(n)) == Values.Some(n)
    decreases n
  {
    var s := NatToString(n);
    if n >= 10 {
      ParseNatToString(n / 10);
      assert s[..|s| - 1] == NatToString(n / 10);
      assert DigitValue(s[|s| - 1]) == n % 10;
      assert ParseDigits(s) == 10 * (n / 10) + n % 10;
    } else {
      assert s[..0] == [];
      assert ParseDigits(s) == DigitValue(s[0]);
    }
  }

  /** Different numbers render differently. */
  lemma NatToStringInjective(a: nat, b: nat)
    requires NatToString(a) == NatToString(b)
    ensures a == b
  {
    ParseNatToString(a);
    ParseNatToString(b);
  }

  /** `s.padStart(2, "0")`. */
  function PadStart2(s: string): (r: string)
    ensures |r| == if |s| >= 2 then |s| else 2
    ensures r[|r| - |s|..] == s
    ensures forall i :: 0 <= i < |r| - |s| ==> r[i] == '0'
  {
    if |s| >= 2 then s else seq(2 - |s|, _ => '0') + s
  }
}

=== FILE: types.dfy ===
/** The storefront's client-side records (frontend/src/types/index.ts):
    what the browser holds after the API has answered. Numbers are exact
    reals; ids and quantities are integers. */
module Types {
  import opened Values

  datatype Bouquet = Bouquet(
    id: int,
    name: string,
    description: string,
    price: real,
    discountPct: Option<real>,
    categoryId: int,
    images: seq<string>,
    isAvailable: bool,
    isFeatured: bool)

  datatype Category = Category(
    id: int,
    name: string,
    description: string,
    imageUrl: string,
    sortOrder: real,
    isActive: bool)

  /** One cart line: a copy of the bouquet's name, price and discount taken
      when it was first added, and a quantity. */
  datatype CartItem = CartItem(
    bouquetId: int,
    name: string,
    price: real,
    quantity: int,
    image: string,
    discountPct: Option<real>)

  /** The cart with the totals it stores next to its lines. */
  datatype Cart = Cart(items: seq<CartItem>, total: real, discount: real, finalTotal: real)

  datatype PaymentMethod = Card | Cash

  /** The checkout form as the customer filled it in. */
  datatype OrderForm = OrderForm(
    customerName: string,
    phone: string,
    email: string,
    deliveryAddress: string,
    deliveryDate: string,
    deliveryTime: string,
    paymentMethod: PaymentMethod,
    notes: string)

  /** An order as the admin page lists it. */
  datatype Order = Order(id: int, customerName: string, totalAmount: real, status: string)
}

=== FILE: uploads.dfy ===
/** Image uploads (backend/src/controllers/uploadController.js): the MIME
    filter, the size limit, the stored file name and the public URL. The
    timestamp and the random suffix multer's storage puts in the name are
    parameters; the upload directories are a set of stored files. */
module Uploads {
  import opened Values
  import Text

  /** What multer hands the controller about the uploaded file. */
  datatype UploadedFile = UploadedFile(originalName: string, mimetype: string, size: nat)

  const AllowedTypes: seq<string> := ["image/jpeg", "image/png", "image/webp"]

  /** `limits.fileSize`: 5 MiB. */
  const MaxFileSize: nat := 5 * 1024 * 1024

  /** `fileFilter`: accept the file iff its MIME type is in the list. */
  function FileFilter(mimetype: string): (accepted: bool)
    ensures accepted <==> mimetype == "image/jpeg" || mimetype == "image/png" || mimetype == "image/webp"
  {
    mimetype in AllowedTypes
  }

  /** The variables of Node's `path.extname` loop (POSIX flavour). */
  datatype ExtState = ExtState(startDot: int, startPart: int, end: int, matchedSlash: bool, preDotState: int, stopped: bool)

  const ExtStart := ExtState(-1, 0, -1, true, 0, false)

  /** The positions the loop records stay inside the path, and a dot is only
      recorded after the end of the last part is. */
  predicate ExtInv(path: string, st: ExtState) {
    -1 <= st.startDot < |path| && 0 <= st.startPart <= |path| && -1 <= st.end <= |path|
    && (st.startDot >= 0 ==> st.end > st.startDot)
  }

  /** The loop body for positions i down to 0: scan from the right for the
      last dot of the last path segment, stopping at the slash before it. */
  function ExtScan(path: string, i: int, st: ExtState): (r: ExtState)
    requires -1 <= i < |path| && ExtInv(path, st)
    requires st.end >= 0 ==> st.end > i
    ensures ExtInv(path, r)
    decreases i + 1
  {
    if i < 0 || st.stopped then st
    else if path[i] == '/' then
      if !st.matchedSlash then st.(startPart := i + 1, stopped := true)
      else ExtScan(path, i - 1, st)
    else
      var st1 := if st.end == -1 then st.(matchedSlash := false, end := i + 1) else st;
      var st2 :=
        if path[i] == '.' then
          if st1.startDot == -1 then st1.(startDot := i)
          else if st1.preDotState != 1 then st1.(preDotState := 1)
          else st1
        else if st1.startDot != -1 then st1.(preDotState := -1)
        else st1;
      ExtScan(path, i - 1, st2)
  }

  /** `path.extname(p)`: from the last dot of the last segment to its end,
      or "" when there is no dot, when the dot opens the segment, or when
      the segment is "..". */
  function ExtName(path: string): (r: string)
    ensures r == "" || r[0] == '.'
  {
    var st := ExtScan(path, |path| - 1, ExtStart);
    if st.startDot == -1 || st.end == -1 || st.preDotState == 0
       || (st.preDotState == 1 && st.startDot == st.end - 1 && st.startDot == st.startPart + 1)
    then ""
    else
      assert path[st.startDot] == '.' by { ScanDot(path, |path| - 1, ExtStart); }
      path[st.startDot..st.end]
  }

  /** The recorded dot is a dot. */
  lemma {:induction false} ScanDot(path: string, i: int, st: ExtState)
    requires -1 <= i < |path| && ExtInv(path, st)
    requires st.end >= 0 ==> st.end > i
    requires st.startDot >= 0 ==> path[st.startDot] == '.'
    ensures var r := ExtScan(path, i, st); r.startDot >= 0 ==> path[r.startDot] == '.'
    decreases i + 1
  {
    if i >= 0 && !st.stopped && path[i] != '/' {
      var st1 := if st.end == -1 then st.(matchedSlash := false, end := i + 1) else st;
      var st2 :=
        if path[i] == '.' then
          if st1.startDot == -1 then st1.(startDot := i)
          else if st1.preDotState != 1 then st1.(preDotState := 1)
          else st1
        else if st1.startDot != -1 then st1.(preDotState := -1)
        else st1;
      ScanDot(path, i - 1, st2);
    } else if i >= 0 && !st.stopped && st.matchedSlash {
      ScanDot(path, i - 1, st);
    }
  }

  predicate NoSlash(s: string) {
    forall k :: 0 <= k < |s| ==> s[k] != '/'
  }

  predicate NoDotOrSlash(s: string) {
    forall k :: 0 <= k < |s| ==> s[k] != '.' && s[k] != '/'
  }

  /** Scanning the extension's letters (no dot, no slash) only records where
      the name ends. */
  lemma {:induction false} ScanExtLetters(path: string, i: int, lo: int)
    requires 0 <= lo && lo - 1 <= i < |path|
    requires forall k :: lo <= k < |path| ==> path[k] != '.' && path[k] != '/'
    requires i == |path| - 1 || lo > |path| - 1
    ensures ExtScan(path, i, ExtStart) == ExtScan(path, lo - 1,
              if lo <= |path| - 1 then ExtStart.(matchedSlash := false, end := |path|) else ExtStart)
  {
    if lo <= i {
      var st1 := ExtStart.(matchedSlash := false, end := |path|);
      ScanLettersAfterEnd(path, i - 1, lo, st1);
    }
  }

  /** With the end already recorded and no dot yet, letters change nothing. */
  lemma {:induction false} ScanLettersAfterEnd(path: string, i: int, lo: int, st: ExtState)
    requires 0 <= lo && lo - 1 <= i < |path| && ExtInv(path, st)
    requires st.end >= 0 && st.end > i && st.startDot == -1 && !st.matchedSlash && !st.stopped
    requires forall k :: lo <= k <= i ==> path[k] != '.' && path[k] != '/'
    ensures ExtScan(path, i, st) == ExtScan(path, lo - 1, st)
    decreases i + 1
  {
    if lo <= i {
      ScanLettersAfterEnd(path, i - 1, lo, st);
    }
  }

  /** Scanning the stem (no slash) after the dot: only `preDotState` moves,
      and it ends -1 if the character just before the dot is the last thing
      read that is not a dot, 1 if it was a dot. */
  lemma {:induction false} ScanStem(path: string, i: int, st: ExtState)
    requires -1 <= i < |path| && ExtInv(path, st)
    requires st.end > i && st.startDot > i && !st.matchedSlash && !st.stopped
    requires st.startPart == 0
    requires forall k :: 0 <= k <= i ==> path[k] != '/'
    requires i >= 0 ==> st.preDotState == 0 || st.preDotState == 1 || st.preDotState == -1
    ensures var r := ExtScan(path, i, st);
      r.startDot == st.startDot && r.end == st.end && r.startPart == 0
      && (i >= 0 ==> r.preDotState != 0)
      && (i < 0 ==> r.preDotState == st.preDotState)
      && (i == 0 ==> r.preDotState == (if path[0] == '.' then 1 else -1))
    decreases i + 1
  {
    if i >= 0 {
      var st2 := if path[i] == '.' then (if st.preDotState != 1 then st.(preDotState := 1) else st)
                 else st.(preDotState := -1);
      ScanStem(path, i - 1, st2);
    }
  }

  /** What the scan of `stem.ext` records: the dot after the stem, the end
      of the name, the whole name as the last part, and a stem that was
      read (just a dot when the stem is "."). */
  lemma ScanFileName(stem: string, ext: string)
    requires |stem| > 0 && NoSlash(stem) && NoDotOrSlash(ext)
    ensures var path := stem + "." + ext;
      var st := ExtScan(path, |path| - 1, ExtStart);
      st.startDot == |stem| && st.end == |path| && st.startPart == 0 && st.preDotState != 0
      && (|stem| == 1 ==> (st.preDotState == 1 <==> stem == "."))
  {
    var path := stem + "." + ext;
    var d := |stem|;
    assert path[d] == '.';
    assert forall k :: d + 1 <= k < |path| ==> path[k] == ext[k - d - 1];
    ScanExtLetters(path, |path| - 1, d + 1);
    var before := if d + 1 <= |path| - 1 then ExtStart.(matchedSlash := false, end := |path|) else ExtStart;
    var st1 := if before.end == -1 then before.(matchedSlash := false, end := d + 1) else before;
    assert st1.end == |path| && st1.startDot == -1;
    var st2 := st1.(startDot := d);
    assert ExtScan(path, d, before) == ExtScan(path, d - 1, st2);
    assert forall k :: 0 <= k < d ==> path[k] == stem[k];
    ScanStem(path, d - 1, st2);
  }

  /** The extension of an ordinary file name `stem.ext` is `.ext`: the stem
      is not empty and has no slash, the extension has no dot and no slash,
      and the name is not "..". */
  lemma ExtNameOfFileName(stem: string, ext: string)
    requires |stem| > 0 && NoSlash(stem) && NoDotOrSlash(ext)
    requires ext != "" || stem != "."
    ensures ExtName(stem + "." + ext) == "." + ext
  {
    ScanFileName(stem, ext);
    var path := stem + "." + ext;
    assert path[|stem|..|path|] == "." + ext;
  }

  /** multer's stored name: `Date.now() + '-' + Math.round(Math.random() * 1E9)`
      followed by the original name's extension. */
  function StoredName(now: nat, random: nat, originalName: string): (name: string)
    ensures |name| >= |ExtName(originalName)|
    ensures name[|name| - |ExtName(originalName)|..] == ExtName(originalName)
  {
    var name := Text.NatToString(now) + "-" + Text.NatToString(random) + ExtName(originalName);
    assert name[|name| - |ExtName(originalName)|..] == ExtName(originalName);
    name
  }

  /** `/uploads/${type}/${filename}`. */
  function UploadUrl(kind: string, filename: string): (url: string)
    ensures |url| == 10 + |kind| + |filename|
    ensures url[..9] == "/uploads/" && url[|url| - |filename|..] == filename
  {
    var url := "/uploads/" + kind + "/" + filename;
    assert url[..9] == "/uploads/";
    assert url[|url| - |filename|..] == filename;
    url
  }

  /** A stored file, named by the `:type` segment of its directory and its
      stored name (the model does not resolve `..` in `:type`). */
  datatype StoredFile = StoredFile(kind: string, name: string)

  datatype UploadReply = Uploaded(url: string, filename: string) | Rejected(status: int)

  /** The upload directory's files after the request, and the reply. */
  datatype UploadResult = UploadResult(files: set<StoredFile>, reply: UploadReply)

  /** The upload route after multer: a rejected type or an oversized file is
      an error Express answers with 500; no file at all is the controller's
      400; otherwise the file is stored under its new name and the reply
      holds its URL. */
  function UploadImage(files: set<StoredFile>, kind: string, file: Option<UploadedFile>, now: nat, random: nat): (r: UploadResult)
    ensures file.None? ==> r.reply == Rejected(400)
    ensures file.Some? && !FileFilter(file.value.mimetype) ==> r.reply == Rejected(500)
    ensures file.Some? && file.value.size > MaxFileSize ==> r.reply == Rejected(500)
    ensures r.reply.Uploaded? <==> file.Some? && FileFilter(file.value.mimetype) && file.value.size <= MaxFileSize
    ensures r.reply.Rejected? ==> r.files == files
    ensures r.reply.Uploaded? ==>
      r.reply.filename == StoredName(now, random, file.value.originalName)
      && r.reply.url == UploadUrl(kind, r.reply.filename)
      && r.files == files + {StoredFile(kind, r.reply.filename)}
  {
    if file.None? then UploadResult(files, Rejected(400))
    else if !FileFilter(file.value.mimetype) then UploadResult(files, Rejected(500))
    else if file.value.size > MaxFileSize then UploadResult(files, Rejected(500))
    else
      var name := StoredName(now, random, file.value.originalName);
      UploadResult(files + {StoredFile(kind, name)}, Uploaded(UploadUrl(kind, name), name))
  }

  /** `deleteImage`: 200 and the file is gone if it exists, else 404. */
  function DeleteImage(files: set<StoredFile>, kind: string, filename: string): (r: (set<StoredFile>, int))
    ensures r.1 == 200 <==> StoredFile(kind, filename) in files
    ensures r.1 != 200 ==> r == (files, 404)
    ensures StoredFile(kind, filename) !in r.0 && r.0 <= files
    ensures forall f :: f in files && f != StoredFile(kind, filename) ==> f in r.0
  {
    if StoredFile(kind, filename) in files then (files - {StoredFile(kind, filename)}, 200)
    else (files, 404)
  }

  /** Deleting the file an upload just stored succeeds and restores the
      directory (when the name was new); a second delete answers 404. */
  lemma UploadThenDelete(files: set<StoredFile>, kind: string, file: UploadedFile, now: nat, random: nat)
    requires FileFilter(file.mimetype) && file.size <= MaxFileSize
    ensures var up := UploadImage(files, kind, Some(file), now, random);
      var del := DeleteImage(up.files, kind, up.reply.filename);
      del.1 == 200 && (StoredFile(kind, up.reply.filename) !in files ==> del.0 == files)
      && DeleteImage(del.0, kind, up.reply.filename).1 == 404
  {
    var up := UploadImage(files, kind, Some(file), now, random);
    var f := StoredFile(kind, up.reply.filename);
    if f !in files {
      assert up.files - {f} == files;
    }
  }

  /** A suffix of a suffix is a suffix. */
  lemma SuffixOfSuffix(s: string, t: string, u: string)
    requires |t| <= |s| && s[|s| - |t|..] == t
    requires |u| <= |t| && t[|t| - |u|..] == u
    ensures s[|s| - |u|..] == u
  {
    assert s[|s| - |u|..] == s[|s| - |t|..][|t| - |u|..];
  }

  /** A URL ends in whatever its stored name ends in. */
  lemma UrlKeepsSuffix(kind: string, name: string, suffix: string)
    requires |suffix| <= |name| && name[|name| - |suffix|..] == suffix
    ensures var url := UploadUrl(kind, name);
      |url| >= |suffix| && url[..9] == "/uploads/" && url[|url| - |suffix|..] == suffix
  {
    SuffixOfSuffix(UploadUrl(kind, name), name, suffix);
  }

  /** An accepted `photo.png` comes back as a URL under /uploads/ that ends
      in `.png`. */
  lemma UploadedUrlKeepsExtension(files: set<StoredFile>, kind: string, stem: string, ext: string, mimetype: string, size: nat, now: nat, random: nat)
    requires |stem| > 0 && NoSlash(stem) && NoDotOrSlash(ext) && (ext != "" || stem != ".")
    requires FileFilter(mimetype) && size <= MaxFileSize
    ensures var r := UploadImage(files, kind, Some(UploadedFile(stem + "." + ext, mimetype, size)), now, random).reply;
      r.Uploaded? && |r.url| > |ext| && r.url[..9] == "/uploads/" && r.url[|r.url| - |ext| - 1..] == "." + ext
  {
    var original := stem + "." + ext;
    var r := UploadImage(files, kind, Some(UploadedFile(original, mimetype, size)), now, random).reply;
    assert r.Uploaded?;
    ExtNameOfFileName(stem, ext);
    var name := StoredName(now, random, original);
    assert r.filename == name && r.url == UploadUrl(kind, name);
    UrlKeepsSuffix(kind, name, ExtName(original));
  }
}

=== FILE: values.dfy ===
/** JavaScript-level values shared by every part of the shop: optional
    columns, request-body fields with JavaScript's three ways of being
    "missing", and the truthiness rules the controllers branch on. */
module Values {

  /** A nullable database column (None is SQL NULL) or an optional value. */
  datatype Option<+T> = None | Some(value: T)

  /** One field of a JSON request body: left out of the body (`undefined`),
      sent as `null`, or sent with a value. */
  datatype Field<+T> = Undefined | Null | Val(value: T)

  /** A query-string number after `parseInt`/`parseFloat`: parameter not sent,
      sent but not a number (NaN), or a number. */
  datatype Parsed<+T> = Missing | NaN | Num(value: T)

  /** The names every plain object literal inherits from `Object.prototype`.
      Looking one of them up in a lookup table such as `{ a: ..., b: ... }`
      yields a function (or, for `__proto__`, the prototype object itself):
      truthy, so a `table[key] || fallback` does not take the fallback. */
  const InheritedKeys: set<string> := {
    "constructor", "toString", "toLocaleString", "valueOf", "hasOwnProperty",
    "isPrototypeOf", "propertyIsEnumerable", "__proto__", "__defineGetter__",
    "__defineSetter__", "__lookupGetter__", "__lookupSetter__"}

  /** A real number with no fractional part (what `isInt` accepts of a number). */
  predicate IsInt(x: real) {
    x == x.Floor as real
  }

  /** JavaScript truthiness of a string field: present and non-empty. */
  predicate TruthyStr(f: Field<string>) {
    f.Val? && f.value != ""
  }

  /** JavaScript truthiness of a number field: present and non-zero. */
  predicate TruthyNum(f: Field<real>) {
    f.Val? && f.value != 0.0
  }

  /** `f !== undefined`: true for `null` as well as for a value. */
  predicate Defined<T>(f: Field<T>) {
    !f.Undefined?
  }

  /** How a bind parameter lands in a nullable column: a value is stored,
      `null` and `undefined` become NULL. */
  function Column<T>(f: Field<T>): (c: Option<T>)
    ensures c.Some? <==> f.Val?
    ensures c.Some? ==> c.value == f.value
  {
    if f.Val? then Some(f.value) else None
  }

  /** `new || old` for a string field: the new value only when truthy. */
  function OrStr(f: Field<string>, current: Option<string>): (r: Option<string>)
    ensures TruthyStr(f) ==> r == Some(f.value)
    ensures !TruthyStr(f) ==> r == current
  {
    if TruthyStr(f) then Some(f.value) else current
  }

  /** `new || old` for a number field: the new value only when non-zero. */
  function OrNum(f: Field<real>, current: Option<real>): (r: Option<real>)
    ensures TruthyNum(f) ==> r == Some(f.value)
    ensures !TruthyNum(f) ==> r == current
  {
    if TruthyNum(f) then Some(f.value) else current
  }

  /** `new !== undefined ? new : old`: `null` is written as NULL. */
  function IfDefined<T>(f: Field<T>, current: Option<T>): (r: Option<T>)
    ensures f.Undefined? ==> r == current
    ensures f.Null? ==> r == None
    ensures f.Val? ==> r == Some(f.value)
  {
    match f
    case Undefined => current
    case Null => None
    case Val(v) => Some(v)
  }

  /** `f ?? d` for a boolean field: the default only for `null`/`undefined`. */
  function Coalesce(f: Field<bool>, d: bool): (r: bool)
    ensures f.Val? ==> r == f.value
    ensures !f.Val? ==> r == d
  {
    if f.Val? then f.value else d
  }
}
